=== FILE: README.md ===
# soosan: a Dafny model of the truck and blog site's page logic

The soosan site sells trucks, cranes, trailers and tractor units and runs a Vietnamese blog. This
project models the parts of its TypeScript front end that decide what a page shows. Each part is
written as pure Dafny functions over immutable data, and each comes with proved properties.

- **Compare list** (`CompareContext`, `ComparePage`). The selection holds at most three vehicles
  with pairwise distinct ids. The context builds its URL from ids joined by `-`. The compare page
  writes slugs joined by `-vs-` into the path and reads them back.
- **Catalog** (`TruckCatalog`, `CatalogClient`, `WeightFilter`, `WeightCategories`, `Products`).
  - The staged filter pipeline and the query string it is read from and written to.
  - The simple tab listing.
  - The weight slider's label.
  - The weight-bucket links on the home page.
  - The placeholder products for extra categories.
  - The de-duplicated, canonically spelt brand list.
- **Vehicle detail** (`TruckDetail`). The related vehicles, the compare toggle with its toast, and
  the tab list chosen by vehicle type. A comment in `src/pages_old/TruckDetail.tsx` (line 126) says
  trailers get only two tabs, but the code also adds the specification tab for them. The model
  follows the code.
- **Search** (`SearchPage`). Vehicle and post matches, and the vehicle sections grouped by type.
- **Blog** (`BlogPost`, `BlogPage`, `BlogCategoryPage`, `BlogPostPage`, `BlogClient`,
  `Pagination`).
  - The category tables and their slugs.
  - Newest-first ordering and the top-five side lists.
  - The tab and text filter.
  - Pages of nine and of twelve, and the page-number bar.
  - The category page's slug lookup.
  - The post page's related and recommended posts and the author's initials.
- **Order pop-up** (`OrderNotification`). The "time ago" text and the rotation through the
  notifications.
- **Metadata** (`Seo`, `StructuredData`). Page titles, canonical URLs, keywords, robots,
  breadcrumbs, and the schema.org product, article, item-list and FAQ records.

Helper modules model the JavaScript runtime:
- `Js` covers truthiness, `undefined` as `Option`, `slice`, `join`, `split`, `includes` and `trim`.
- `Seqs` covers `filter` and order-preserving subsequences.
- `Sorting` covers the stable `Array.prototype.sort`.
- `Grouping` covers reducing into an object of arrays.

Some locale and runtime services are not given a definition. These are lower- and upper-casing,
number formatting, `Number()` parsing, `toLocaleString('vi-VN')` and `localeCompare(…, 'vi')`.
Each is a function field of the `Js.Host` record passed in as a parameter. The properties the
proofs need from them are explicit `requires`:
- `NumberTextRoundTrips`: parsing a formatted number gives the number back.
- `LowerAgreesOnAscii`: lower-casing agrees with ASCII folding on ASCII text.

The site URL (`NEXT_PUBLIC_SITE_URL`) and the current time are parameters.

## Model

| member | source | states |
|---|---|---|
| Trucks.FirstBrand | src/lib/seo.ts:85 | the first brand of a brand that is a string or an array; undefined exactly when the array is empty |
| Trucks.SameBrandEquivalence | src/pages_old/TruckDetail.tsx:41-47 | `===` on brands is reflexive, symmetric and transitive |
| Trucks.ArrayBrandsCompareByIdentity | src/pages_old/TruckDetail.tsx:41-47 | two brand arrays with equal contents are not `===`, and a string is never `===` an array, so the "same brand" test misses them |
| Trucks.FindBySlug | src/pages_old/TruckDetail.tsx:36 | `find` by slug: found iff some vehicle has the slug; the result is the first such vehicle |
| CompareContext.AddToCompare | src/contexts/CompareContext.tsx:48-72 | the cap of three is checked before the duplicate guard; only an "added" outcome changes the list, by appending the vehicle |
| CompareContext.RemoveFromCompare | src/contexts/CompareContext.tsx:75-82 | keeps, in order, every entry with another id, each as often as before, and drops the rest; a missing id changes nothing |
| CompareContext.ClearCompare | src/contexts/CompareContext.tsx:85-92 | the list becomes empty |
| CompareContext.CompareUrl | src/contexts/CompareContext.tsx:100-108 | bare compare path iff the list is empty, otherwise the ids joined with `-` |
| CompareContext.LoadTrucksFromUrl | src/contexts/CompareContext.tsx:111-115 | a non-empty list replaces the selection; an empty one leaves it alone |
| CompareContext.ApplyKeepsWellFormed | src/contexts/CompareContext.tsx:48-92 | add, remove and clear each keep the list at three or fewer entries with distinct ids |
| CompareContext.RunKeepsWellFormed | src/contexts/CompareContext.tsx:48-92 | any sequence of add, remove and clear keeps that invariant |
| CompareContext.ClearEmpties | src/contexts/CompareContext.tsx:85-108 | after clearing, no id is in the list and the URL is the bare path |
| CompareContext.AddThenRemove | src/contexts/CompareContext.tsx:48-82 | adding then removing a vehicle that was not present restores the list |
| CompareContext.AddThenInCompare | src/contexts/CompareContext.tsx:48-97 | when the list has room, the vehicle is in it after adding, whether it was new or a duplicate |
| CompareContext.CompareUrlIds | src/contexts/CompareContext.tsx:100-108 | for ids without an early `-`, splitting the URL's last segment on `-` gives back the ids in order |
| CompareContext.LoadBypassesGuards | src/contexts/CompareContext.tsx:111-115 | the load path accepts four copies of one vehicle, bypassing both the cap and the duplicate guard |
| ComparePage.NavigationTarget | src/pages/ComparePage.tsx:28-31 | navigation happens iff the selection is non-empty and there is no slug parameter; the path joins the slugs with `-vs-` |
| ComparePage.ResolveSlugs | src/pages/ComparePage.tsx:67-73 | each resolved vehicle is the first catalog vehicle with its slug |
| ComparePage.ResolveSlugsFollowsUrl | src/pages/ComparePage.tsx:67-73 | the resolved slugs are the URL slugs that are in the catalog, in URL order, with repeats kept |
| ComparePage.LoadFromParam | src/pages/ComparePage.tsx:49-79 | the selection stays when every URL slug is already selected or none resolves; otherwise the selection's slugs become the resolvable URL slugs, in URL order |
| ComparePage.OnParam | src/pages/ComparePage.tsx:42-46 | only a truthy slug parameter triggers a load |
| ComparePage.VsSeparatorFree | src/pages/ComparePage.tsx:51 | a slug survives joining and splitting on `-vs-` iff it neither contains `-vs-` nor ends in `-vs` |
| ComparePage.TrailingDashHarmless | src/pages/ComparePage.tsx:51 | slugs ending in `-` or `-v` survive; one ending in `-vs` does not |
| ComparePage.OwnPathDoesNotReload | src/pages/ComparePage.tsx:28-64 | the path the page writes reads back as the same selection, so the load effect does not change it |
| ComparePage.UnresolvedKeepsSelection | src/pages/ComparePage.tsx:67-78 | when no URL slug is in the catalog, the selection is kept |
| ComparePage.AllKnownSlugsLoad | src/pages/ComparePage.tsx:67-78 | when every URL slug is in the catalog, a fresh session selects one vehicle per slug, in order |
| ComparePage.UncappedLoad | src/pages/ComparePage.tsx:76-78 | four resolvable slugs select four vehicles, more than the context's cap |
| ComparePage.ContextUrlIsNotReadable | src/contexts/CompareContext.tsx:100-108 | the context's id URL is not readable by the page, which expects slugs: it selects nothing |
| TruckDetail.RelatedTrucks | src/pages_old/TruckDetail.tsx:41-52 | at most four other vehicles, each of the same brand by `===` or within two tonnes, in catalog order |
| TruckDetail.RelatedAreFirstMatches | src/pages_old/TruckDetail.tsx:41-52 | the related list is the first min(4, n) matches of the filter |
| TruckDetail.DetailFor | src/pages_old/TruckDetail.tsx:34-38 | a detail is shown iff the slug is truthy and some vehicle has it; it is the first such vehicle, shown with that vehicle's related vehicles |
| TruckDetail.LocalCategorySlugAgrees | src/pages_old/TruckDetail.tsx:56-66 | the page's own category-slug table agrees with the blog model's on every string |
| TruckDetail.ToggleCompare | src/pages_old/TruckDetail.tsx:86-100 | removes with the context's remove when present, otherwise adds; the toast says "added" even when the context refused |
| TruckDetail.FullListToastMismatch | src/pages_old/TruckDetail.tsx:86-100 | on a full list the page claims "added" while the list is unchanged and the context reports it full |
| TruckDetail.ToggleTwice | src/pages_old/TruckDetail.tsx:86-100 | toggling twice restores a list that had room and lacked the vehicle |
| TruckDetail.Tabs | src/pages_old/TruckDetail.tsx:107-159 | two to four tabs, description first and contact last |
| TruckDetail.TabsDistinct | src/pages_old/TruckDetail.tsx:107-159 | tab values are pairwise distinct |
| TruckDetail.TabsTractorAndTrailer | src/pages_old/TruckDetail.tsx:113-130 | tractors and trailers get exactly the specification tab in the middle |
| TruckDetail.TabsCrane | src/pages_old/TruckDetail.tsx:117-126 | for cranes the crane kind alone decides the tabs |
| TruckDetail.TabsOther | src/pages_old/TruckDetail.tsx:131-153 | other types get the specification tab and a fourth tab iff the body type has a box tab |
| TruckCatalog.Stage | src/pages/TruckCatalog.tsx:81-83 | an inactive criterion leaves the list alone; an active one filters it |
| TruckCatalog.ApplyFilters | src/pages/TruckCatalog.tsx:76-131 | the staged pipeline never adds vehicles |
| TruckCatalog.MatchesMeaning | src/pages/TruckCatalog.tsx:81-127 | a vehicle passes iff it meets each active criterion: type, brand substring, price bounds, weight bounds, text |
| TruckCatalog.ApplyFiltersIsFilter | src/pages/TruckCatalog.tsx:76-131 | the staged pipeline equals one filter by the conjunction of all criteria |
| TruckCatalog.ApplyFiltersSubseq | src/pages/TruckCatalog.tsx:76-131 | the result is an order-preserving selection holding exactly the matching visible vehicles |
| TruckCatalog.ApplyFiltersIdempotent | src/pages/TruckCatalog.tsx:76-131 | filtering the result again changes nothing |
| TruckCatalog.ResetShowsAll | src/pages/TruckCatalog.tsx:167-179 | after a reset every visible vehicle is shown |
| TruckCatalog.ZeroMaximumIsUnbounded | src/pages/TruckCatalog.tsx:96-109 | a maximum price or weight of 0 imposes no bound, because `max \|\| Infinity` treats 0 as missing |
| TruckCatalog.BoundsInclusive | src/pages/TruckCatalog.tsx:96-101 | a vehicle priced exactly at both bounds passes |
| TruckCatalog.Get | src/pages/TruckCatalog.tsx:32-40 | `URLSearchParams.get` gives the first value for the name, and null iff the name is absent |
| TruckCatalog.NumberParam | src/pages/TruckCatalog.tsx:47-57 | a number parameter is read iff its text is truthy, through `Number()` |
| TruckCatalog.FromQuery | src/pages/TruckCatalog.tsx:32-57 | the filters read from the query: brand, type and search are the raw parameters; each price and weight bound is the parameter's number when the parameter is non-empty, otherwise none |
| TruckCatalog.QueryRoundTrip | src/pages/TruckCatalog.tsx:134-164 | writing the filters to the query and reading them back gives the filters again: empty texts come back as null, and numbers, zero included, come back unchanged |
| TruckCatalog.EmptyQueryNoFilters | src/pages/TruckCatalog.tsx:32-57 | an empty query string gives no filters |
| TruckCatalog.SafeSelectedType | src/pages/TruckCatalog.tsx:187-190 | the filter's type when it is enabled, otherwise the first enabled type |
| TruckCatalog.SafeSelectedTypeIsEnabled | src/pages/TruckCatalog.tsx:187-190 | the selected tab is always an enabled type |
| CatalogClient.Shown | app/danh-muc-xe/catalog-client.tsx:20-22 | "all" shows every vehicle; another tab shows the vehicles of that type in catalog order, each as often as in the catalog |
| CatalogClient.EmptyMessage | app/danh-muc-xe/catalog-client.tsx:45-49 | the empty message shows iff no vehicle has the selected type |
| CatalogClient.TypeTabsDistinct | app/danh-muc-xe/catalog-client.tsx:12-18 | the type tabs are distinct |
| CatalogClient.TypeTabsPartition | app/danh-muc-xe/catalog-client.tsx:12-22 | the type tabs' sizes add up to the vehicles of a listed type; to all vehicles when every type is listed |
| SearchPage.Query | src/pages_old/SearchPage.tsx:17 | the `q` parameter when truthy, otherwise "" |
| SearchPage.Results | src/pages_old/SearchPage.tsx:34-60 | an empty query finds nothing; otherwise exactly the matching vehicles and posts, each as many times as in the data |
| SearchPage.ResultsInCatalogOrder | src/pages_old/SearchPage.tsx:38-58 | both result lists keep data order |
| SearchPage.SearchIsNarrowerThanCatalog | src/pages_old/SearchPage.tsx:38-50 | every vehicle this search finds, the catalog's text search finds too; the converse fails only via the weight text |
| Grouping.GroupByLookup | src/pages_old/SearchPage.tsx:23-31 | each group holds, in order, exactly the records of its key; a group exists iff that set is non-empty |
| Grouping.GroupByDistinctKeys | src/pages_old/SearchPage.tsx:23-31 | no key has two groups |
| SearchPage.SectionsFromContents | src/pages_old/SearchPage.tsx:75-76 | each section is non-empty, headed by a listed type, and holds exactly that type's results |
| SearchPage.SectionsCoverListedTypes | src/pages_old/SearchPage.tsx:75-76 | the section sizes add up to the number of results of a listed type |
| SearchPage.UnlistedTypeHidden | src/pages_old/SearchPage.tsx:75-76 | a result whose type has no section is never displayed |
| SearchPage.SearchRoundTrip | src/pages_old/SearchPage.tsx:65-72 | submitting a term and reading the query gives the term back; `q` is written iff the term is non-empty |
| Products.Placeholder | src/data/products/index.ts:8-29 | a placeholder has the key as type, no price or weight, and ids and slugs derived from the key |
| Products.PlaceholderInjective | src/data/products/index.ts:8-29 | distinct keys give distinct placeholder ids and slugs |
| Products.ExtraProductsArePlaceholders | src/data/products/index.ts:31-38 | the extra products are the placeholders of the non-base categories, in order |
| Products.ExtraProductIdsDistinct | src/data/products/index.ts:31-38 | distinct category keys give extra products with distinct ids |
| Products.AllProducts | src/data/products/index.ts:41-51 | the four base arrays in order, then the extra products |
| Products.TruckWeightsShape | src/data/products/index.ts:63-72 | eight buckets numbered 1 to 8, each a proper interval starting where the previous one ends, spanning 0 to 100 tonnes |
| Products.TruckWeightsCover | src/data/products/index.ts:63-72 | every weight from 0 to 100 tonnes lies in some bucket |
| Products.CanonicalFolds | src/data/products/index.ts:76-84 | every canonical name is ASCII and lower-cases to its own key |
| Products.ToCanonical | src/data/products/index.ts:86-89 | the table's spelling when the trimmed, lower-cased key is listed, otherwise the trimmed text |
| Products.ToCanonicalFolds | src/data/products/index.ts:86-89 | the name a brand gets lower-cases back to its key |
| Products.BrandMapFirstWins | src/data/products/index.ts:91-99 | the map holds one entry per non-empty key, with the name of the first text that has that key |
| Products.BrandMapKeysDistinct | src/data/products/index.ts:91-99 | no key appears twice in the map and no key is empty |
| Products.BrandNamesCaseDistinct | src/data/products/index.ts:91-99 | the stored names differ pairwise, ignoring case |
| Products.TruckBrands | src/data/products/index.ts:101-102 | one entry per map entry, numbered from 1 |
| Products.TruckBrandsProperties | src/data/products/index.ts:91-102 | the list is a permutation of the stored names, distinct ignoring case, and sorted by `localeCompare` when that is total |
| Sorting.SortByStable | src/pages_old/BlogPage.tsx:24-26 | the sort keeps the input order of elements the comparator considers equal |
| WeightFilter.CalculateMaxWeight | src/components/filters/WeightFilter.tsx:12-22 | a multiple of 5, at least 0 and every weight, and less than 5 above the heaviest weight when positive |
| WeightFilter.FindBucket | src/components/filters/WeightFilter.tsx:51-54 | the first bucket whose ends lie within 0.1 of the range; none iff no bucket is close |
| WeightFilter.RangeLabel | src/components/filters/WeightFilter.tsx:44-62 | "all weights" for an unfiltered full range, otherwise the matching bucket's name or the numeric range |
| WeightFilter.AllWeightsExactly | src/components/filters/WeightFilter.tsx:34-48 | with the state settled, "all weights" shows iff the range runs from 0 to the maximum |
| WeightFilter.BucketLabels | src/components/filters/WeightFilter.tsx:51-54 | choosing a bucket's own range names that bucket |
| WeightFilter.UpperText | src/components/filters/WeightFilter.tsx:78 | "above 100 tonnes" at the maximum, otherwise the number in tonnes |
| WeightFilter.UpperTextOpen | src/components/filters/WeightFilter.tsx:34-41 | the upper text names the maximum iff the range is open above |
| WeightCategories.IconSize | src/components/home/WeightCategories.tsx:10-15 | 24 pixels plus 3 per bucket index |
| WeightCategories.IconSizesGrow | src/components/home/WeightCategories.tsx:10-15 | the eight icons grow strictly from 24 to 45 pixels |
| WeightCategories.Links | src/components/home/WeightCategories.tsx:26-29 | one catalog link per bucket, in bucket order |
| WeightCategories.BucketLinkFilters | src/components/home/WeightCategories.tsx:26-29 | the catalog reads a bucket's link back as exactly that bucket's weight bounds |
| WeightCategories.BucketLinkShowsBucket | src/components/home/WeightCategories.tsx:26-29 | following a bucket's link lists exactly the visible vehicles whose weight is in the bucket, bounds included |
| BlogPost.SlugToCategory | src/models/BlogPost.ts:42-49 | a slug maps to the category whose slug it is |
| BlogPost.CategorySlugOrKey | src/pages_old/BlogPage.tsx:62-64 | a category key's Vietnamese slug from the table at src/models/BlogPost.ts:32-39; any other string unchanged (the same lookup is at src/pages/BlogPostPage.tsx:44-46) |
| BlogPost.SlugRoundTrip | src/models/BlogPost.ts:32-49 | every category's slug maps back to that category |
| BlogPost.SlugToCategoryInverse | src/models/BlogPost.ts:32-49 | every key of the reverse table is the slug of its value |
| BlogPost.SlugToCategoryExact | src/models/BlogPost.ts:42-49 | the reverse lookup recognises exactly the six slugs |
| BlogPost.SlugsAndLabelsDistinct | src/models/BlogPost.ts:22-39 | the six slugs, and the six labels, are pairwise distinct |
| BlogPost.SlugInjective | src/models/BlogPost.ts:19-39 | key, label and slug each determine the category |
| BlogPost.KeysAreNotSlugs | src/models/BlogPost.ts:19-49 | an English key is never a slug, yet maps to its slug |
| BlogPost.PostUrl | src/pages_old/BlogPage.tsx:62-70 | a post URL uses the Vietnamese slug for a known category and the raw key otherwise |
| BlogPost.PostUrlCategorySegment | src/pages_old/BlogPage.tsx:62-70 | a post URL's first segment leads to its category's page |
| BlogPage.AllPostsNewestFirst | src/pages_old/BlogPage.tsx:24-26 | a permutation of the posts, newest first, and posts of the same date in data order |
| BlogPage.LatestPosts | src/pages_old/BlogPage.tsx:29 | the first five of the newest-first list |
| BlogPage.TopFiveRanked | src/pages_old/BlogPage.tsx:32-39 | a top-five list holds min(5, n) posts from the data, ranked by the count, and no omitted post has a larger count |
| BlogPage.SideListsRanked | src/pages_old/BlogPage.tsx:32-39 | the side lists rank by views and by comments, a missing count counting as 0 |
| BlogPage.FilteredPostsMeaning | src/pages_old/BlogPage.tsx:73-81 | in newest-first order, exactly the posts of the tab matching the query in title, description or a tag, each as many times as in the data |
| BlogPage.PagesOfNine | src/pages_old/BlogPage.tsx:84-86 | pages of nine split the filtered posts |
| Pagination.TotalPages | src/pages_old/BlogPage.tsx:84 | `Math.ceil(n / size)` |
| Pagination.PageOf | src/pages_old/BlogPage.tsx:85-86 | at most `size` posts, the slice starting at the page's first index |
| Pagination.PagesPartition | src/pages_old/BlogPage.tsx:84-86 | pages 1 to totalPages, read in order, give back the whole list; none is empty and none beyond them has posts |
| Pagination.FewPagesListed | src/pages_old/BlogPage.tsx:115-148 | with up to five pages, all of them are listed |
| Pagination.ManyPagesWindow | src/pages_old/BlogPage.tsx:115-148 | beyond five pages: at most seven entries, first and last page, numbers ascending, and the current page shown |
| Pagination.NearStart | src/pages_old/BlogPage.tsx:115-148 | near the start the bar is 1-4, a gap, then the last page |
| Pagination.NearEnd | src/pages_old/BlogPage.tsx:115-148 | near the end the bar is page 1, a gap, then the last four pages |
| Pagination.InMiddle | src/pages/BlogCategoryPage.tsx:54-87 | in the middle the bar is page 1, a gap, the current page with its neighbours, a gap, the last page |
| Pagination.DisplayRangeInBounds | src/pages/BlogCategoryPage.tsx:250 | the "showing" line names a non-empty stretch of 1..n as long as the page |
| BlogCategoryPage.LookupAsWritten | src/pages/BlogCategoryPage.tsx:13 | the property read on the slug table: own for the six slugs, inherited for `Object.prototype`'s names |
| BlogCategoryPage.PageAsWritten | src/pages/BlogCategoryPage.tsx:13-39 | the page as written shows not-found iff the slug or the looked-up value is falsy |
| BlogCategoryPage.InheritedSlugShowsListing | src/pages/BlogCategoryPage.tsx:13-30 | `/danh-muc-bai-viet/constructor` shows an empty listing instead of not-found |
| BlogCategoryPage.Page | src/pages/BlogCategoryPage.tsx:13-39 | not-found unless the slug is a category slug; otherwise that category's posts |
| BlogCategoryPage.NotFoundExactly | src/pages/BlogCategoryPage.tsx:20-30 | not-found iff the slug is missing or not among the six slugs |
| BlogCategoryPage.CategoryPosts | src/pages/BlogCategoryPage.tsx:34 | exactly the posts of the category, in data order, each as many times as in the data |
| BlogCategoryPage.CategoryPageListsCategory | src/pages/BlogCategoryPage.tsx:34 | each category's page lists exactly its posts, in data order |
| BlogCategoryPage.AsWrittenDiffersOnlyOnInherited | src/pages/BlogCategoryPage.tsx:13-30 | the two lookups differ exactly on the inherited names |
| BlogCategoryPage.PagesOfTwelve | src/pages/BlogCategoryPage.tsx:37-39 | pages of twelve split the category's posts |
| BlogCategoryPage.PostUrlAgrees | src/pages/BlogCategoryPage.tsx:128 | on a category's page the post links agree with the blog-wide post URL |
| BlogCategoryPage.OtherCategorySlugIsSlug | src/pages/BlogCategoryPage.tsx:368-369 | a category key's link leads to that category's slug |
| BlogCategoryPage.OtherCategoriesLinks | src/pages/BlogCategoryPage.tsx:365-369 | the links are exactly the table's categories other than the current one, each leading to its own slug |
| BlogPostPage.FindPost | src/pages/BlogPostPage.tsx:26-28 | found iff some post has the route slug |
| BlogPostPage.FindPostFirst | src/pages/BlogPostPage.tsx:26 | the lookup returns the first post with the slug |
| BlogPostPage.Page | src/pages/BlogPostPage.tsx:21-59 | not-found iff no post has the slug, otherwise the found post with its related and recommended posts |
| BlogPostPage.CategorySegmentIgnored | src/pages/BlogPostPage.tsx:21-26 | the route's category segment plays no part |
| BlogPostPage.RelatedAndRecommended | src/pages/BlogPostPage.tsx:52-59 | up to three related posts of the same category and two recommended ones of others, in data order, disjoint and without the current post |
| BlogPostPage.InitialsOfName | src/pages/BlogPostPage.tsx:62-63 | the initials are the upper-cased first letters of the non-empty space-separated words, in order |
| BlogClient.ChipsAreCategories | app/blog/blog-client.tsx:21-29 | after "all", the chips name each category exactly once |
| BlogClient.Filtered | app/blog/blog-client.tsx:31-33 | "all" shows every post; a chip shows exactly the posts of its category, in order, each as many times as in the data |
| BlogClient.EmptyMessage | app/blog/blog-client.tsx:91-95 | the empty message shows iff no post has the selected category |
| BlogClient.LinkUsesRawKey | app/blog/blog-client.tsx:57 | the card link uses the English key where the rest of the site uses the Vietnamese slug |
| OrderNotification.FormatTimeAgo | src/components/OrderNotification.tsx:71-92 | "just now" iff less than a second has passed; otherwise the first unit with a positive floored count, which stays below the next larger unit's size |
| OrderNotification.Text | src/components/OrderNotification.tsx:88-92 | "vừa xong", or the printed count, a space, the unit and "trước" |
| OrderNotification.TextDeterminesTimeAgo | src/components/OrderNotification.tsx:88-92 | when printed numbers parse back, the text determines the relative time: its unit and its count |
| OrderNotification.NextIndex | src/components/OrderNotification.tsx:43 | the next index wraps within the list; on an empty list there is none |
| OrderNotification.RotationCycles | src/components/OrderNotification.tsx:43 | after n rotations the index is n mod the list length |
| OrderNotification.AlwaysSomethingToShow | src/components/OrderNotification.tsx:43 | a visible pop-up over a non-empty list always has a notification; over an empty list it never renders |
| Seo.SiteUrl | src/lib/seo.ts:17 | the environment's URL when truthy, otherwise the default; never empty |
| Seo.FullTitle | src/lib/seo.ts:34 | the title always names the site; it is unchanged iff it already did |
| Seo.FullTitleIdempotent | src/lib/seo.ts:34 | applying the suffix rule twice changes nothing more |
| Seo.CanonicalUrl | src/lib/seo.ts:35 | present iff the path is truthy: the site URL followed by the path |
| Seo.Generate | src/lib/seo.ts:20-73 | the title is the site-naming full title of the given one; the description as given; robots is noindex iff requested; the canonical URL is the Open Graph URL; one Open Graph image, the given one or the default, also used for Twitter; the given type or "website" |
| Seo.GenerateDefaults | src/lib/seo.ts:24-44 | the defaults for missing keywords, authors, image and type; dates present iff truthy |
| Seo.KeywordsRoundTrip | src/lib/seo.ts:40 | the keyword string splits back into the keywords when none holds the separator |
| Seo.PriceInfo | src/lib/seo.ts:86 | the price text, else the formatted price in VNĐ, else "Liên hệ" |
| Seo.ProductTitle | src/lib/seo.ts:89 | a product title starts with name, brand and price, an undefined brand written out as in a template literal, and names the site |
| Seo.ProductDescription | src/lib/seo.ts:90 | the first 155 characters of the description, then the fixed tail |
| Seo.ProductPage | src/lib/seo.ts:102-106 | canonical at `/<type>/<slug>`, indexed, typed as a product, with the thumbnail or the default image |
| Seo.ProductKeywords | src/lib/seo.ts:91-101 | nine keywords: name, first brand, type, then six fixed terms, joined with ", " |
| Seo.BlogKeywords | src/lib/seo.ts:121 | the tags when there is a tag list, otherwise four keywords led by the category |
| Seo.BlogAuthors | src/lib/seo.ts:126 | one author: the post's when truthy, otherwise the site |
| Seo.BlogSeoShape | src/lib/seo.ts:108-128 | a post's metadata is an article at `/<category>/<slug>` with its title, excerpt, date and authors |
| Seo.Breadcrumbs | src/lib/seo.ts:130-141 | positions from 1, names as given, URLs prefixed by the site |
| Seo.BreadcrumbsRoundTrip | src/lib/seo.ts:130-141 | the names and paths can be read back, in order |
| StructuredData.Product | lib/structured-data.ts:26-93 | the thumbnail as image when truthy, otherwise the site's `/placeholder.svg`; name and description as given; the product's offer and weight node |
| StructuredData.ProductOffer | lib/structured-data.ts:55-82 | priced iff the price is a positive number; otherwise the price is specified as "0"; the offer URL is the product URL |
| StructuredData.ProductWeight | lib/structured-data.ts:84-90 | a weight node iff the weight or its text is truthy, preferring the number |
| StructuredData.ProductAgreesWithSeo | lib/structured-data.ts:26-52 | the product record's URL is the metadata's canonical URL; the SKU is its last segment; the brand is the first brand |
| StructuredData.OfferForms | lib/structured-data.ts:55-82 | a missing, zero or negative price gives the unpriced offer |
| StructuredData.Or | lib/structured-data.ts:112-115 | `a \|\| b` on optional strings |
| StructuredData.ArticleDefaults | lib/structured-data.ts:95-130 | modified date defaults to the publish date and author to the site, in agreement with the post's metadata and canonical URL |
| StructuredData.ItemList | lib/structured-data.ts:150-170 | one element per item |
| StructuredData.ItemListRoundTrip | lib/structured-data.ts:150-170 | the items can be read back in order, positions as given |
| StructuredData.ItemListOfBreadcrumbs | lib/structured-data.ts:150-170 | breadcrumbs listed as items keep their 1-based numbering |
| StructuredData.Faq | lib/structured-data.ts:172-185 | one question per pair |
| StructuredData.FaqRoundTrip | lib/structured-data.ts:172-185 | the question and answer pairs can be read back in order |

## Left out

- Rendering, styling, icons, toasts as UI, `Helmet` and the React state and effect machinery. Each page is modelled as the function from its inputs to what it shows.
- Timers in the order pop-up: the 5-second initial delay, the 10 seconds each notification stays visible and the 20-second pause before the next. The current time is a parameter and the rotation is a count of steps. Hiding and the close button appear only as the `isVisible` parameter of OrderNotification.Shown. The close button does not stop the timers: the chain started on mount keeps calling the first render's `showNextNotification`, whose `dismissed` is still false, so the pop-up shows again about 20 seconds after a dismissal.
- Storage and I/O: `localStorage`, blog data loading, and `process.env`, which is a parameter.
- Lower-casing, upper-casing, number formatting and parsing, and `localeCompare`. These are uninterpreted host functions. Only the stated round-trip and ASCII assumptions are used.
- NaN and floating point: numbers are exact reals. `Number()` of a non-numeric text is whatever the host returns.
- `slice` and `length` count UTF-16 code units in JavaScript. Here they count characters of the string.
- TruckDetail.LocalCategorySlug, BlogPost.CategorySlugOrKey, Products.Canonical, BlogCategoryPage.OtherCategorySlug: these object lookups (`record[key] || key`) are modelled for own keys only. Their inputs come from the site's own data, not from the URL. A key named like an `Object.prototype` property would link differently; the category table is the site's own and has none. The URL-driven lookup on the blog category page is modelled with prototype names; see Findings.
- TruckCatalog.QueryRoundTrip, SearchPage.SearchRoundTrip, WeightCategories.BucketLinkFilters: the query string is modelled as the list of name/value pairs `URLSearchParams` holds. Its text form, with `&`, `=` and percent-encoding, is not modelled, so these round trips go through the pairs and not through the URL text.
- WeightFilter.CalculateMaxWeight: modelled, but the component never uses it; the slider maximum is the constant 100.
- The organization, website and local-business schema generators return constant records, so they are not modelled.
- `useRelatedTruckForBlogPost`, the share buttons and the reading-time estimate on the post page, and the ratings on the detail page are not part of this model.
- Sorting.SortBySorted: the brand list and the blog ordering are proved sorted only when the comparator is total. `localeCompare` is a host function whose totality is not assumed.

## Findings

| source | as written | input that shows it | evidently intended | confidence | as-written member | corrected member |
|---|---|---|---|---|---|---|
| src/pages/BlogCategoryPage.tsx:13-30 | `slugToBlogCategory[slug]` reads inherited `Object.prototype` properties, so any name it provides counts as a category | the route `/danh-muc-bai-viet/constructor` renders an empty category listing instead of the not-found view | only the six category slugs open a category page | not executed | BlogCategoryPage.PageAsWritten (exhibited by BlogCategoryPage.InheritedSlugShowsListing) | BlogCategoryPage.Page (proved by BlogCategoryPage.NotFoundExactly and BlogCategoryPage.AsWrittenDiffersOnlyOnInherited) |

=== FILE: blog_category_page.dfy ===
/** The blog category page at `/danh-muc-bai-viet/<slug>`: the slug lookup, the category's posts
    in pages of twelve, the post links and the links to the other categories. */
module BlogCategoryPage {
  import opened Js
  import opened BlogPost
  import Seqs
  import Pagination

  /** `postsPerPage` */
  const PostsPerPage: nat := 12

  // ---------------------------------------------------------------------------------------
  // The slug lookup as written: `slugToBlogCategory[slug]` on a plain object literal also finds
  // the members every object inherits from `Object.prototype`.

  /** The names `Object.prototype` provides; each is a function or (for `__proto__`) an object,
      so each is truthy. */
  const InheritedNames: seq<string> := [
    "constructor", "hasOwnProperty", "isPrototypeOf", "propertyIsEnumerable",
    "toLocaleString", "toString", "valueOf", "__proto__",
    "__defineGetter__", "__defineSetter__", "__lookupGetter__", "__lookupSetter__"
  ]

  /** What a property read on the slug table yields. */
  datatype Property = Own(category: Category) | Inherited(name: string) | Undefined

  predicate PropertyTruthy(v: Property) {
    !v.Undefined?
  }

  /** `slugToBlogCategory[slug]` with JavaScript's prototype lookup. */
  function LookupAsWritten(slug: string): (v: Property)
    ensures v.Own? <==> SlugToCategory(slug).Some?
    ensures v.Own? ==> v.category == SlugToCategory(slug).value
    ensures v.Inherited? <==> SlugToCategory(slug).None? && slug in InheritedNames
  {
    match SlugToCategory(slug)
    case Some(c) => Own(c)
    case None => if slug in InheritedNames then Inherited(slug) else Undefined
  }

  /** What the page renders: the not-found view, or a listing for the looked-up value. */
  datatype View = NotFound | Listing(category: Property, posts: seq<Post>)

  /** The key a looked-up value is compared with in `post.category === currentCategory`; an
      inherited member is a function and equals no category string. */
  function Matches(v: Property, p: Post): bool {
    v.Own? && p.category == Key(v.category)
  }

  /** The page as written: `!categoryKey || !slug` decides the not-found view. */
  function PageAsWritten(slug: Option<string>, posts: seq<Post>): (view: View)
    ensures view.NotFound? <==> !Truthy(slug) || !PropertyTruthy(LookupAsWritten(slug.value))
  {
    if !Truthy(slug) then NotFound
    else
      var v := LookupAsWritten(slug.value);
      if !PropertyTruthy(v) then NotFound
      else Listing(v, Seqs.Filter(posts, (p: Post) => Matches(v, p)))
  }

  /** `/danh-muc-bai-viet/constructor` is no category, yet the page shows a category listing
      (with no label and no posts) instead of the not-found view. */
  lemma InheritedSlugShowsListing(posts: seq<Post>)
    ensures SlugToCategory("constructor").None?
    ensures PageAsWritten(Some("constructor"), posts).Listing?
    ensures PageAsWritten(Some("constructor"), posts).posts == []
  {
    var v := LookupAsWritten("constructor");
    assert v == Inherited("constructor");
    Seqs.FilterNone(posts, (p: Post) => Matches(v, p));
  }

  // ---------------------------------------------------------------------------------------
  // The page with an own-key lookup, as the not-found branch intends.

  /** `categoryPosts`: the posts of a category, in data order. */
  function CategoryPosts(c: Category, posts: seq<Post>): (r: seq<Post>)
    ensures Seqs.IsSubseq(r, posts)
    ensures forall p :: p in r <==> p in posts && p.category == Key(c)
    ensures forall p :: multiset(r)[p] == if p.category == Key(c) then multiset(posts)[p] else 0
  {
    Seqs.FilterCount(posts, InCategory(c));
    Seqs.FilterIsSubseq(posts, InCategory(c));
    Seqs.Filter(posts, InCategory(c))
  }

  function InCategory(c: Category): Post -> bool {
    (p: Post) => p.category == Key(c)
  }

  /** The page for a route slug: not found unless the slug is one of the six category slugs. */
  function Page(slug: Option<string>, posts: seq<Post>): (view: View)
    ensures view.NotFound? <==> !(slug.Some? && SlugToCategory(slug.value).Some?)
    ensures view.Listing? ==> view.category == Own(SlugToCategory(slug.value).value) &&
                              view.posts == CategoryPosts(view.category.category, posts)
  {
    if !Truthy(slug) then NotFound
    else
      match SlugToCategory(slug.value)
      case None => NotFound
      case Some(c) => Listing(Own(c), CategoryPosts(c, posts))
  }

  /** The not-found view shows exactly for a missing route slug or one that is not among the
      six category slugs. */
  lemma NotFoundExactly(slug: Option<string>, posts: seq<Post>)
    ensures Page(slug, posts).NotFound? <==> !(slug.Some? && slug.value in SlugList())
  {
    if slug.Some? {
      SlugToCategoryExact(slug.value);
    }
  }

  /** Each category's own page lists exactly its posts. */
  lemma CategoryPageListsCategory(c: Category, posts: seq<Post>)
    ensures Page(Some(Slug(c)), posts) == Listing(Own(c), CategoryPosts(c, posts))
  {
    SlugRoundTrip(c);
  }

  /** No inherited name is a category slug. */
  lemma InheritedNamesAreNotSlugs(s: string)
    requires s in InheritedNames
    ensures SlugToCategory(s).None?
  {
    SlugToCategoryExact(s);
    var l := SlugList();
    assert l == ["tin-tuc-nganh-van-tai", "danh-gia-xe", "kinh-nghiem-lai-xe", "bao-duong",
                 "tu-van-mua-xe", "cong-nghe-doi-moi"];
    assert forall i, j :: 0 <= i < |InheritedNames| && 0 <= j < |l| ==> InheritedNames[i] != l[j];
  }

  /** The two lookups differ exactly on the inherited names. */
  lemma AsWrittenDiffersOnlyOnInherited(slug: Option<string>, posts: seq<Post>)
    ensures !(Truthy(slug) && slug.value in InheritedNames) ==> PageAsWritten(slug, posts) == Page(slug, posts)
    ensures Truthy(slug) && slug.value in InheritedNames ==>
              PageAsWritten(slug, posts).Listing? && Page(slug, posts).NotFound?
  {
    if Truthy(slug) {
      var v := LookupAsWritten(slug.value);
      if slug.value in InheritedNames {
        InheritedNamesAreNotSlugs(slug.value);
      } else if SlugToCategory(slug.value).Some? {
        var c := SlugToCategory(slug.value).value;
        assert v == Own(c);
        Seqs.FilterExtensional(posts, (p: Post) => Matches(Own(c), p), InCategory(c));
      } else {
        assert v == Undefined;
      }
    }
  }

  // ---------------------------------------------------------------------------------------
  // Pagination, post links and other categories

  /** `currentPosts` */
  function CurrentPosts(c: Category, posts: seq<Post>, currentPage: int): seq<Post> {
    Pagination.PageOf(CategoryPosts(c, posts), currentPage, PostsPerPage)
  }

  /** Pages of twelve split the category's posts, and the "showing" line of a page in range
      names a non-empty stretch of 1..n as long as the page. */
  lemma PagesOfTwelve(c: Category, posts: seq<Post>, currentPage: int)
    ensures var cp := CategoryPosts(c, posts);
            Pagination.FirstPages(cp, PostsPerPage, Pagination.TotalPages(|cp|, PostsPerPage)) == cp
    ensures var cp := CategoryPosts(c, posts);
            1 <= currentPage <= Pagination.TotalPages(|cp|, PostsPerPage) ==>
              var r := Pagination.DisplayRange(|cp|, currentPage, PostsPerPage);
              1 <= r.0 <= r.1 <= |cp| && r.1 - r.0 + 1 == |CurrentPosts(c, posts, currentPage)|
  {
    var cp := CategoryPosts(c, posts);
    Pagination.PagesPartition(cp, PostsPerPage);
    if 1 <= currentPage <= Pagination.TotalPages(|cp|, PostsPerPage) {
      Pagination.DisplayRangeInBounds(cp, currentPage, PostsPerPage);
    }
  }

  /** `getPostUrl` on this page: the route's own slug, then the post's slug. */
  function PostUrl(slug: string, p: Post): (url: string)
    ensures |url| == |slug| + |p.slug| + 2
    ensures url[..|slug| + 1] == "/" + slug
  {
    var url := "/" + slug + "/" + p.slug;
    assert url[..|slug| + 1] == "/" + slug;
    url
  }

  /** On a category's page the post links agree with the blog-wide post URL. */
  lemma PostUrlAgrees(c: Category, p: Post)
    requires p.category == Key(c)
    ensures PostUrl(Slug(c), p) == BlogPost.PostUrl(p)
  {
  }

  /** `Object.entries(slugToBlogCategory).find(([_, val]) => val === key)?.[0]` */
  function SlugOfKey(key: string): (r: Option<string>)
    ensures r.Some? ==> r.value in SlugList()
  {
    FindSlug(SlugList(), key)
  }

  function FindSlug(slugs: seq<string>, key: string): (r: Option<string>)
    ensures r.Some? ==> r.value in slugs
  {
    if |slugs| == 0 then None
    else if SlugToCategory(slugs[0]).Some? && Key(SlugToCategory(slugs[0]).value) == key then Some(slugs[0])
    else FindSlug(slugs[1..], key)
  }

  /** The link target for a key of the category table: the key itself when it is a slug,
      otherwise the slug whose category it is (absent when there is none). */
  function OtherCategorySlug(key: string): Option<string> {
    if SlugToCategory(key).Some? then Some(key) else SlugOfKey(key)
  }

  /** The "other categories" links: every entry of the category table except the current
      category, each with its label and target slug. */
  function OtherCategories(table: seq<(string, string)>, current: Category): (r: seq<(string, string, Option<string>)>)
    ensures |r| <= |table|
    ensures forall i :: 0 <= i < |r| ==> r[i].0 != Key(current)
    ensures forall i :: 0 <= i < |r| ==> (r[i].0, r[i].1) in table && r[i].2 == OtherCategorySlug(r[i].0)
    ensures forall i :: 0 <= i < |table| && table[i].0 != Key(current) ==>
              (table[i].0, table[i].1, OtherCategorySlug(table[i].0)) in r
    decreases |table|
  {
    if |table| == 0 then []
    else
      var rest := OtherCategories(table[1..], current);
      assert forall i :: 1 <= i < |table| ==> table[i] == table[1..][i - 1];
      if table[0].0 == Key(current) then rest
      else [(table[0].0, table[0].1, OtherCategorySlug(table[0].0))] + rest
  }

  /** A category key's link leads to that category's slug. */
  lemma OtherCategorySlugIsSlug(c: Category)
    ensures OtherCategorySlug(Key(c)) == Some(Slug(c))
  {
    KeysAreNotSlugs(c);
    AllCategoriesComplete(c);
    var l := SlugList();
    var i :| 0 <= i < |AllCategories| && AllCategories[i] == c;
    forall j | 0 <= j < |l| ensures SlugToCategory(l[j]) == Some(AllCategories[j]) {
      SlugRoundTrip(AllCategories[j]);
    }
    forall j | 0 <= j < i ensures Key(AllCategories[j]) != Key(c) {
      SlugInjective(AllCategories[j], c);
    }
    FindSlugAt(l, Key(c), i);
  }

  lemma {:induction false} FindSlugAt(slugs: seq<string>, key: string, i: nat)
    requires i < |slugs| && SlugToCategory(slugs[i]).Some? && Key(SlugToCategory(slugs[i]).value) == key
    requires forall j :: 0 <= j < i ==> !(SlugToCategory(slugs[j]).Some? && Key(SlugToCategory(slugs[j]).value) == key)
    ensures FindSlug(slugs, key) == Some(slugs[i])
    decreases i
  {
    if i > 0 {
      assert !(SlugToCategory(slugs[0]).Some? && Key(SlugToCategory(slugs[0]).value) == key);
      FindSlugAt(slugs[1..], key, i - 1);
    }
  }

  /** With category keys as the table, the links are exactly the table's other categories, each
      leading to that category's own slug. */
  lemma OtherCategoriesLinks(table: seq<(string, string)>, current: Category)
    requires forall i :: 0 <= i < |table| ==> CategoryOfKey(table[i].0).Some?
    ensures forall i :: 0 <= i < |OtherCategories(table, current)| ==>
              var e := OtherCategories(table, current)[i];
              CategoryOfKey(e.0).Some? && CategoryOfKey(e.0).value != current &&
              e.2 == Some(Slug(CategoryOfKey(e.0).value))
    ensures forall i :: 0 <= i < |table| && table[i].0 != Key(current) ==>
              (table[i].0, table[i].1, Some(Slug(CategoryOfKey(table[i].0).value))) in OtherCategories(table, current)
    decreases |table|
  {
    if |table| > 0 {
      OtherCategoriesLinks(table[1..], current);
      var c := CategoryOfKey(table[0].0).value;
      OtherCategorySlugIsSlug(c);
    }
    forall i | 0 <= i < |table| && table[i].0 != Key(current)
      ensures (table[i].0, table[i].1, Some(Slug(CategoryOfKey(table[i].0).value))) in OtherCategories(table, current)
    {
      OtherCategorySlugIsSlug(CategoryOfKey(table[i].0).value);
    }
  }
}

=== FILE: blog_client.dfy ===
/** The client-side blog index: category chips, the chip filter, and the post links. */
module BlogClient {
  import opened BlogPost
  import Seqs

  /** The chips: "all" and one per category key, each with its caption. */
  const Chips: seq<(string, string)> := [
    ("all", "Tất cả"),
    ("industry-news", "Tin tức"),
    ("product-review", "Đánh giá sản phẩm"),
    ("buying-guide", "Hướng dẫn mua xe"),
    ("driver-tips", "Kinh nghiệm lái xe"),
    ("maintenance", "Bảo dưỡng"),
    ("technology", "Công nghệ")
  ]

  /** The chip values, in display order. */
  function ChipValues(): (r: seq<string>)
    ensures |r| == |Chips|
  {
    seq(|Chips|, i requires 0 <= i < |Chips| => Chips[i].0)
  }

  lemma ChipValuesListed()
    ensures ChipValues() == ["all", "industry-news", "product-review", "buying-guide", "driver-tips",
                             "maintenance", "technology"]
  {
  }

  /** After "all", the chips name each category exactly once and nothing else. */
  lemma ChipsAreCategories()
    ensures ChipValues()[0] == "all"
    ensures |ChipValues()| == 1 + |AllCategories|
    ensures forall v :: v in ChipValues()[1..] ==> CategoryOfKey(v).Some?
    ensures forall c :: Key(c) in ChipValues()[1..]
    ensures Seqs.Distinct(ChipValues())
  {
    ChipValuesListed();
    var tail := ChipValues()[1..];
    assert tail == ["industry-news", "product-review", "buying-guide", "driver-tips", "maintenance", "technology"];
    forall c ensures Key(c) in tail {
      match c
      case IndustryNews => assert tail[0] == Key(c);
      case ProductReview => assert tail[1] == Key(c);
      case BuyingGuide => assert tail[2] == Key(c);
      case DriverTips => assert tail[3] == Key(c);
      case Maintenance => assert tail[4] == Key(c);
      case Technology => assert tail[5] == Key(c);
    }
  }

  function InCategory(selected: string): Post -> bool {
    (p: Post) => p.category == selected
  }

  /** `filteredPosts` for the selected chip. */
  function Filtered(selected: string, posts: seq<Post>): (r: seq<Post>)
    ensures selected == "all" ==> r == posts
    ensures selected != "all" ==> Seqs.IsSubseq(r, posts)
    ensures selected != "all" ==> forall p :: p in r <==> p in posts && p.category == selected
    ensures selected != "all" ==>
              forall p :: multiset(r)[p] == if p.category == selected then multiset(posts)[p] else 0
  {
    if selected == "all" then posts
    else
      Seqs.FilterCount(posts, InCategory(selected));
      Seqs.FilterIsSubseq(posts, InCategory(selected));
      Seqs.Filter(posts, InCategory(selected))
  }

  /** The empty-list message shows exactly when no post has the selected category. */
  lemma EmptyMessage(selected: string, posts: seq<Post>)
    requires selected != "all"
    ensures |Filtered(selected, posts)| == 0 <==> forall i :: 0 <= i < |posts| ==> posts[i].category != selected
  {
    if |Filtered(selected, posts)| == 0 {
      forall i | 0 <= i < |posts| ensures posts[i].category != selected {
        assert posts[i] in posts;
      }
    } else {
      assert Filtered(selected, posts)[0] in Filtered(selected, posts);
    }
  }

  /** The link of a post card: the raw category key, then the post's slug. */
  function Link(p: Post): (url: string)
    ensures |url| == |p.category| + |p.slug| + 2
    ensures url[..|p.category| + 1] == "/" + p.category
  {
    var url := "/" + p.category + "/" + p.slug;
    assert url[..|p.category| + 1] == "/" + p.category;
    url
  }

  /** For a post of a known category the card link is not the post's URL elsewhere on the
      site: it carries the English key where the other pages use the Vietnamese slug. */
  lemma LinkUsesRawKey(p: Post, c: Category)
    requires p.category == Key(c)
    ensures Link(p) != BlogPost.PostUrl(p)
  {
    assert |Key(c)| != |Slug(c)|;
    assert |Link(p)| != |BlogPost.PostUrl(p)|;
  }
}

=== FILE: blog_page.dfy ===
/** The blog listing page: the posts newest first, the three top-5 side lists, the tab and
    keyword filter, and the pages of nine posts. */
module BlogPage {
  import opened Js
  import opened BlogPost
  import Seqs
  import Sorting
  import Pagination

  /** `postsPerPage` */
  const PostsPerPage: nat := 9

  function Date(p: Post): int {
    p.publishDate
  }

  /** `views || 0` */
  function Views(p: Post): int {
    p.views.GetOr(0)
  }

  /** `comments || 0` */
  function Comments(p: Post): int {
    p.comments.GetOr(0)
  }

  /** `allPosts`: the posts sorted by `publishDate`, newest first, ties in data order. */
  function AllPosts(posts: seq<Post>): seq<Post> {
    Sorting.SortBy(posts, Sorting.KeyDesc(Date))
  }

  /** The posts published at time `d`. */
  function DatedAt(d: int): Post -> bool {
    (p: Post) => p.publishDate == d
  }

  /** `allPosts` holds exactly the posts, each as often as in the data, with no post dated
      after one before it, and posts of the same date in data order. */
  lemma AllPostsNewestFirst(posts: seq<Post>)
    ensures multiset(AllPosts(posts)) == multiset(posts)
    ensures forall i, j :: 0 <= i <= j < |AllPosts(posts)| ==>
              AllPosts(posts)[i].publishDate >= AllPosts(posts)[j].publishDate
    ensures forall d :: Seqs.Filter(AllPosts(posts), DatedAt(d)) == Seqs.Filter(posts, DatedAt(d))
  {
    var r := AllPosts(posts);
    forall d ensures Seqs.Filter(r, DatedAt(d)) == Seqs.Filter(posts, DatedAt(d)) {
      Sorting.SortByStable(posts, Sorting.KeyDesc(Date), DatedAt(d));
    }
    Sorting.KeyDescTotal(Date);
    Sorting.SortBySorted(posts, Sorting.KeyDesc(Date));
    forall i, j | 0 <= i <= j < |r| ensures r[i].publishDate >= r[j].publishDate {
      Sorting.KeyDescOrdered(r, Date, i, j);
    }
  }

  /** `latestPosts`: the first five of `allPosts`. */
  function LatestPosts(posts: seq<Post>): (r: seq<Post>)
    ensures r == AllPosts(posts)[..Min(5, |posts|)]
  {
    TakePrefix(AllPosts(posts), 5);
    Slice(AllPosts(posts), 0, 5)
  }

  /** The five posts ranked highest by a count, a missing count counting as 0. */
  function TopFive(posts: seq<Post>, count: Post -> int): seq<Post> {
    Slice(Sorting.SortBy(posts, Sorting.KeyDesc(count)), 0, 5)
  }

  /** `mostViewedPosts` */
  function MostViewed(posts: seq<Post>): seq<Post> {
    TopFive(posts, Views)
  }

  /** `mostCommentedPosts` */
  function MostCommented(posts: seq<Post>): seq<Post> {
    TopFive(posts, Comments)
  }

  /** A top-5 list has min(5, n) posts, all taken from the data, ranked by the count, and no
      post left out has a larger count than one listed. */
  lemma TopFiveRanked(posts: seq<Post>, count: Post -> int)
    ensures var r := TopFive(posts, count);
            |r| == Min(5, |posts|) && multiset(r) <= multiset(posts) &&
            (forall i, j :: 0 <= i <= j < |r| ==> count(r[i]) >= count(r[j]))
    ensures var sorted := Sorting.SortBy(posts, Sorting.KeyDesc(count));
            forall i, j :: 0 <= i < |TopFive(posts, count)| <= j < |sorted| ==>
              count(TopFive(posts, count)[i]) >= count(sorted[j])
  {
    var sorted := Sorting.SortBy(posts, Sorting.KeyDesc(count));
    var r := TopFive(posts, count);
    TakePrefix(sorted, 5);
    Sorting.KeyDescTotal(count);
    Sorting.SortBySorted(posts, Sorting.KeyDesc(count));
    assert sorted == r + sorted[|r|..];
    assert multiset(sorted) == multiset(r) + multiset(sorted[|r|..]);
    forall i, j | 0 <= i <= j < |sorted| ensures count(sorted[i]) >= count(sorted[j]) {
      Sorting.KeyDescOrdered(sorted, count, i, j);
    }
  }

  /** The two side lists rank by views and by comments. */
  lemma SideListsRanked(posts: seq<Post>)
    ensures |MostViewed(posts)| <= 5 && |MostCommented(posts)| <= 5
    ensures forall i, j :: 0 <= i <= j < |MostViewed(posts)| ==>
              Views(MostViewed(posts)[i]) >= Views(MostViewed(posts)[j])
    ensures forall i, j :: 0 <= i <= j < |MostCommented(posts)| ==>
              Comments(MostCommented(posts)[i]) >= Comments(MostCommented(posts)[j])
  {
    TopFiveRanked(posts, Views);
    TopFiveRanked(posts, Comments);
  }

  /** Some tag, lower-cased, contains the lower-cased query; no tags match nothing. */
  predicate SomeTagIncludes(h: Host, tags: Option<seq<string>>, q: string) {
    tags.Some? && exists i :: 0 <= i < |tags.value| && Includes(h.lower(tags.value[i]), h.lower(q))
  }

  /** The filter of `filteredPosts`: the active tab ("all" or a category key) and the query. */
  function Keep(h: Host, activeTab: string, query: string): Post -> bool {
    (p: Post) =>
      (activeTab == "all" || p.category == activeTab) &&
      (query == "" || Includes(h.lower(p.title), h.lower(query))
       || Includes(h.lower(p.description), h.lower(query)) || SomeTagIncludes(h, p.tags, query))
  }

  /** `filteredPosts` */
  function FilteredPosts(h: Host, posts: seq<Post>, activeTab: string, query: string): seq<Post> {
    Seqs.Filter(AllPosts(posts), Keep(h, activeTab, query))
  }

  /** The filtered posts are the newest-first posts of the tab that match the query, in the
      same order; with tab "all" and no query that is every post. */
  lemma FilteredPostsMeaning(h: Host, posts: seq<Post>, activeTab: string, query: string)
    ensures Seqs.IsSubseq(FilteredPosts(h, posts, activeTab, query), AllPosts(posts))
    ensures forall p :: p in FilteredPosts(h, posts, activeTab, query) <==>
              p in posts && (activeTab == "all" || p.category == activeTab) &&
              (query == "" || Includes(h.lower(p.title), h.lower(query)) ||
               Includes(h.lower(p.description), h.lower(query)) || SomeTagIncludes(h, p.tags, query))
    ensures activeTab == "all" && query == "" ==> FilteredPosts(h, posts, activeTab, query) == AllPosts(posts)
    ensures forall p :: multiset(FilteredPosts(h, posts, activeTab, query))[p] ==
              if Keep(h, activeTab, query)(p) then multiset(posts)[p] else 0
  {
    Seqs.FilterIsSubseq(AllPosts(posts), Keep(h, activeTab, query));
    Seqs.FilterCount(AllPosts(posts), Keep(h, activeTab, query));
    AllPostsNewestFirst(posts);
    forall p ensures p in AllPosts(posts) <==> p in posts {
      assert p in multiset(AllPosts(posts)) <==> p in multiset(posts);
    }
  }

  /** `currentPosts` for the page in state. */
  function CurrentPosts(h: Host, posts: seq<Post>, activeTab: string, query: string, currentPage: int): seq<Post> {
    Pagination.PageOf(FilteredPosts(h, posts, activeTab, query), currentPage, PostsPerPage)
  }

  /** Pages of nine: `totalPages` of them, none empty or larger than nine, together the
      filtered list. */
  lemma PagesOfNine(h: Host, posts: seq<Post>, activeTab: string, query: string)
    ensures var f := FilteredPosts(h, posts, activeTab, query);
            var t := Pagination.TotalPages(|f|, PostsPerPage);
            Pagination.FirstPages(f, PostsPerPage, t) == f &&
            (forall p :: 1 <= p <= t ==> 0 < |CurrentPosts(h, posts, activeTab, query, p)| <= 9)
  {
    Pagination.PagesPartition(FilteredPosts(h, posts, activeTab, query), PostsPerPage);
  }
}

=== FILE: blog_post.dfy ===
/** Blog categories with their display labels and Vietnamese URL slugs, and the post record. */
module BlogPost {
  import opened Js

  datatype Category = IndustryNews | ProductReview | DriverTips | Maintenance | BuyingGuide | Technology

  /** The categories in the order the tables list them. */
  const AllCategories: seq<Category> :=
    [IndustryNews, ProductReview, DriverTips, Maintenance, BuyingGuide, Technology]

  /** The `BlogCategory` string a post's `category` field holds. */
  function Key(c: Category): string {
    match c
    case IndustryNews => "industry-news"
    case ProductReview => "product-review"
    case DriverTips => "driver-tips"
    case Maintenance => "maintenance"
    case BuyingGuide => "buying-guide"
    case Technology => "technology"
  }

  /** `blogCategoryLabels` */
  function Label(c: Category): string {
    match c
    case IndustryNews => "Tin Tức Ngành Vận Tải"
    case ProductReview => "Đánh Giá Xe"
    case DriverTips => "Kinh Nghiệm Lái Xe"
    case Maintenance => "Bảo Dưỡng"
    case BuyingGuide => "Tư Vấn Mua Xe"
    case Technology => "Công Nghệ & Đổi Mới"
  }

  /** `blogCategorySlugs` */
  function Slug(c: Category): string {
    match c
    case IndustryNews => "tin-tuc-nganh-van-tai"
    case ProductReview => "danh-gia-xe"
    case DriverTips => "kinh-nghiem-lai-xe"
    case Maintenance => "bao-duong"
    case BuyingGuide => "tu-van-mua-xe"
    case Technology => "cong-nghe-doi-moi"
  }

  /** `slugToBlogCategory[s]` restricted to the table's own keys. */
  function SlugToCategory(s: string): (r: Option<Category>)
    ensures r.Some? ==> Slug(r.value) == s
  {
    if s == "tin-tuc-nganh-van-tai" then Some(IndustryNews)
    else if s == "danh-gia-xe" then Some(ProductReview)
    else if s == "kinh-nghiem-lai-xe" then Some(DriverTips)
    else if s == "bao-duong" then Some(Maintenance)
    else if s == "tu-van-mua-xe" then Some(BuyingGuide)
    else if s == "cong-nghe-doi-moi" then Some(Technology)
    else None
  }

  /** The category a `category` string names, if it names one. */
  function CategoryOfKey(k: string): (r: Option<Category>)
    ensures r.Some? ==> Key(r.value) == k
  {
    if k == "industry-news" then Some(IndustryNews)
    else if k == "product-review" then Some(ProductReview)
    else if k == "driver-tips" then Some(DriverTips)
    else if k == "maintenance" then Some(Maintenance)
    else if k == "buying-guide" then Some(BuyingGuide)
    else if k == "technology" then Some(Technology)
    else None
  }

  /** `blogCategorySlugs[category] || category`: the Vietnamese slug of a category key, any other
      string unchanged. */
  function CategorySlugOrKey(category: string): (r: string)
    ensures CategoryOfKey(category).Some? ==> r == Slug(CategoryOfKey(category).value)
    ensures CategoryOfKey(category).None? ==> r == category
  {
    match CategoryOfKey(category)
    case Some(c) => Slug(c)
    case None => category
  }

  /** Slug to category and back: every category's slug maps back to it. */
  lemma SlugRoundTrip(c: Category)
    ensures SlugToCategory(Slug(c)) == Some(c)
  {
  }

  /** Category to slug and back: every key of the reverse table is the slug of its value. */
  lemma SlugToCategoryInverse(s: string)
    requires SlugToCategory(s).Some?
    ensures Slug(SlugToCategory(s).value) == s
    ensures s in SlugList()
  {
    SlugToCategoryExact(s);
  }

  function SlugList(): (r: seq<string>)
    ensures |r| == |AllCategories|
  {
    seq(|AllCategories|, i requires 0 <= i < |AllCategories| => Slug(AllCategories[i]))
  }

  function LabelList(): (r: seq<string>)
    ensures |r| == |AllCategories|
  {
    seq(|AllCategories|, i requires 0 <= i < |AllCategories| => Label(AllCategories[i]))
  }

  /** The table lists every category exactly once. */
  lemma AllCategoriesComplete(c: Category)
    ensures c in AllCategories
    ensures forall i, j :: 0 <= i < j < |AllCategories| ==> AllCategories[i] != AllCategories[j]
  {
  }

  /** The six slugs, and the six labels, are pairwise distinct. */
  lemma SlugsAndLabelsDistinct()
    ensures forall i, j :: 0 <= i < j < |SlugList()| ==> SlugList()[i] != SlugList()[j]
    ensures forall i, j :: 0 <= i < j < |LabelList()| ==> LabelList()[i] != LabelList()[j]
  {
    var s := SlugList();
    var l := LabelList();
    assert s == ["tin-tuc-nganh-van-tai", "danh-gia-xe", "kinh-nghiem-lai-xe", "bao-duong",
                 "tu-van-mua-xe", "cong-nghe-doi-moi"];
    assert l == ["Tin Tức Ngành Vận Tải", "Đánh Giá Xe", "Kinh Nghiệm Lái Xe", "Bảo Dưỡng",
                 "Tư Vấn Mua Xe", "Công Nghệ & Đổi Mới"];
  }

  lemma SlugInjective(a: Category, b: Category)
    ensures Slug(a) == Slug(b) ==> a == b
    ensures Label(a) == Label(b) ==> a == b
    ensures Key(a) == Key(b) ==> a == b
  {
  }

  /** The English category keys are not slugs: `/industry-news` is no category page. */
  lemma KeysAreNotSlugs(c: Category)
    ensures SlugToCategory(Key(c)).None?
    ensures CategoryOfKey(Key(c)) == Some(c)
    ensures CategorySlugOrKey(Key(c)) == Slug(c)
  {
  }

  /** The slug lookup recognises exactly the six slugs. */
  lemma SlugToCategoryExact(s: string)
    ensures SlugToCategory(s).Some? <==> s in SlugList()
  {
    var l := SlugList();
    assert l == ["tin-tuc-nganh-van-tai", "danh-gia-xe", "kinh-nghiem-lai-xe", "bao-duong",
                 "tu-van-mua-xe", "cong-nghe-doi-moi"];
  }

  /** A blog post. `category` is whatever string the data holds; `publishDate` is a timestamp
      in milliseconds; absent optional fields are `None`. */
  datatype Post = Post(
    id: string,
    title: string,
    slug: string,
    description: string,
    content: string,
    category: string,
    publishDate: int,
    author: string,
    tags: Option<seq<string>>,
    views: Option<int>,
    comments: Option<int>
  )

  /** `/${categorySlug}/${post.slug}` with the Vietnamese category slug. */
  function PostUrl(p: Post): (r: string)
    ensures CategoryOfKey(p.category).Some? ==>
              r == "/" + Slug(CategoryOfKey(p.category).value) + "/" + p.slug
    ensures CategoryOfKey(p.category).None? ==> r == "/" + p.category + "/" + p.slug
  {
    "/" + CategorySlugOrKey(p.category) + "/" + p.slug
  }

  /** The category segment of a post URL leads to that category's page. */
  lemma PostUrlCategorySegment(p: Post, c: Category)
    requires p.category == Key(c)
    ensures PostUrl(p) == "/" + Slug(c) + "/" + p.slug
    ensures SlugToCategory(PostUrl(p)[1..1 + |Slug(c)|]) == Some(c)
  {
    var u := PostUrl(p);
    var s := Slug(c);
    assert u == "/" + s + "/" + p.slug;
    assert forall i :: 0 <= i < |s| ==> u[1 + i] == s[i];
    assert u[1..1 + |s|] == s;
  }
}

=== FILE: blog_post_page.dfy ===
/** The blog post page at `/<category>/<slug>`: the post lookup, the related and recommended
    posts and the author's initials. */
module BlogPostPage {
  import opened Js
  import opened BlogPost
  import Seqs

  /** `blogPosts.find(post => post.slug === slug)`; a missing route slug equals no post's slug. */
  function FindPost(posts: seq<Post>, slug: Option<string>): (r: Option<Post>)
    ensures r.Some? ==> r.value in posts && slug == Some(r.value.slug)
    ensures r.None? <==> forall i :: 0 <= i < |posts| ==> slug != Some(posts[i].slug)
  {
    if |posts| == 0 then None
    else if slug == Some(posts[0].slug) then Some(posts[0])
    else
      var r := FindPost(posts[1..], slug);
      assert forall i :: 1 <= i < |posts| ==> posts[i] == posts[1..][i - 1];
      r
  }

  /** The lookup returns the first post with the slug. */
  lemma {:induction false} FindPostFirst(posts: seq<Post>, slug: string, i: nat)
    requires i < |posts| && posts[i].slug == slug
    requires forall j :: 0 <= j < i ==> posts[j].slug != slug
    ensures FindPost(posts, Some(slug)) == Some(posts[i])
    decreases i
  {
    if i > 0 {
      FindPostFirst(posts[1..], slug, i - 1);
    }
  }

  /** `relatedPosts`: up to three other posts of the same category, in data order. */
  function Related(posts: seq<Post>, post: Post): seq<Post> {
    Slice(Seqs.Filter(posts, SameCategory(post)), 0, 3)
  }

  function SameCategory(post: Post): Post -> bool {
    (p: Post) => p.category == post.category && p.id != post.id
  }

  /** `recommendedPosts`: up to two posts of other categories, in data order. */
  function Recommended(posts: seq<Post>, post: Post): seq<Post> {
    Slice(Seqs.Filter(posts, OtherCategory(post)), 0, 2)
  }

  function OtherCategory(post: Post): Post -> bool {
    (p: Post) => p.category != post.category && p.id != post.id
  }

  /** What the page renders. */
  datatype View = NotFound | Article(post: Post, related: seq<Post>, recommended: seq<Post>)

  /** The page for the route `/<category>/<slug>`. */
  function Page(posts: seq<Post>, category: Option<string>, slug: Option<string>): (view: View)
    ensures view.NotFound? <==> FindPost(posts, slug).None?
    ensures view.Article? ==> view.post == FindPost(posts, slug).value
    ensures view.Article? ==>
              view.related == Related(posts, view.post) && view.recommended == Recommended(posts, view.post)
  {
    match FindPost(posts, slug)
    case None => NotFound
    case Some(post) => Article(post, Related(posts, post), Recommended(posts, post))
  }

  /** The category segment of the route plays no part: any category shows the same page. */
  lemma CategorySegmentIgnored(posts: seq<Post>, c1: Option<string>, c2: Option<string>, slug: Option<string>)
    ensures Page(posts, c1, slug) == Page(posts, c2, slug)
  {
  }

  /** The related posts are the first (at most three) posts of the same category other than
      the current one, in data order; the recommended ones the first (at most two) of other
      categories; the two lists share no post and neither holds the current post. */
  lemma RelatedAndRecommended(posts: seq<Post>, post: Post)
    ensures var rel := Seqs.Filter(posts, SameCategory(post));
            Related(posts, post) == rel[..Min(3, |rel|)]
    ensures var rec := Seqs.Filter(posts, OtherCategory(post));
            Recommended(posts, post) == rec[..Min(2, |rec|)]
    ensures forall p :: p in Related(posts, post) ==> p in posts && p.category == post.category && p.id != post.id
    ensures forall p :: p in Recommended(posts, post) ==> p in posts && p.category != post.category && p.id != post.id
    ensures forall p :: p in Related(posts, post) ==> p !in Recommended(posts, post)
    ensures post !in Related(posts, post) && post !in Recommended(posts, post)
  {
    var rel := Seqs.Filter(posts, SameCategory(post));
    var rec := Seqs.Filter(posts, OtherCategory(post));
    TakePrefix(rel, 3);
    TakePrefix(rec, 2);
    forall p | p in Related(posts, post) ensures p in rel {
      assert p in rel[..Min(3, |rel|)];
    }
    forall p | p in Recommended(posts, post) ensures p in rec {
      assert p in rec[..Min(2, |rec|)];
    }
  }

  /** `name.split(' ').map(n => n[0]).join('')`: the first character of each piece, an empty
      piece adding nothing (`undefined` joins as ""). */
  function FirstLetters(words: seq<string>): string
    decreases |words|
  {
    if |words| == 0 then ""
    else (if |words[0]| == 0 then "" else [words[0][0]]) + FirstLetters(words[1..])
  }

  function NonEmptyWord(w: string): bool {
    |w| > 0
  }

  /** One letter per non-empty word, the first letter of that word, in word order. */
  lemma {:induction false} FirstLettersOfWords(words: seq<string>)
    ensures var ws := Seqs.Filter(words, NonEmptyWord);
            |FirstLetters(words)| == |ws| &&
            forall i :: 0 <= i < |ws| ==> |ws[i]| > 0 && FirstLetters(words)[i] == ws[i][0]
    decreases |words|
  {
    if |words| > 0 {
      FirstLettersOfWords(words[1..]);
      Seqs.FilterUnfold(words, NonEmptyWord);
      var ws := Seqs.Filter(words, NonEmptyWord);
      var tail := Seqs.Filter(words[1..], NonEmptyWord);
      if |words[0]| > 0 {
        assert ws == [words[0]] + tail;
        assert FirstLetters(words) == [words[0][0]] + FirstLetters(words[1..]);
        forall i | 0 < i < |ws| ensures FirstLetters(words)[i] == ws[i][0] {
          assert ws[i] == tail[i - 1];
        }
      } else {
        assert ws == tail;
        assert FirstLetters(words) == FirstLetters(words[1..]);
      }
    }
  }

  /** `getInitials` */
  function Initials(h: Host, name: string): string {
    h.upper(FirstLetters(Split(name, " ")))
  }

  /** The initials are the upper-cased first letters of the non-empty space-separated words,
      in order. */
  lemma InitialsOfName(h: Host, name: string)
    ensures var ws := Seqs.Filter(Split(name, " "), NonEmptyWord);
            exists letters: string :: Initials(h, name) == h.upper(letters) && |letters| == |ws| &&
              forall i :: 0 <= i < |ws| ==> |ws[i]| > 0 && letters[i] == ws[i][0]
  {
    FirstLettersOfWords(Split(name, " "));
    var letters := FirstLetters(Split(name, " "));
    assert Initials(h, name) == h.upper(letters);
  }
}

=== FILE: catalog_client.dfy ===
/** The simple catalog listing: a tab per vehicle type plus "all". */
module CatalogClient {
  import opened Trucks
  import Seqs
  import Grouping

  /** The tab values, in display order. */
  const TabValues: seq<string> := ["all", "xe-tai", "dau-keo", "mooc", "xe-cau"]

  /** The tabs other than "all". */
  const TypeTabs: seq<string> := TabValues[1..]

  function TypeOf(t: Truck): string {
    t.vehicleType
  }

  /** `filteredTrucks` for the selected tab. */
  function Shown(selected: string, trucks: seq<Truck>): (r: seq<Truck>)
    ensures selected == "all" ==> r == trucks
    ensures selected != "all" ==> forall t :: t in r <==> t in trucks && t.vehicleType == selected
    ensures selected != "all" ==> Seqs.IsSubseq(r, trucks)
    ensures selected != "all" ==>
              forall t :: multiset(r)[t] == if t.vehicleType == selected then multiset(trucks)[t] else 0
    ensures |r| <= |trucks|
  {
    if selected == "all" then trucks
    else
      Seqs.FilterIsSubseq(trucks, Grouping.HasKey(TypeOf, selected));
      Seqs.FilterCount(trucks, Grouping.HasKey(TypeOf, selected));
      Seqs.Filter(trucks, Grouping.HasKey(TypeOf, selected))
  }

  /** The empty-category message shows exactly when no vehicle has the selected type. */
  lemma EmptyMessage(selected: string, trucks: seq<Truck>)
    requires selected != "all"
    ensures |Shown(selected, trucks)| == 0 <==> forall i :: 0 <= i < |trucks| ==> trucks[i].vehicleType != selected
  {
    if |Shown(selected, trucks)| == 0 {
      forall i | 0 <= i < |trucks| ensures trucks[i].vehicleType != selected {
        assert trucks[i] in trucks;
      }
    } else {
      var t := Shown(selected, trucks)[0];
      assert t in Shown(selected, trucks);
    }
  }

  lemma TypeTabsDistinct()
    ensures Seqs.Distinct(TypeTabs)
  {
    assert TypeTabs == ["xe-tai", "dau-keo", "mooc", "xe-cau"];
  }

  /** The four type tabs split the listing: their sizes add up to the number of vehicles whose
      type has a tab, and to the whole catalog when every vehicle does. */
  lemma TypeTabsPartition(trucks: seq<Truck>)
    ensures Grouping.CountByKeys(trucks, TypeOf, TypeTabs) ==
            |Seqs.Filter(trucks, Grouping.KeyIn(TypeOf, TypeTabs))|
    ensures (forall i :: 0 <= i < |trucks| ==> trucks[i].vehicleType in TypeTabs) ==>
            Grouping.CountByKeys(trucks, TypeOf, TypeTabs) == |Shown("all", trucks)|
  {
    TypeTabsDistinct();
    Grouping.CountByKeysPartition(trucks, TypeOf, TypeTabs);
  }
}

=== FILE: compare_context.dfy ===
/** The compare list: a capped, duplicate-free selection of up to three vehicles, kept as a pure
    state-transition function. Toasts become an outcome value; persistence is not modelled and the
    list starts empty. */
module CompareContext {
  import opened Js
  import opened Trucks
  import Seqs

  const MaxCompareItems: nat := 3

  const ComparePath := "/so-sanh-xe"

  /** Which toast `addToCompare` shows. */
  datatype AddOutcome = ListFull | AlreadyInList | Added

  /** `compareItems.some(item => item.id === truckId)` */
  predicate InCompare(items: seq<Truck>, id: string) {
    exists i :: 0 <= i < |items| && items[i].id == id
  }

  /** No two entries share an id. */
  predicate DistinctIds(items: seq<Truck>) {
    forall i, j :: 0 <= i < j < |items| ==> items[i].id != items[j].id
  }

  /** The invariant the interactive operations keep: at most three entries, ids pairwise distinct. */
  predicate WellFormed(items: seq<Truck>) {
    |items| <= MaxCompareItems && DistinctIds(items)
  }

  /** `addToCompare`: the cap is checked first, then the duplicate guard, then the truck is appended. */
  function AddToCompare(items: seq<Truck>, truck: Truck): (r: (seq<Truck>, AddOutcome))
    ensures r.1 == ListFull <==> |items| >= MaxCompareItems
    ensures r.1 == AlreadyInList <==> |items| < MaxCompareItems && InCompare(items, truck.id)
    ensures r.1 != Added ==> r.0 == items
    ensures r.1 == Added ==> |r.0| == |items| + 1 && r.0[..|items|] == items && r.0[|items|] == truck
  {
    if |items| >= MaxCompareItems then (items, ListFull)
    else if InCompare(items, truck.id) then (items, AlreadyInList)
    else (items + [truck], Added)
  }

  function NotId(id: string): Truck -> bool {
    (t: Truck) => t.id != id
  }

  /** `removeFromCompare`: keeps, in order, every entry whose id differs. */
  function RemoveFromCompare(items: seq<Truck>, id: string): (r: seq<Truck>)
    ensures forall t :: t in r <==> t in items && t.id != id
    ensures !InCompare(r, id)
    ensures !InCompare(items, id) ==> r == items
    ensures Seqs.IsSubseq(r, items)
    ensures forall t :: multiset(r)[t] == if t.id != id then multiset(items)[t] else 0
  {
    Seqs.FilterIsSubseq(items, NotId(id));
    Seqs.FilterCount(items, NotId(id));
    Seqs.Filter(items, NotId(id))
  }

  /** `clearCompare` */
  function ClearCompare(): (r: seq<Truck>)
    ensures |r| == 0
  {
    []
  }

  function Ids(items: seq<Truck>): (r: seq<string>)
    ensures |r| == |items|
    ensures forall i :: 0 <= i < |items| ==> r[i] == items[i].id
  {
    seq(|items|, i requires 0 <= i < |items| => items[i].id)
  }

  /** `generateCompareUrl`: ids, not slugs, joined with a single hyphen. */
  function CompareUrl(items: seq<Truck>): (r: string)
    ensures |items| == 0 <==> r == ComparePath
    ensures |items| > 0 ==> r == ComparePath + "/" + Join(Ids(items), "-")
  {
    if |items| == 0 then ComparePath
    else
      var r := ComparePath + "/" + Join(Ids(items), "-");
      assert r[|ComparePath|] == '/';
      r
  }

  /** `loadTrucksFromUrl`: any non-empty list replaces the selection as it is. */
  function LoadTrucksFromUrl(items: seq<Truck>, trucks: seq<Truck>): (r: seq<Truck>)
    ensures |trucks| == 0 ==> r == items
    ensures |trucks| > 0 ==> r == trucks
  {
    if |trucks| > 0 then trucks else items
  }

  /** The interactive operations of the context. */
  datatype Op = Add(truck: Truck) | Remove(id: string) | Clear

  function Apply(items: seq<Truck>, op: Op): seq<Truck> {
    match op
    case Add(t) => AddToCompare(items, t).0
    case Remove(id) => RemoveFromCompare(items, id)
    case Clear => ClearCompare()
  }

  function Run(items: seq<Truck>, ops: seq<Op>): seq<Truck>
    decreases |ops|
  {
    if |ops| == 0 then items else Run(Apply(items, ops[0]), ops[1..])
  }

  /** Filtering never makes two entries share an id. */
  lemma {:induction false} FilterKeepsDistinctIds(items: seq<Truck>, p: Truck -> bool)
    requires DistinctIds(items)
    ensures DistinctIds(Seqs.Filter(items, p))
    decreases |items|
  {
    if |items| > 0 {
      var rest := Seqs.Filter(items[1..], p);
      TailDistinctIds(items);
      FilterKeepsDistinctIds(items[1..], p);
      Seqs.FilterUnfold(items, p);
      if p(items[0]) {
        forall t | t in rest ensures t.id != items[0].id {
          assert t in items[1..];
          HeadIdNotInTail(items, t);
        }
        ConsDistinctIds(items[0], rest);
      }
    }
  }

  lemma TailDistinctIds(items: seq<Truck>)
    requires |items| > 0 && DistinctIds(items)
    ensures DistinctIds(items[1..])
  {
    forall i, j | 0 <= i < j < |items[1..]| ensures items[1..][i].id != items[1..][j].id {
      assert items[1..][i] == items[i + 1] && items[1..][j] == items[j + 1];
    }
  }

  lemma HeadIdNotInTail(items: seq<Truck>, t: Truck)
    requires |items| > 0 && DistinctIds(items)
    requires t in items[1..]
    ensures t.id != items[0].id
  {
    var k :| 0 <= k < |items[1..]| && items[1..][k] == t;
    assert items[k + 1] == t;
  }

  lemma ConsDistinctIds(x: Truck, rest: seq<Truck>)
    requires DistinctIds(rest)
    requires forall t :: t in rest ==> t.id != x.id
    ensures DistinctIds([x] + rest)
  {
    var r := [x] + rest;
    forall i, j | 0 <= i < j < |r| ensures r[i].id != r[j].id {
      assert r[j] == rest[j - 1];
      if i > 0 {
        assert r[i] == rest[i - 1];
      } else {
        assert rest[j - 1] in rest;
      }
    }
  }

  lemma ApplyKeepsWellFormed(items: seq<Truck>, op: Op)
    requires WellFormed(items)
    ensures WellFormed(Apply(items, op))
  {
    match op
    case Add(t) =>
      var r := AddToCompare(items, t);
      if r.1 == Added {
        forall i | 0 <= i < |items| ensures items[i].id != t.id {
        }
      }
    case Remove(id) =>
      FilterKeepsDistinctIds(items, NotId(id));
    case Clear =>
  }

  /** From an empty list, any sequence of add, remove and clear keeps at most three entries with
      pairwise distinct ids. */
  lemma {:induction false} RunKeepsWellFormed(items: seq<Truck>, ops: seq<Op>)
    requires WellFormed(items)
    ensures WellFormed(Run(items, ops))
    decreases |ops|
  {
    if |ops| > 0 {
      ApplyKeepsWellFormed(items, ops[0]);
      RunKeepsWellFormed(Apply(items, ops[0]), ops[1..]);
    }
  }

  lemma RunFromEmpty(ops: seq<Op>)
    ensures WellFormed(Run([], ops))
  {
    RunKeepsWellFormed([], ops);
  }

  /** After clearing, no id is in the list and the URL is the bare compare path. */
  lemma ClearEmpties(items: seq<Truck>, id: string)
    ensures !InCompare(Apply(items, Clear), id)
    ensures CompareUrl(Apply(items, Clear)) == ComparePath
  {
  }

  /** Adding then removing the same vehicle restores a list that did not hold its id. */
  lemma AddThenRemove(items: seq<Truck>, t: Truck)
    requires !InCompare(items, t.id)
    ensures RemoveFromCompare(AddToCompare(items, t).0, t.id) == items
  {
    var added := AddToCompare(items, t).0;
    if added != items {
      assert added == items + [t];
      Seqs.FilterSnoc(items, t, NotId(t.id));
    }
  }

  /** Once added, a vehicle is in the list whichever toast was shown, unless the list was full. */
  lemma AddThenInCompare(items: seq<Truck>, t: Truck)
    requires |items| < MaxCompareItems
    ensures InCompare(AddToCompare(items, t).0, t.id)
  {
    var r := AddToCompare(items, t);
    if r.1 == Added {
      assert r.0[|items|] == t;
    }
  }

  /** The URL lists the ids in order: when no id contains a hyphen, splitting the last path
      segment on `-` gives the ids back. */
  lemma CompareUrlIds(items: seq<Truck>)
    requires |items| > 0
    requires forall i :: 0 <= i < |items| ==> NoEarlySeparator(items[i].id, "-")
    ensures CompareUrl(items)[|ComparePath| + 1..] == Join(Ids(items), "-")
    ensures Split(CompareUrl(items)[|ComparePath| + 1..], "-") == Ids(items)
  {
    var ids := Ids(items);
    assert CompareUrl(items)[|ComparePath| + 1..] == Join(ids, "-");
    SplitJoin(ids, "-");
  }

  /** The load path bypasses both the cap and the duplicate guard. */
  lemma LoadBypassesGuards(t: Truck)
    ensures var r := LoadTrucksFromUrl([], [t, t, t, t]);
            |r| == 4 > MaxCompareItems && !WellFormed(r)
  {
    var r := LoadTrucksFromUrl([], [t, t, t, t]);
    assert r[0].id == r[1].id;
  }
}

=== FILE: compare_page.dfy ===
/** The compare page: it writes the selection into the path as slugs joined with `-vs-`, and reads
    such a path back by splitting on `-vs-` and looking each slug up in the catalog. */
module ComparePage {
  import opened Js
  import opened Trucks
  import Seqs
  import CompareContext

  const SlugSeparator := "-vs-"

  function Slugs(items: seq<Truck>): (r: seq<string>)
    ensures |r| == |items|
    ensures forall i :: 0 <= i < |items| ==> r[i] == items[i].slug
  {
    seq(|items|, i requires 0 <= i < |items| => items[i].slug)
  }

  /** The path the first effect navigates to when the selection changes, if any: only a
      non-empty selection on a page opened without a slug parameter is written into the URL. */
  function NavigationTarget(items: seq<Truck>, param: Option<string>): (r: Option<string>)
    ensures r.Some? <==> |items| > 0 && !Truthy(param)
    ensures r.Some? ==> r.value == CompareContext.ComparePath + "/" + Join(Slugs(items), SlugSeparator)
  {
    if |items| > 0 && !Truthy(param) then
      Some(CompareContext.ComparePath + "/" + Join(Slugs(items), SlugSeparator))
    else None
  }

  function Known(catalog: seq<Truck>): string -> bool {
    s => FindBySlug(catalog, s).Some?
  }

  /** The `forEach` over the URL slugs: each slug is replaced by the first catalog vehicle with
      that slug, and dropped when there is none. */
  function ResolveSlugs(slugs: seq<string>, catalog: seq<Truck>): (r: seq<Truck>)
    ensures |r| <= |slugs|
    ensures forall k :: 0 <= k < |r| ==> FindBySlug(catalog, r[k].slug) == Some(r[k])
  {
    if |slugs| == 0 then []
    else
      var rest := ResolveSlugs(slugs[1..], catalog);
      match FindBySlug(catalog, slugs[0])
      case Some(t) =>
        assert forall k :: 1 <= k < |rest| + 1 ==> ([t] + rest)[k] == rest[k - 1];
        [t] + rest
      case None => rest
  }

  /** The resolved list follows URL order, drops the unknown slugs and keeps repeated ones. */
  lemma {:induction false} ResolveSlugsFollowsUrl(slugs: seq<string>, catalog: seq<Truck>)
    ensures Slugs(ResolveSlugs(slugs, catalog)) == Seqs.Filter(slugs, Known(catalog))
    decreases |slugs|
  {
    if |slugs| > 0 {
      var rest := ResolveSlugs(slugs[1..], catalog);
      ResolveSlugsFollowsUrl(slugs[1..], catalog);
      Seqs.FilterUnfold(slugs, Known(catalog));
      match FindBySlug(catalog, slugs[0])
      case Some(t) =>
        assert Slugs([t] + rest) == [t.slug] + Slugs(rest);
      case None =>
    }
  }

  /** `truckSlugs.every(slug => compareItems.some(item => item.slug === slug))` */
  predicate AllSlugsMatch(slugs: seq<string>, items: seq<Truck>) {
    forall i :: 0 <= i < |slugs| ==> exists j :: 0 <= j < |items| && items[j].slug == slugs[i]
  }

  /** `loadTrucksFromUrlParam`, returning the selection afterwards. */
  function LoadFromParam(param: string, items: seq<Truck>, catalog: seq<Truck>): (r: seq<Truck>)
    ensures var slugs := Split(param, SlugSeparator);
            |items| == |slugs| && AllSlugsMatch(slugs, items) ==> r == items
    ensures r == items || Slugs(r) == Seqs.Filter(Split(param, SlugSeparator), Known(catalog))
    ensures var slugs := Split(param, SlugSeparator);
            var known := Seqs.Filter(slugs, Known(catalog));
            !(|items| == |slugs| && AllSlugsMatch(slugs, items)) && |known| > 0 ==> Slugs(r) == known
    ensures |Seqs.Filter(Split(param, SlugSeparator), Known(catalog))| == 0 ==> r == items
    ensures forall t :: t in r ==> t in items || t in catalog
  {
    var slugs := Split(param, SlugSeparator);
    if |slugs| == 0 then items
    else if |items| == |slugs| && AllSlugsMatch(slugs, items) then items
    else
      var found := ResolveSlugs(slugs, catalog);
      ResolveSlugsFollowsUrl(slugs, catalog);
      assert forall k :: 0 <= k < |found| ==> found[k] in catalog by {
        forall k | 0 <= k < |found| ensures found[k] in catalog {
          assert FindBySlug(catalog, found[k].slug) == Some(found[k]);
        }
      }
      CompareContext.LoadTrucksFromUrl(items, found)
  }

  /** The second effect: a truthy slug parameter triggers the load. */
  function OnParam(param: Option<string>, items: seq<Truck>, catalog: seq<Truck>): (r: seq<Truck>)
    ensures !Truthy(param) ==> r == items
    ensures Truthy(param) ==> r == LoadFromParam(param.value, items, catalog)
  {
    if Truthy(param) then LoadFromParam(param.value, items, catalog) else items
  }

  /** The exact condition under which a slug survives `-vs-` joining and splitting: it must not
      contain `-vs-` and must not end in `-vs` (whose last three characters would combine with
      the separator's first into an earlier match). */
  lemma {:induction false} VsSeparatorFree(p: string)
    ensures NoEarlySeparator(p, SlugSeparator) <==> !Includes(p, SlugSeparator) && !EndsWith(p, "-vs")
    decreases |p|
  {
    var sep := SlugSeparator;
    if |p| > 0 {
      VsSeparatorFree(p[1..]);
      assert EndsWith(p[1..], "-vs") == (|p| > 3 && EndsWith(p, "-vs")) by {
        if |p| > 3 {
          assert p[1..][|p[1..]| - 3..] == p[|p| - 3..];
        }
      }
      if |p| >= 4 {
        assert (sep <= p + sep) == (sep <= p) by {
          assert (p + sep)[..4] == p[..4];
        }
      } else if |p| == 3 {
        assert (sep <= p + sep) == (p == "-vs") by {
          if sep <= p + sep {
            assert p == (p + sep)[..3] == sep[..3];
          }
          if p == "-vs" {
            assert (p + sep)[..4] == "-vs-";
          }
        }
        assert EndsWith(p, "-vs") == (p == "-vs");
        assert !(sep <= p);
      } else {
        assert !(sep <= p + sep) by {
          if |p| == 1 {
            assert (p + sep)[1] == '-' != sep[1];
          } else {
            assert (p + sep)[2] == '-' != sep[2];
          }
        }
        assert !EndsWith(p, "-vs") && !(sep <= p);
      }
    }
  }

  /** A slug that ends in `-` or `-v` is harmless, contrary to what one might expect. */
  lemma TrailingDashHarmless()
    ensures NoEarlySeparator("xe-", SlugSeparator) && NoEarlySeparator("xe-v", SlugSeparator)
    ensures !NoEarlySeparator("xe-vs", SlugSeparator)
  {
    VsSeparatorFree("xe-");
    VsSeparatorFree("xe-v");
    VsSeparatorFree("xe-vs");
    assert !Includes("xe-", SlugSeparator) by {
      assert !Includes("e-", SlugSeparator) by {
        assert !Includes("-", SlugSeparator);
      }
    }
    assert !Includes("xe-v", SlugSeparator) by {
      assert !Includes("e-v", SlugSeparator) by {
        assert !Includes("-v", SlugSeparator) by {
          assert !Includes("v", SlugSeparator);
        }
      }
    }
    assert EndsWith("xe-vs", "-vs");
  }

  /** The path the page writes for a selection reads back as that selection: when the page is
      later opened on its own path, nothing is reloaded. */
  lemma {:induction false} OwnPathDoesNotReload(items: seq<Truck>, catalog: seq<Truck>)
    requires |items| > 0
    requires forall i :: 0 <= i < |items| ==> NoEarlySeparator(items[i].slug, SlugSeparator)
    ensures var path := NavigationTarget(items, None);
            path.Some? &&
            path.value[|CompareContext.ComparePath| + 1..] == Join(Slugs(items), SlugSeparator) &&
            Split(path.value[|CompareContext.ComparePath| + 1..], SlugSeparator) == Slugs(items) &&
            LoadFromParam(path.value[|CompareContext.ComparePath| + 1..], items, catalog) == items
  {
    var slugs := Slugs(items);
    var param := Join(slugs, SlugSeparator);
    var path := NavigationTarget(items, None);
    assert path.value == CompareContext.ComparePath + "/" + param;
    assert path.value[|CompareContext.ComparePath| + 1..] == param;
    SplitJoin(slugs, SlugSeparator);
    assert AllSlugsMatch(slugs, items) by {
      forall i | 0 <= i < |slugs| ensures exists j :: 0 <= j < |items| && items[j].slug == slugs[i] {
        assert items[i].slug == slugs[i];
      }
    }
  }

  /** When no URL slug is in the catalog, the selection is left as it was. */
  lemma UnresolvedKeepsSelection(param: string, items: seq<Truck>, catalog: seq<Truck>)
    requires forall i :: 0 <= i < |Split(param, SlugSeparator)| ==>
               FindBySlug(catalog, Split(param, SlugSeparator)[i]).None?
    ensures LoadFromParam(param, items, catalog) == items
  {
    var slugs := Split(param, SlugSeparator);
    var found := ResolveSlugs(slugs, catalog);
    Seqs.FilterNone(slugs, Known(catalog));
    ResolveSlugsFollowsUrl(slugs, catalog);
    assert |found| == |Slugs(found)| == 0;
  }

  lemma SingleCharSlug(c: char)
    requires c != '-'
    ensures NoEarlySeparator([c], SlugSeparator)
  {
    assert ([c] + SlugSeparator)[0] == c;
    assert [c][1..] == [];
  }

  /** Loading from a path is not capped: when every URL slug is in the catalog, a fresh session
      selects one vehicle per slug, however many there are. */
  lemma AllKnownSlugsLoad(param: string, catalog: seq<Truck>)
    requires forall i :: 0 <= i < |Split(param, SlugSeparator)| ==> Known(catalog)(Split(param, SlugSeparator)[i])
    ensures Slugs(LoadFromParam(param, [], catalog)) == Split(param, SlugSeparator)
  {
    var slugs := Split(param, SlugSeparator);
    ResolveSlugsFollowsUrl(slugs, catalog);
  }

  /** Four resolvable slugs select four vehicles, one more than the context's cap. */
  lemma UncappedLoad(a: Truck, b: Truck, c: Truck, d: Truck)
    requires a.slug == "a" && b.slug == "b" && c.slug == "c" && d.slug == "d"
    ensures |LoadFromParam(Join(["a", "b", "c", "d"], SlugSeparator), [], [a, b, c, d])| == 4
    ensures 4 > CompareContext.MaxCompareItems
  {
    var catalog := [a, b, c, d];
    var slugs := ["a", "b", "c", "d"];
    SingleCharSlug('a');
    SingleCharSlug('b');
    SingleCharSlug('c');
    SingleCharSlug('d');
    SplitJoin(slugs, SlugSeparator);
    assert forall i :: 0 <= i < 4 ==> Known(catalog)(slugs[i]) by {
      assert catalog[0].slug == "a" && catalog[1].slug == "b";
      assert catalog[2].slug == "c" && catalog[3].slug == "d";
    }
    AllKnownSlugsLoad(Join(slugs, SlugSeparator), catalog);
  }

  /** The context's compare URL carries ids joined with `-`, which this page reads as slugs:
      opened in a fresh session, the URL built for a vehicle whose id is not a slug selects
      nothing. */
  lemma ContextUrlIsNotReadable(t: Truck)
    requires t.id == "1" && t.slug == "hino-300"
    ensures CompareContext.CompareUrl([t]) == "/so-sanh-xe/1"
    ensures LoadFromParam("1", [], [t]) == []
  {
    assert CompareContext.Ids([t]) == ["1"];
    SingleCharSlug('1');
    SplitJoin(["1"], SlugSeparator);
    UnresolvedKeepsSelection("1", [], [t]);
  }
}

=== FILE: grouping.dfy ===
/** Selecting and grouping records by a string key (a vehicle's type, a post's category): the
    `reduce` into an object of arrays used by the search page, and the counting facts that let a
    page's sections be compared with the list they split. */
module Grouping {
  import opened Js
  import Seqs

  function HasKey<T(!new)>(key: T -> string, k: string): (p: T -> bool)
    ensures forall x :: p(x) == (key(x) == k)
  {
    x => key(x) == k
  }

  function KeyIn<T(!new)>(key: T -> string, ks: seq<string>): (p: T -> bool)
    ensures forall x :: p(x) == (key(x) in ks)
  {
    x => key(x) in ks
  }

  /** The sizes of the per-key selections, added up over `ks`. */
  function CountByKeys<T(==,!new)>(s: seq<T>, key: T -> string, ks: seq<string>): nat
    decreases |ks|
  {
    if |ks| == 0 then 0
    else |Seqs.Filter(s, HasKey(key, ks[0]))| + CountByKeys(s, key, ks[1..])
  }

  /** Prepending one record adds one to the total exactly when its key is listed. */
  lemma {:induction false} CountByKeysCons<T(!new)>(x: T, s: seq<T>, key: T -> string, ks: seq<string>)
    requires Seqs.Distinct(ks)
    ensures CountByKeys([x] + s, key, ks) == CountByKeys(s, key, ks) + (if key(x) in ks then 1 else 0)
    decreases |ks|
  {
    if |ks| > 0 {
      Seqs.FilterCons(x, s, HasKey(key, ks[0]));
      assert Seqs.Distinct(ks[1..]) by {
        forall i, j | 0 <= i < j < |ks[1..]| ensures ks[1..][i] != ks[1..][j] {
          assert ks[1..][i] == ks[i + 1] && ks[1..][j] == ks[j + 1];
        }
      }
      CountByKeysCons(x, s, key, ks[1..]);
      assert key(x) in ks <==> key(x) == ks[0] || key(x) in ks[1..] by {
        assert ks == [ks[0]] + ks[1..];
      }
      if key(x) == ks[0] {
        assert key(x) !in ks[1..] by {
          forall j | 0 <= j < |ks[1..]| ensures ks[1..][j] != ks[0] {
            assert ks[1..][j] == ks[j + 1];
          }
        }
      }
    }
  }

  /** For distinct keys, the per-key selections together hold exactly the records whose key is
      listed: no record is counted twice and none with a listed key is missed. */
  lemma {:induction false} CountByKeysPartition<T(!new)>(s: seq<T>, key: T -> string, ks: seq<string>)
    requires Seqs.Distinct(ks)
    ensures CountByKeys(s, key, ks) == |Seqs.Filter(s, KeyIn(key, ks))|
    decreases |s|
  {
    if |s| == 0 {
      CountByKeysEmpty(s, key, ks);
    } else {
      assert s == [s[0]] + s[1..];
      CountByKeysPartition(s[1..], key, ks);
      CountByKeysCons(s[0], s[1..], key, ks);
      Seqs.FilterUnfold(s, KeyIn(key, ks));
    }
  }

  lemma {:induction false} CountByKeysEmpty<T(!new)>(s: seq<T>, key: T -> string, ks: seq<string>)
    requires |s| == 0
    ensures CountByKeys(s, key, ks) == 0
    decreases |ks|
  {
    if |ks| > 0 {
      CountByKeysEmpty(s, key, ks[1..]);
    }
  }

  // ---------------------------------------------------------------------------------------
  // `reduce((acc, x) => { (acc[key(x)] ||= []).push(x); return acc }, {})`

  /** An object of arrays, as its entries in insertion order. */
  type Groups<T> = seq<(string, seq<T>)>

  function Keys<T>(g: Groups<T>): (r: seq<string>)
    ensures |r| == |g|
    ensures forall i :: 0 <= i < |g| ==> r[i] == g[i].0
  {
    seq(|g|, i requires 0 <= i < |g| => g[i].0)
  }

  /** `acc[k]`: the first entry under the key. */
  function Lookup<T>(g: Groups<T>, k: string): (r: Option<seq<T>>)
    ensures r.None? <==> k !in Keys(g)
  {
    if |g| == 0 then None
    else if g[0].0 == k then Some(g[0].1)
    else
      assert Keys(g) == [g[0].0] + Keys(g[1..]);
      Lookup(g[1..], k)
  }

  /** One step of the reduction: append `x` under `k`, creating the entry at the end if needed. */
  function AddTo<T>(g: Groups<T>, k: string, x: T): (r: Groups<T>)
    decreases |g|
  {
    if |g| == 0 then [(k, [x])]
    else if g[0].0 == k then [(k, g[0].1 + [x])] + g[1..]
    else [g[0]] + AddTo(g[1..], k, x)
  }

  function GroupBy<T>(s: seq<T>, key: T -> string): Groups<T>
    decreases |s|
  {
    if |s| == 0 then []
    else
      var last := s[|s| - 1];
      AddTo(GroupBy(s[..|s| - 1], key), key(last), last)
  }

  /** An append touches only the entry under its own key. */
  lemma {:induction false} LookupAddTo<T>(g: Groups<T>, k: string, x: T, j: string)
    ensures Lookup(AddTo(g, k, x), j) ==
              if j == k then Some(Lookup(g, j).GetOr([]) + [x]) else Lookup(g, j)
    decreases |g|
  {
    var r := AddTo(g, k, x);
    if |g| == 0 {
      assert r[1..] == [] && r[0] == (k, [x]);
      assert Lookup(g, j).GetOr([]) + [x] == [x];
    } else if g[0].0 == k {
      assert r[1..] == g[1..];
    } else {
      assert r[1..] == AddTo(g[1..], k, x);
      LookupAddTo(g[1..], k, x, j);
    }
  }

  /** A new key goes at the end; a known key leaves the key order alone. */
  lemma {:induction false} KeysAddTo<T>(g: Groups<T>, k: string, x: T)
    ensures Keys(AddTo(g, k, x)) == if k in Keys(g) then Keys(g) else Keys(g) + [k]
    decreases |g|
  {
    if |g| > 0 {
      assert Keys(g) == [g[0].0] + Keys(g[1..]);
      if g[0].0 != k {
        KeysAddTo(g[1..], k, x);
        assert Keys(AddTo(g, k, x)) == [g[0].0] + Keys(AddTo(g[1..], k, x));
      } else {
        assert Keys(AddTo(g, k, x)) == [k] + Keys(g[1..]);
      }
    }
  }

  /** Each group holds, in input order, exactly the records with its key, and there is a group
      for a key exactly when some record has it. */
  lemma {:induction false} GroupByLookup<T(!new)>(s: seq<T>, key: T -> string, k: string)
    ensures Lookup(GroupBy(s, key), k).GetOr([]) == Seqs.Filter(s, HasKey(key, k))
    ensures Lookup(GroupBy(s, key), k).Some? <==> |Seqs.Filter(s, HasKey(key, k))| > 0
    decreases |s|
  {
    if |s| > 0 {
      var init, last := s[..|s| - 1], s[|s| - 1];
      var p := HasKey(key, k);
      GroupByLookup(init, key, k);
      var before := Lookup(GroupBy(init, key), k);
      LookupAddTo(GroupBy(init, key), key(last), last, k);
      assert s == init + [last];
      Seqs.FilterSnoc(init, last, p);
      if key(last) == k {
        assert Lookup(GroupBy(s, key), k) == Some(before.GetOr([]) + [last]);
        assert Seqs.Filter(s, p) == Seqs.Filter(init, p) + [last];
      } else {
        assert Lookup(GroupBy(s, key), k) == before;
        assert Seqs.Filter(s, p) == Seqs.Filter(init, p) + [];
      }
    }
  }

  /** No key has two entries. */
  lemma {:induction false} GroupByDistinctKeys<T>(s: seq<T>, key: T -> string)
    ensures Seqs.Distinct(Keys(GroupBy(s, key)))
    decreases |s|
  {
    if |s| > 0 {
      var init, last := s[..|s| - 1], s[|s| - 1];
      GroupByDistinctKeys(init, key);
      KeysAddTo(GroupBy(init, key), key(last), last);
    }
  }
}

=== FILE: js.dfy ===
/** The slice of JavaScript runtime behaviour the site's logic relies on:
    `undefined`/`null` as `Option`, `Array.prototype.slice`, `join`, `String.prototype.split`,
    `includes` and `trim`, and the locale-dependent services of the host (case mapping,
    number formatting and parsing, collation), which this model leaves uninterpreted. */
module Js {

  /** `undefined` / `null` versus a present value. */
  datatype Option<+T> = None | Some(value: T) {
    function GetOr(default: T): T {
      match this
      case Some(v) => v
      case None => default
    }
  }

  /** A string is truthy in JavaScript exactly when it is present and non-empty. */
  predicate Truthy(s: Option<string>) {
    s.Some? && s.value != ""
  }

  /** Locale-dependent services of the JavaScript host. None of them is given a definition:
      every operation that needs one takes the host as a parameter, and every property that
      depends on how they behave says so in a `requires`. */
  datatype Host = Host(
    lower: string -> string,            // String.prototype.toLowerCase
    upper: string -> string,            // String.prototype.toUpperCase
    numberText: real -> string,         // Number.prototype.toString, also `${n}`
    parseNumber: string -> real,        // Number(text)
    vndText: real -> string,            // toLocaleString('vi-VN')
    compareVi: (string, string) -> int  // localeCompare(_, 'vi')
  )

  /** Number-to-text conversion never yields the empty string and `Number` reads it back. */
  ghost predicate NumberTextRoundTrips(h: Host) {
    forall x: real :: h.numberText(x) != "" && h.parseNumber(h.numberText(x)) == x
  }

  predicate IsAscii(s: string) {
    forall i :: 0 <= i < |s| ==> s[i] as int < 128
  }

  /** ASCII case folding of one character: 'A'..'Z' become 'a'..'z', everything else is kept. */
  function AsciiLowerChar(c: char): char {
    if 'A' <= c <= 'Z' then (c as int + 32) as char else c
  }

  function AsciiLower(s: string): string {
    seq(|s|, i requires 0 <= i < |s| => AsciiLowerChar(s[i]))
  }

  /** Unicode lower-casing agrees with ASCII folding on ASCII text (and so maps "" to ""). */
  ghost predicate LowerAgreesOnAscii(h: Host) {
    forall s :: IsAscii(s) ==> h.lower(s) == AsciiLower(s)
  }

  // ---------------------------------------------------------------------------------------
  // Array.prototype.slice

  /** How `slice` turns a possibly negative index into a position in a sequence of length n. */
  function RelativeIndex(i: int, n: nat): (k: nat)
    ensures k <= n
    ensures 0 <= i <= n ==> k == i
    ensures i > n ==> k == n
    ensures i < 0 ==> k == (if n + i < 0 then 0 else n + i)
  {
    if i < 0 then (if n + i < 0 then 0 else n + i) else if i > n then n else i
  }

  function Slice<T>(s: seq<T>, start: int, end: int): (r: seq<T>)
    ensures |r| <= |s|
    ensures 0 <= start <= end ==> r == s[Min(start, |s|)..Min(end, |s|)]
  {
    var from := RelativeIndex(start, |s|);
    var to := RelativeIndex(end, |s|);
    if from < to then s[from..to] else []
  }

  function Min(a: int, b: int): int {
    if a <= b then a else b
  }

  /** `slice(0, n)`: the first min(n, |s|) elements. */
  lemma TakePrefix<T>(s: seq<T>, n: nat)
    ensures Slice(s, 0, n) == s[..Min(n, |s|)]
    ensures |Slice(s, 0, n)| == Min(n, |s|)
  {
  }

  // ---------------------------------------------------------------------------------------
  // Array.prototype.join

  function Join(parts: seq<string>, sep: string): (r: string)
    ensures |parts| == 1 ==> r == parts[0]
    ensures |parts| == 0 ==> r == ""
  {
    if |parts| == 0 then ""
    else if |parts| == 1 then parts[0]
    else parts[0] + sep + Join(parts[1..], sep)
  }

  /** Concatenation of all parts, i.e. `join('')`. */
  function Concat(parts: seq<string>): (r: string)
  {
    if |parts| == 0 then "" else parts[0] + Concat(parts[1..])
  }

  // ---------------------------------------------------------------------------------------
  // String.prototype.split with a non-empty separator

  /** Scans `s` left to right, `acc` holding the piece read so far; every leftmost occurrence
      of `sep` closes the current piece. */
  function SplitFrom(s: string, sep: string, acc: string): (r: seq<string>)
    requires |sep| > 0
    ensures |r| >= 1
    decreases |s|
  {
    if |s| == 0 then [acc]
    else if sep <= s then [acc] + SplitFrom(s[|sep|..], sep, "")
    else SplitFrom(s[1..], sep, acc + [s[0]])
  }

  function Split(s: string, sep: string): (r: seq<string>)
    requires |sep| > 0
    ensures |r| >= 1
  {
    SplitFrom(s, sep, "")
  }

  /** No occurrence of `sep` in `p + sep` starts inside `p`: the separator written after `p`
      is the first one a left-to-right scan finds. */
  predicate NoEarlySeparator(p: string, sep: string)
    decreases |p|
  {
    |p| == 0 || (!(sep <= p + sep) && NoEarlySeparator(p[1..], sep))
  }

  lemma {:induction false} SplitFromPiece(p: string, sep: string, rest: string, acc: string)
    requires |sep| > 0
    requires NoEarlySeparator(p, sep)
    ensures SplitFrom(p + sep + rest, sep, acc) == [acc + p] + SplitFrom(rest, sep, "")
    decreases |p|
  {
    var s := p + sep + rest;
    if |p| == 0 {
      assert s == sep + rest;
      assert sep <= s;
      assert s[|sep|..] == rest;
      assert acc + p == acc;
    } else {
      assert (p + sep + rest)[..|p + sep|] == p + sep;
      assert !(sep <= s);
      assert s[1..] == p[1..] + sep + rest;
      SplitFromPiece(p[1..], sep, rest, acc + [p[0]]);
      assert acc + [p[0]] + p[1..] == acc + p;
    }
  }

  lemma {:induction false} SplitFromLast(p: string, sep: string, acc: string)
    requires |sep| > 0
    requires NoEarlySeparator(p, sep)
    ensures SplitFrom(p, sep, acc) == [acc + p]
    decreases |p|
  {
    if |p| == 0 {
      assert acc + p == acc;
    } else {
      assert !(sep <= p);
      SplitFromLast(p[1..], sep, acc + [p[0]]);
      assert acc + [p[0]] + p[1..] == acc + p;
    }
  }

  /** Splitting a joined list on its separator gives the list back, provided no part lets a
      separator occurrence start early. */
  lemma {:induction false} SplitJoin(parts: seq<string>, sep: string)
    requires |sep| > 0
    requires |parts| > 0
    requires forall i :: 0 <= i < |parts| ==> NoEarlySeparator(parts[i], sep)
    ensures Split(Join(parts, sep), sep) == parts
    decreases |parts|
  {
    if |parts| == 1 {
      SplitFromLast(parts[0], sep, "");
      assert "" + parts[0] == parts[0];
    } else {
      SplitFromPiece(parts[0], sep, Join(parts[1..], sep), "");
      assert "" + parts[0] == parts[0];
      SplitJoin(parts[1..], sep);
      assert parts == [parts[0]] + parts[1..];
    }
  }

  lemma {:induction false} JoinSplitFrom(s: string, sep: string, acc: string)
    requires |sep| > 0
    ensures Join(SplitFrom(s, sep, acc), sep) == acc + s
    decreases |s|
  {
    if |s| == 0 {
      assert acc + s == acc;
    } else if sep <= s {
      var tail := s[|sep|..];
      JoinSplitFrom(tail, sep, "");
      JoinSplitAtSeparator(s, sep, acc);
    } else {
      var acc' := acc + [s[0]];
      JoinSplitFrom(s[1..], sep, acc');
      assert SplitFrom(s, sep, acc) == SplitFrom(s[1..], sep, acc');
      assert acc' + s[1..] == acc + s by {
        assert s == [s[0]] + s[1..];
      }
    }
  }

  lemma SplitFromAtSeparator(s: string, sep: string, acc: string)
    requires |sep| > 0 && |s| > 0 && sep <= s
    ensures SplitFrom(s, sep, acc) == [acc] + SplitFrom(s[|sep|..], sep, "")
  {
  }

  lemma {:induction false} JoinSplitAtSeparator(s: string, sep: string, acc: string)
    requires |sep| > 0 && |s| > 0 && sep <= s
    requires Join(SplitFrom(s[|sep|..], sep, ""), sep) == s[|sep|..]
    ensures Join(SplitFrom(s, sep, acc), sep) == acc + s
  {
    var tail := s[|sep|..];
    var rest := SplitFrom(tail, sep, "");
    SplitFromAtSeparator(s, sep, acc);
    PrefixThenRest(s, sep);
    JoinRebuild(acc, sep, tail, rest, s);
  }

  lemma PrefixThenRest(s: string, sep: string)
    requires sep <= s
    ensures s == sep + s[|sep|..]
  {
  }

  lemma {:induction false} JoinRebuild(acc: string, sep: string, tail: string, rest: seq<string>, s: string)
    requires |rest| > 0
    requires Join(rest, sep) == tail
    requires s == sep + tail
    ensures Join([acc] + rest, sep) == acc + s
  {
    JoinCons(acc, rest, sep);
  }

  lemma JoinCons(head: string, rest: seq<string>, sep: string)
    requires |rest| > 0
    ensures Join([head] + rest, sep) == head + sep + Join(rest, sep)
  {
    assert ([head] + rest)[1..] == rest;
  }

  /** Joining the pieces of a split with the same separator rebuilds the text. */
  lemma JoinSplit(s: string, sep: string)
    requires |sep| > 0
    ensures Join(Split(s, sep), sep) == s
  {
    JoinSplitFrom(s, sep, "");
    assert "" + s == s;
  }

  // ---------------------------------------------------------------------------------------
  // String.prototype.includes, endsWith

  predicate Includes(s: string, sub: string)
    decreases |s|
  {
    sub <= s || (|s| > 0 && Includes(s[1..], sub))
  }

  predicate EndsWith(s: string, suffix: string) {
    |suffix| <= |s| && s[|s| - |suffix|..] == suffix
  }

  lemma {:induction false} IncludesSuffix(a: string, b: string)
    ensures Includes(a + b, b)
    decreases |a|
  {
    if |a| == 0 {
      assert a + b == b;
    } else {
      assert (a + b)[1..] == a[1..] + b;
      IncludesSuffix(a[1..], b);
    }
  }

  /** An occurrence inside a piece is an occurrence in any text the piece starts. */
  lemma {:induction false} IncludesPrefixOf(a: string, b: string, sub: string)
    requires Includes(a, sub)
    ensures Includes(a + b, sub)
    decreases |a|
  {
    if sub <= a {
      assert (a + b)[..|a|] == a;
    } else {
      assert (a + b)[1..] == a[1..] + b;
      IncludesPrefixOf(a[1..], b, sub);
    }
  }

  // ---------------------------------------------------------------------------------------
  // String.prototype.trim

  /** WhiteSpace and LineTerminator code points of ECMAScript (section 12.2 and 12.3 of
      ECMA-262): tab, line tabulation, form feed, space, no-break space, the Zs category,
      the byte order mark, LF, CR, line and paragraph separators. */
  predicate IsJsWhitespace(c: char) {
    var n := c as int;
    n == 0x09 || n == 0x0A || n == 0x0B || n == 0x0C || n == 0x0D || n == 0x20 || n == 0xA0
    || n == 0x1680 || (0x2000 <= n <= 0x200A) || n == 0x2028 || n == 0x2029 || n == 0x202F
    || n == 0x205F || n == 0x3000 || n == 0xFEFF
  }

  function TrimStart(s: string): (r: string)
    ensures |r| <= |s|
    ensures r == s[|s| - |r|..]
    ensures |r| > 0 ==> !IsJsWhitespace(r[0])
    ensures forall i :: 0 <= i < |s| - |r| ==> IsJsWhitespace(s[i])
  {
    if |s| > 0 && IsJsWhitespace(s[0]) then TrimStart(s[1..]) else s
  }

  function TrimEnd(s: string): (r: string)
    ensures |r| <= |s|
    ensures r == s[..|r|]
    ensures |r| > 0 ==> !IsJsWhitespace(r[|r| - 1])
    ensures forall i :: |r| <= i < |s| ==> IsJsWhitespace(s[i])
  {
    if |s| > 0 && IsJsWhitespace(s[|s| - 1]) then TrimEnd(s[..|s| - 1]) else s
  }

  function Trim(s: string): (r: string)
    ensures |r| <= |s|
    ensures |r| > 0 ==> !IsJsWhitespace(r[0]) && !IsJsWhitespace(r[|r| - 1])
    ensures r == "" <==> forall i :: 0 <= i < |s| ==> IsJsWhitespace(s[i])
  {
    TrimEnd(TrimStart(s))
  }
}

=== FILE: order_notification.dfy ===
/** The order pop-up: which notification shows, the rotation through the list, and the
    "time ago" text. The timers that drive it are left out; the current time is a parameter. */
module OrderNotification {
  import opened Js

  /** The units of `formatTimeAgo`, largest first, with their length in seconds. */
  const Units: seq<(string, int)> := [
    ("năm", 31536000), ("tháng", 2592000), ("tuần", 604800), ("ngày", 86400),
    ("giờ", 3600), ("phút", 60), ("giây", 1)
  ]

  /** The largest count each unit can show, the next larger unit taking over above it; the
      first unit has no larger one. */
  const MaxCount: seq<int> := [0, 12, 4, 6, 23, 59, 59]

  /** A relative time: "just now", or a count of the unit with index `unit` in `Units`. */
  datatype TimeAgo = JustNow | Ago(count: int, unit: nat)

  /** `Math.floor((now - timestamp) / 1000)` */
  function ElapsedSeconds(now: int, timestamp: int): int {
    (now - timestamp) / 1000
  }

  lemma CountBound(s: int, k: nat)
    requires 0 < k < |Units| && 1 <= s < Units[k - 1].1
    ensures s / Units[k].1 <= MaxCount[k]
  {
  }

  /** `formatTimeAgo` up to the text: the first unit with a positive floored count. */
  method FormatTimeAgo(now: int, timestamp: int) returns (r: TimeAgo)
    ensures ElapsedSeconds(now, timestamp) < 1 <==> r == JustNow
    ensures r.Ago? ==> (r.unit < |Units| &&
              r.count == ElapsedSeconds(now, timestamp) / Units[r.unit].1 && r.count >= 1 &&
              ElapsedSeconds(now, timestamp) >= Units[r.unit].1 &&
              (forall j :: 0 <= j < r.unit ==> ElapsedSeconds(now, timestamp) < Units[j].1) &&
              (r.unit > 0 ==> r.count <= MaxCount[r.unit]))
  {
    var seconds := (now - timestamp) / 1000;
    var k := 0;
    while k < |Units|
      invariant 0 <= k <= |Units|
      invariant forall j :: 0 <= j < k ==> seconds < Units[j].1
    {
      var interval := seconds / Units[k].1;
      if interval > 0 {
        if k > 0 {
          CountBound(seconds, k);
        }
        assert seconds >= Units[k].1 >= 1;
        return Ago(interval, k);
      }
      k := k + 1;
    }
    assert seconds < Units[|Units| - 1].1 == 1;
    return JustNow;
  }

  /** The text: "<count> <unit> trước", the same wording for one and for many. */
  function Text(h: Host, t: TimeAgo): (text: string)
    requires t.Ago? ==> t.unit < |Units|
    ensures t.JustNow? ==> text == "vừa xong"
    ensures t.Ago? ==> |text| >= |Units[t.unit].0| + 6 &&
                       text[|text| - |Units[t.unit].0| - 6..] == Units[t.unit].0 + " trước"
    ensures t.Ago? ==> var n := h.numberText(t.count as real);
                       |text| == |n| + 1 + |Units[t.unit].0| + 6 && text[..|n| + 1] == n + " "
  {
    match t
    case JustNow => "vừa xong"
    case Ago(count, unit) =>
      var n := h.numberText(count as real);
      var text := n + " " + Units[unit].0 + " trước";
      assert text[|text| - |Units[unit].0| - 6..] == Units[unit].0 + " trước";
      assert text[..|n| + 1] == n + " ";
      text
  }

  /** No unit name ends with another: the tail of a text names its unit. */
  lemma UnitTailsDistinct(u1: nat, u2: nat)
    requires u1 < |Units| && u2 < |Units| && |Units[u1].0| <= |Units[u2].0|
    requires Units[u2].0[|Units[u2].0| - |Units[u1].0|..] == Units[u1].0
    ensures u1 == u2
  {
  }

  /** The text can be read back: when the host prints numbers so that they parse back, the
      text determines the relative time, count and unit alike. */
  lemma {:induction false} TextDeterminesTimeAgo(h: Host, a: TimeAgo, b: TimeAgo)
    requires NumberTextRoundTrips(h)
    requires a.Ago? ==> a.unit < |Units|
    requires b.Ago? ==> b.unit < |Units|
    requires Text(h, a) == Text(h, b)
    ensures a == b
  {
    var text := Text(h, a);
    if a.Ago? && b.Ago? {
      var ua, ub := Units[a.unit].0, Units[b.unit].0;
      var ta, tb := ua + " trước", ub + " trước";
      assert text[|text| - |ta|..] == ta && text[|text| - |tb|..] == tb;
      if |ua| <= |ub| {
        assert tb[|tb| - |ta|..] == ta;
        assert ub[|ub| - |ua|..] == ta[..|ua|];
        UnitTailsDistinct(a.unit, b.unit);
      } else {
        assert ta[|ta| - |tb|..] == tb;
        assert ua[|ua| - |ub|..] == tb[..|ub|];
        UnitTailsDistinct(b.unit, a.unit);
      }
      var na, nb := h.numberText(a.count as real), h.numberText(b.count as real);
      assert |na| == |nb|;
      assert na == text[..|na|] == nb;
      assert h.parseNumber(na) == a.count as real && h.parseNumber(nb) == b.count as real;
    }
  }

  // ---------------------------------------------------------------------------------------
  // Rotation

  /** `(prevIndex + 1) % notifications.length`; on an empty list the result is NaN, modelled
      as no index. */
  function NextIndex(i: int, len: nat): (r: Option<int>)
    ensures len > 0 ==> r.Some? && 0 <= r.value < len
    ensures len == 0 ==> r.None?
  {
    if len == 0 then None else Some((i + 1) % len)
  }

  /** The index after `n` rotations from the initial 0. */
  function IndexAfter(n: nat, len: nat): Option<int>
    decreases n
  {
    if n == 0 then Some(0)
    else match IndexAfter(n - 1, len)
      case None => None
      case Some(i) => NextIndex(i, len)
  }

  /** On a non-empty list the rotation visits the notifications in order, wrapping around. */
  lemma {:induction false} RotationCycles(n: nat, len: nat)
    requires len > 0
    ensures IndexAfter(n, len) == Some(n % len)
    decreases n
  {
    if n > 0 {
      RotationCycles(n - 1, len);
      ModSucc(n - 1, len);
    }
  }

  lemma {:induction false} MulAtLeast(d: nat, len: int)
    requires d >= 1 && len > 0
    ensures d * len >= len
    decreases d
  {
    if d > 1 {
      MulAtLeast(d - 1, len);
      assert d * len == (d - 1) * len + len;
    }
  }

  /** Euclidean remainder is determined by any quotient-remainder split of the dividend. */
  lemma ModUnique(a: int, len: int, q: int, m: int)
    requires len > 0 && a == q * len + m && 0 <= m < len
    ensures a % len == m
  {
    var k := a / len;
    assert a == k * len + a % len;
    if q > k {
      MulAtLeast(q - k, len);
      assert false;
    } else if q < k {
      MulAtLeast(k - q, len);
      assert false;
    }
  }

  lemma ModSucc(a: int, len: int)
    requires len > 0
    ensures (a % len + 1) % len == (a + 1) % len
  {
    var q, m := a / len, a % len;
    if m + 1 < len {
      ModUnique(a + 1, len, q, m + 1);
      ModUnique(m + 1, len, 0, m + 1);
    } else {
      ModUnique(a + 1, len, q + 1, 0);
      ModUnique(m + 1, len, 1, 0);
    }
  }

  /** The notification rendered: none when the index has no notification or the pop-up is
      hidden. */
  function Shown<T>(notifications: seq<T>, index: Option<int>, isVisible: bool): (r: Option<T>)
    ensures r.Some? <==> isVisible && index.Some? && 0 <= index.value < |notifications|
    ensures r.Some? ==> r.value == notifications[index.value]
  {
    if isVisible && index.Some? && 0 <= index.value < |notifications| then Some(notifications[index.value])
    else None
  }

  /** A visible pop-up over a non-empty list always has a notification to show; over an empty
      one it never renders. */
  lemma AlwaysSomethingToShow<T>(notifications: seq<T>, n: nat)
    ensures |notifications| > 0 ==> Shown(notifications, IndexAfter(n, |notifications|), true).Some?
    ensures |notifications| == 0 ==> Shown(notifications, IndexAfter(n, |notifications|), true).None?
  {
    if |notifications| > 0 {
      RotationCycles(n, |notifications|);
    }
  }
}

=== FILE: pagination.dfy ===
/** Page-by-page display of a post list, shared by the blog listing and the blog category page:
    the page count, the posts of one page, the window of page numbers in the pager and the
    "showing a-b of n" line. */
module Pagination {
  import opened Js

  /** `Math.ceil(n / size)` for a list of n posts. */
  function TotalPages(n: nat, size: nat): (t: nat)
    requires size > 0
    ensures t * size >= n
    ensures t == 0 || (t - 1) * size < n
    ensures t == 0 <==> n == 0
  {
    (n + size - 1) / size
  }

  /** `startIndex`: the position of the first post of a page. */
  function Start(page: int, size: nat): (start: int)
    ensures page >= 1 ==> start >= 0
  {
    (page - 1) * size
  }

  lemma StartStep(page: int, size: nat)
    ensures Start(page + 1, size) == Start(page, size) + size
  {
  }

  lemma StartMono(p: int, q: int, size: nat)
    requires p <= q
    ensures Start(p, size) <= Start(q, size)
  {
  }

  /** `slice(startIndex, startIndex + size)` */
  function PageOf<T>(s: seq<T>, page: int, size: nat): (r: seq<T>)
    ensures |r| <= size
    ensures page >= 1 ==> r == s[Min(Start(page, size), |s|)..Min(Start(page, size) + size, |s|)]
  {
    Slice(s, Start(page, size), Start(page, size) + size)
  }

  /** Pages 1 to k, one after the other. */
  function FirstPages<T>(s: seq<T>, size: nat, k: nat): seq<T>
    decreases k
  {
    if k == 0 then [] else FirstPages(s, size, k - 1) + PageOf(s, k, size)
  }

  lemma {:induction false} FirstPagesPrefix<T>(s: seq<T>, size: nat, k: nat)
    ensures FirstPages(s, size, k) == s[..Min(Start(k + 1, size), |s|)]
    decreases k
  {
    if k > 0 {
      FirstPagesPrefix(s, size, k - 1);
      StartStep(k, size);
      StartMono(1, k, size);
      var a, b := Min(Start(k, size), |s|), Min(Start(k + 1, size), |s|);
      assert PageOf(s, k, size) == s[a..b];
      assert s[..a] + s[a..b] == s[..b];
    }
  }

  /** The pages 1..TotalPages split the list: read one after the other they give back the whole
      list, every one of them holds between 1 and `size` posts, and every page past the last
      is empty. */
  lemma PagesPartition<T>(s: seq<T>, size: nat)
    requires size > 0
    ensures FirstPages(s, size, TotalPages(|s|, size)) == s
    ensures forall p :: 1 <= p <= TotalPages(|s|, size) ==> 0 < |PageOf(s, p, size)| <= size
    ensures forall p :: p > TotalPages(|s|, size) ==> PageOf(s, p, size) == []
  {
    var t := TotalPages(|s|, size);
    FirstPagesPrefix(s, size, t);
    assert Start(t + 1, size) >= |s|;
    forall p | 1 <= p <= t ensures 0 < |PageOf(s, p, size)| {
      StartMono(p, t, size);
      StartMono(1, p, size);
      assert Start(t, size) < |s|;
    }
    forall p | p > t ensures PageOf(s, p, size) == [] {
      StartMono(t + 1, p, size);
    }
  }

  // ---------------------------------------------------------------------------------------
  // `getVisiblePages`

  datatype PageItem = Number(n: int) | Ellipsis

  /** The numbers a..b, in order. */
  function Range(a: int, b: int): (r: seq<PageItem>)
    ensures |r| == if b < a then 0 else b - a + 1
    ensures forall i :: 0 <= i < |r| ==> r[i] == Number(a + i)
  {
    if b < a then [] else seq(b - a + 1, i requires 0 <= i <= b - a => Number(a + i))
  }

  /** At most five pages are listed in full; beyond that the first and last page, a window
      around the current one, and an ellipsis for each gap. */
  function VisiblePages(totalPages: nat, currentPage: int): seq<PageItem> {
    if totalPages <= 5 then Range(1, totalPages)
    else if currentPage <= 3 then Range(1, 4) + [Ellipsis, Number(totalPages)]
    else if currentPage >= totalPages - 2 then [Number(1), Ellipsis] + Range(totalPages - 3, totalPages)
    else [Number(1), Ellipsis] + Range(currentPage - 1, currentPage + 1) + [Ellipsis, Number(totalPages)]
  }

  /** A well-formed pager for `total` pages: first and last page at the ends, numbers within
      range and strictly increasing, two neighbouring numbers are consecutive pages, and an
      ellipsis stands between two numbers that skip at least one page. */
  predicate WellFormed(r: seq<PageItem>, total: int) {
    |r| > 0 && r[0] == Number(1) && r[|r| - 1] == Number(total)
    && (forall i :: 0 <= i < |r| && r[i].Number? ==> 1 <= r[i].n <= total)
    && (forall i, j :: 0 <= i < j < |r| && r[i].Number? && r[j].Number? ==> r[i].n < r[j].n)
    && (forall i :: 0 <= i < |r| - 1 && r[i].Number? && r[i + 1].Number? ==> r[i + 1].n == r[i].n + 1)
    && (forall i :: 0 <= i < |r| && r[i].Ellipsis? ==>
          0 < i < |r| - 1 && r[i - 1].Number? && r[i + 1].Number? && r[i + 1].n - r[i - 1].n > 1)
  }

  /** Up to five pages: exactly 1..totalPages, nothing at all when there are no pages. */
  lemma FewPagesListed(totalPages: nat, currentPage: int)
    requires totalPages <= 5
    ensures VisiblePages(totalPages, currentPage) == Range(1, totalPages)
    ensures totalPages == 0 ==> VisiblePages(totalPages, currentPage) == []
    ensures totalPages > 0 ==> WellFormed(VisiblePages(totalPages, currentPage), totalPages)
  {
  }

  /** More than five pages: at most seven entries forming a well-formed pager that shows the
      current page whenever it is in range. */
  lemma ManyPagesWindow(totalPages: nat, currentPage: int)
    requires totalPages > 5
    ensures |VisiblePages(totalPages, currentPage)| <= 7
    ensures WellFormed(VisiblePages(totalPages, currentPage), totalPages)
    ensures 1 <= currentPage <= totalPages ==> Number(currentPage) in VisiblePages(totalPages, currentPage)
  {
    if currentPage <= 3 {
      NearStart(totalPages, currentPage);
    } else if currentPage >= totalPages - 2 {
      NearEnd(totalPages, currentPage);
    } else {
      InMiddle(totalPages, currentPage);
    }
  }

  lemma NearStart(totalPages: nat, currentPage: int)
    requires totalPages > 5 && currentPage <= 3
    ensures VisiblePages(totalPages, currentPage) ==
              [Number(1), Number(2), Number(3), Number(4), Ellipsis, Number(totalPages)]
    ensures WellFormed(VisiblePages(totalPages, currentPage), totalPages)
  {
    assert Range(1, 4) == [Number(1), Number(2), Number(3), Number(4)];
  }

  lemma NearEnd(totalPages: nat, currentPage: int)
    requires totalPages > 5 && 3 < currentPage && currentPage >= totalPages - 2
    ensures VisiblePages(totalPages, currentPage) ==
              [Number(1), Ellipsis, Number(totalPages - 3), Number(totalPages - 2),
               Number(totalPages - 1), Number(totalPages)]
    ensures WellFormed(VisiblePages(totalPages, currentPage), totalPages)
  {
    var t := totalPages;
    assert Range(t - 3, t) == [Number(t - 3), Number(t - 2), Number(t - 1), Number(t)];
  }

  lemma InMiddle(totalPages: nat, currentPage: int)
    requires totalPages > 5 && 3 < currentPage < totalPages - 2
    ensures VisiblePages(totalPages, currentPage) ==
              [Number(1), Ellipsis, Number(currentPage - 1), Number(currentPage),
               Number(currentPage + 1), Ellipsis, Number(totalPages)]
    ensures WellFormed(VisiblePages(totalPages, currentPage), totalPages)
  {
    var c := currentPage;
    assert Range(c - 1, c + 1) == [Number(c - 1), Number(c), Number(c + 1)];
    MiddleWellFormed(totalPages, c);
  }

  lemma MiddleWellFormed(t: int, c: int)
    requires 3 < c < t - 2
    ensures WellFormed([Number(1), Ellipsis, Number(c - 1), Number(c), Number(c + 1), Ellipsis, Number(t)], t)
  {
  }

  /** "Showing first-last of n": the 1-based positions of the current page's posts. */
  function DisplayRange(n: nat, currentPage: int, size: nat): (r: (int, int)) {
    var start := Start(currentPage, size);
    (start + 1, Min(start + size, n))
  }

  /** For a page in range the line names a non-empty stretch of 1..n whose length is the
      number of posts the page shows. */
  lemma DisplayRangeInBounds<T>(s: seq<T>, currentPage: int, size: nat)
    requires size > 0
    requires 1 <= currentPage <= TotalPages(|s|, size)
    ensures var r := DisplayRange(|s|, currentPage, size);
            1 <= r.0 <= r.1 <= |s| && r.1 - r.0 + 1 == |PageOf(s, currentPage, size)|
  {
    StartMono(currentPage, TotalPages(|s|, size), size);
    StartMono(1, currentPage, size);
    assert Start(TotalPages(|s|, size), size) < |s|;
  }
}

=== FILE: products.dfy ===
/** The product data module: placeholder products for extra categories, the assembled product
    list, the weight buckets and the de-duplicated, sorted brand list. The per-type product
    arrays and the category configuration are inputs. */
module Products {
  import opened Js
  import opened Trucks
  import Seqs
  import Sorting

  // ---------------------------------------------------------------------------------------
  // Placeholders and the assembled list

  /** `createPlaceholderProductFor` */
  function Placeholder(key: string, name: string): (t: Truck)
    ensures t.vehicleType == key && t.price == 0.0 && t.weight == 0.0
    ensures t.id == key + "-default-1" && t.slug == key + "-san-pham-mau"
  {
    Truck(key + "-default-1", name + " - Sản phẩm mẫu", key + "-san-pham-mau",
          Single("soosanmotor.com"), key, 0.0, "Liên hệ", 0.0, "—",
          "Danh mục " + name + " đang được cập nhật.", None, None, "/placeholder.svg")
  }

  lemma SuffixCancel(a: string, b: string, s: string)
    requires a + s == b + s
    ensures a == b
  {
    assert |a| == |b|;
    assert a == (a + s)[..|a|];
    assert b == (b + s)[..|b|];
  }

  /** Distinct category keys give placeholders with distinct ids and distinct slugs, and the key
      can be read back from either. */
  lemma PlaceholderInjective(k1: string, n1: string, k2: string, n2: string)
    requires k1 != k2
    ensures Placeholder(k1, n1).id != Placeholder(k2, n2).id
    ensures Placeholder(k1, n1).slug != Placeholder(k2, n2).slug
  {
    if Placeholder(k1, n1).id == Placeholder(k2, n2).id {
      SuffixCancel(k1, k2, "-default-1");
    }
    if Placeholder(k1, n1).slug == Placeholder(k2, n2).slug {
      SuffixCancel(k1, k2, "-san-pham-mau");
    }
  }

  /** The type keys that have their own product arrays. */
  const BaseKeys: seq<string> := ["xe-tai", "xe-cau", "mooc", "dau-keo"]

  /** A category of the site configuration: its key and display name. */
  datatype Category = Category(key: string, name: string)

  /** `dynamicExtraProducts`: one placeholder per configured category outside the base keys, in
      configuration order. */
  function ExtraProducts(cats: seq<Category>): (r: seq<Truck>)
    ensures |r| <= |cats|
    ensures forall t :: t in r ==> t.vehicleType !in BaseKeys && t.price == 0.0
    decreases |cats|
  {
    if |cats| == 0 then []
    else
      var rest := ExtraProducts(cats[1..]);
      if cats[0].key in BaseKeys then rest
      else [Placeholder(cats[0].key, cats[0].name)] + rest
  }

  function NotBase(c: Category): bool {
    c.key !in BaseKeys
  }

  /** The extra products are exactly the placeholders of the non-base categories, in order. */
  lemma {:induction false} ExtraProductsArePlaceholders(cats: seq<Category>)
    ensures var extra := Seqs.Filter(cats, NotBase);
            |ExtraProducts(cats)| == |extra| &&
            forall i :: 0 <= i < |extra| ==>
              ExtraProducts(cats)[i] == Placeholder(extra[i].key, extra[i].name)
    decreases |cats|
  {
    if |cats| > 0 {
      ExtraProductsArePlaceholders(cats[1..]);
      Seqs.FilterUnfold(cats, NotBase);
    }
  }

  /** With distinct category keys, no two extra products share an id. */
  lemma ExtraProductIdsDistinct(cats: seq<Category>)
    requires forall i, j :: 0 <= i < j < |cats| ==> cats[i].key != cats[j].key
    ensures forall i, j :: 0 <= i < j < |ExtraProducts(cats)| ==>
              ExtraProducts(cats)[i].id != ExtraProducts(cats)[j].id
  {
    var extra := Seqs.Filter(cats, NotBase);
    var r := ExtraProducts(cats);
    ExtraProductsArePlaceholders(cats);
    Seqs.FilterIsSubseq(cats, NotBase);
    SubseqKeepsDistinctKeys(extra, cats);
    forall i, j | 0 <= i < j < |r| ensures r[i].id != r[j].id {
      PlaceholderInjective(extra[i].key, extra[i].name, extra[j].key, extra[j].name);
    }
  }

  lemma {:induction false} SubseqKeepsDistinctKeys(xs: seq<Category>, ys: seq<Category>)
    requires Seqs.IsSubseq(xs, ys)
    requires forall i, j :: 0 <= i < j < |ys| ==> ys[i].key != ys[j].key
    ensures forall i, j :: 0 <= i < j < |xs| ==> xs[i].key != xs[j].key
    decreases |ys|
  {
    if |xs| > 0 && |ys| > 0 {
      forall i, j | 0 <= i < j < |ys[1..]| ensures ys[1..][i].key != ys[1..][j].key {
        assert ys[1..][i] == ys[i + 1] && ys[1..][j] == ys[j + 1];
      }
      if xs[0] == ys[0] {
        SubseqKeepsDistinctKeys(xs[1..], ys[1..]);
        forall j | 1 <= j < |xs| ensures xs[0].key != xs[j].key {
          Seqs.SubseqMultiset(xs[1..], ys[1..]);
          assert xs[j] == xs[1..][j - 1];
          assert xs[j] in multiset(ys[1..]);
          var k :| 0 <= k < |ys[1..]| && ys[1..][k] == xs[j];
          assert ys[k + 1] == xs[j];
        }
        forall i, j | 0 <= i < j < |xs| ensures xs[i].key != xs[j].key {
          if i > 0 {
            assert xs[i] == xs[1..][i - 1] && xs[j] == xs[1..][j - 1];
          }
        }
      } else {
        SubseqKeepsDistinctKeys(xs, ys[1..]);
      }
    }
  }

  /** `allProducts`: the four base arrays in order, then the placeholders. */
  function AllProducts(xeTai: seq<Truck>, xeCau: seq<Truck>, mooc: seq<Truck>, dauKeo: seq<Truck>,
                       cats: seq<Category>): (r: seq<Truck>)
    ensures |r| == |xeTai| + |xeCau| + |mooc| + |dauKeo| + |ExtraProducts(cats)|
    ensures r[..|xeTai| + |xeCau| + |mooc| + |dauKeo|] == xeTai + xeCau + mooc + dauKeo
    ensures r[|xeTai| + |xeCau| + |mooc| + |dauKeo|..] == ExtraProducts(cats)
  {
    var base := xeTai + xeCau + mooc + dauKeo;
    var r := base + ExtraProducts(cats);
    assert r[..|base|] == base && r[|base|..] == ExtraProducts(cats);
    r
  }

  // ---------------------------------------------------------------------------------------
  // Weight buckets

  datatype WeightBucket = WeightBucket(id: nat, name: string, minWeight: real, maxWeight: real)

  /** `truckWeights` */
  const TruckWeights: seq<WeightBucket> := [
    WeightBucket(1, "Dưới 1 tấn", 0.0, 1.0),
    WeightBucket(2, "1 - 2 tấn", 1.0, 2.0),
    WeightBucket(3, "2 - 3.5 tấn", 2.0, 3.5),
    WeightBucket(4, "3.5 - 5 tấn", 3.5, 5.0),
    WeightBucket(5, "5 - 8 tấn", 5.0, 8.0),
    WeightBucket(6, "8 - 15 tấn", 8.0, 15.0),
    WeightBucket(7, "15 - 20 tấn", 15.0, 20.0),
    WeightBucket(8, "Trên 20 tấn", 20.0, 100.0)
  ]

  /** The buckets are numbered 1..8, each is a proper interval, each starts where the previous
      one ends, and together they span 0 to 100 tonnes. */
  lemma TruckWeightsShape()
    ensures |TruckWeights| == 8
    ensures forall i :: 0 <= i < |TruckWeights| ==> TruckWeights[i].id == i + 1
    ensures forall i :: 0 <= i < |TruckWeights| ==> TruckWeights[i].minWeight < TruckWeights[i].maxWeight
    ensures forall i :: 0 < i < |TruckWeights| ==> TruckWeights[i - 1].maxWeight == TruckWeights[i].minWeight
    ensures TruckWeights[0].minWeight == 0.0 && TruckWeights[7].maxWeight == 100.0
  {
  }

  /** Every weight from 0 up to 100 tonnes lies in some bucket. */
  lemma TruckWeightsCover(w: real)
    requires 0.0 <= w <= 100.0
    ensures exists i :: 0 <= i < |TruckWeights| &&
              TruckWeights[i].minWeight <= w <= TruckWeights[i].maxWeight
  {
    var i := if w <= 1.0 then 0 else if w <= 2.0 then 1 else if w <= 3.5 then 2 else if w <= 5.0 then 3
             else if w <= 8.0 then 4 else if w <= 15.0 then 5 else if w <= 20.0 then 6 else 7;
    assert TruckWeights[i].minWeight <= w <= TruckWeights[i].maxWeight;
  }

  // ---------------------------------------------------------------------------------------
  // Brands

  /** `CANONICAL_BRAND_MAP[key]`, for the table's own keys. */
  function Canonical(key: string): (r: Option<string>)
    ensures r.Some? ==> r.value != ""
  {
    if key == "hyundai" then Some("Hyundai")
    else if key == "isuzu" then Some("Isuzu")
    else if key == "hino" then Some("Hino")
    else if key == "dongfeng" then Some("Dongfeng")
    else if key == "thaco" then Some("Thaco")
    else if key == "kia" then Some("Kia")
    else if key == "suzuki" then Some("Suzuki")
    else if key == "veam" then Some("VEAM")
    else if key == "soosan" then Some("Soosan")
    else if key == "doosung" then Some("DOOSUNG")
    else if key == "cimc" then Some("CIMC")
    else if key == "koksan" then Some("KOKSAN")
    else if key == "howo" then Some("HOWO")
    else if key == "jac" then Some("JAC")
    else if key == "daewoo" then Some("Daewoo")
    else if key == "foton" then Some("Foton")
    else if key == "iveco" then Some("Iveco")
    else if key == "mercedes-benz" then Some("Mercedes-Benz")
    else if key == "volvo" then Some("Volvo")
    else if key == "scania" then Some("Scania")
    else if key == "man" then Some("MAN")
    else if key == "fuso" then Some("Fuso")
    else None
  }

  /** Every canonical name is plain ASCII and folds to its own key. */
  lemma CanonicalFolds(key: string)
    requires Canonical(key).Some?
    ensures IsAscii(Canonical(key).value) && AsciiLower(Canonical(key).value) == key
  {
    if key == "hyundai" { FoldsHyundai(); }
    else if key == "isuzu" { FoldsIsuzu(); }
    else if key == "hino" { FoldsHino(); }
    else if key == "dongfeng" { FoldsDongfeng(); }
    else if key == "thaco" { FoldsThaco(); }
    else if key == "kia" { FoldsKia(); }
    else if key == "suzuki" { FoldsSuzuki(); }
    else if key == "veam" { FoldsVeam(); }
    else if key == "soosan" { FoldsSoosan(); }
    else if key == "doosung" { FoldsDoosung(); }
    else if key == "cimc" { FoldsCimc(); }
    else if key == "koksan" { FoldsKoksan(); }
    else if key == "howo" { FoldsHowo(); }
    else if key == "jac" { FoldsJac(); }
    else if key == "daewoo" { FoldsDaewoo(); }
    else if key == "foton" { FoldsFoton(); }
    else if key == "iveco" { FoldsIveco(); }
    else if key == "mercedes-benz" { FoldsMercedesBenz(); }
    else if key == "volvo" { FoldsVolvo(); }
    else if key == "scania" { FoldsScania(); }
    else if key == "man" { FoldsMan(); }
    else { FoldsFuso(); }
  }

  // One lemma per entry: each has the verifier compute the case mapping of one literal.
  lemma FoldsHyundai() ensures IsAscii("Hyundai") && AsciiLower("Hyundai") == "hyundai" { }
  lemma FoldsIsuzu() ensures IsAscii("Isuzu") && AsciiLower("Isuzu") == "isuzu" { }
  lemma FoldsHino() ensures IsAscii("Hino") && AsciiLower("Hino") == "hino" { }
  lemma FoldsDongfeng() ensures IsAscii("Dongfeng") && AsciiLower("Dongfeng") == "dongfeng" { }
  lemma FoldsThaco() ensures IsAscii("Thaco") && AsciiLower("Thaco") == "thaco" { }
  lemma FoldsKia() ensures IsAscii("Kia") && AsciiLower("Kia") == "kia" { }
  lemma FoldsSuzuki() ensures IsAscii("Suzuki") && AsciiLower("Suzuki") == "suzuki" { }
  lemma FoldsVeam() ensures IsAscii("VEAM") && AsciiLower("VEAM") == "veam" { }
  lemma FoldsSoosan() ensures IsAscii("Soosan") && AsciiLower("Soosan") == "soosan" { }
  lemma FoldsDoosung() ensures IsAscii("DOOSUNG") && AsciiLower("DOOSUNG") == "doosung" { }
  lemma FoldsCimc() ensures IsAscii("CIMC") && AsciiLower("CIMC") == "cimc" { }
  lemma FoldsKoksan() ensures IsAscii("KOKSAN") && AsciiLower("KOKSAN") == "koksan" { }
  lemma FoldsHowo() ensures IsAscii("HOWO") && AsciiLower("HOWO") == "howo" { }
  lemma FoldsJac() ensures IsAscii("JAC") && AsciiLower("JAC") == "jac" { }
  lemma FoldsDaewoo() ensures IsAscii("Daewoo") && AsciiLower("Daewoo") == "daewoo" { }
  lemma FoldsFoton() ensures IsAscii("Foton") && AsciiLower("Foton") == "foton" { }
  lemma FoldsIveco() ensures IsAscii("Iveco") && AsciiLower("Iveco") == "iveco" { }
  lemma FoldsMercedesBenz() ensures IsAscii("Mercedes-Benz") && AsciiLower("Mercedes-Benz") == "mercedes-benz" { }
  lemma FoldsVolvo() ensures IsAscii("Volvo") && AsciiLower("Volvo") == "volvo" { }
  lemma FoldsScania() ensures IsAscii("Scania") && AsciiLower("Scania") == "scania" { }
  lemma FoldsMan() ensures IsAscii("MAN") && AsciiLower("MAN") == "man" { }
  lemma FoldsFuso() ensures IsAscii("Fuso") && AsciiLower("Fuso") == "fuso" { }

  /** The de-duplication key of a brand text: trimmed, then lower-cased. */
  function BrandKey(h: Host, raw: string): string {
    h.lower(Trim(raw))
  }

  /** `toCanonical`: the canonical spelling when the key is in the table, else the trimmed text. */
  function ToCanonical(h: Host, raw: string): (r: string)
    ensures Canonical(BrandKey(h, raw)).Some? ==> r == Canonical(BrandKey(h, raw)).value
    ensures Canonical(BrandKey(h, raw)).None? ==> r == Trim(raw)
  {
    match Canonical(BrandKey(h, raw))
    case Some(v) => v
    case None => Trim(raw)
  }

  /** The name a brand gets always lower-cases back to the brand's key. */
  lemma ToCanonicalFolds(h: Host, raw: string)
    requires LowerAgreesOnAscii(h)
    ensures h.lower(ToCanonical(h, raw)) == BrandKey(h, raw)
  {
    var k := BrandKey(h, raw);
    if Canonical(k).Some? {
      CanonicalFolds(k);
    }
  }

  /** The value stored under `key` in an insertion-ordered map, if any. */
  function MapGet(m: seq<(string, string)>, key: string): (r: Option<string>)
    ensures r.Some? ==> (key, r.value) in m
    ensures r.None? <==> forall i :: 0 <= i < |m| ==> m[i].0 != key
  {
    if |m| == 0 then None
    else if m[0].0 == key then Some(m[0].1)
    else
      var r := MapGet(m[1..], key);
      assert forall i :: 1 <= i < |m| ==> m[i] == m[1..][i - 1];
      assert r.Some? ==> (key, r.value) in m[1..];
      r
  }

  /** The non-empty brand texts of the products, product by product (`filter(Boolean)`). */
  function BrandTexts(products: seq<Truck>): (r: seq<string>)
    ensures forall i :: 0 <= i < |r| ==> r[i] != ""
    decreases |products|
  {
    if |products| == 0 then []
    else
      var own := Seqs.Filter(BrandNames(products[0].brand), NonEmpty);
      var rest := BrandTexts(products[1..]);
      assert forall i :: 0 <= i < |own| ==> own[i] in own;
      assert forall i :: |own| <= i < |own| + |rest| ==> (own + rest)[i] == rest[i - |own|];
      own + rest
  }

  function NonEmpty(s: string): bool {
    s != ""
  }

  /** One step of the brand loop: the first text with a given non-empty key decides its name. */
  function AddBrand(h: Host, m: seq<(string, string)>, raw: string): seq<(string, string)> {
    var key := BrandKey(h, raw);
    if key == "" || MapGet(m, key).Some? then m else m + [(key, ToCanonical(h, raw))]
  }

  /** The `Map` the loop builds, as its entries in insertion order. */
  function BrandMap(h: Host, texts: seq<string>): seq<(string, string)>
    decreases |texts|
  {
    if |texts| == 0 then []
    else AddBrand(h, BrandMap(h, texts[..|texts| - 1]), texts[|texts| - 1])
  }

  /** The first text with the given key, if any. */
  function FirstWithKey(h: Host, texts: seq<string>, key: string): (r: Option<string>)
    ensures r.Some? ==> r.value in texts && BrandKey(h, r.value) == key
    ensures r.None? <==> forall i :: 0 <= i < |texts| ==> BrandKey(h, texts[i]) != key
  {
    if |texts| == 0 then None
    else if BrandKey(h, texts[0]) == key then Some(texts[0])
    else
      var r := FirstWithKey(h, texts[1..], key);
      assert forall i :: 1 <= i < |texts| ==> texts[i] == texts[1..][i - 1];
      r
  }

  lemma {:induction false} FirstWithKeySnoc(h: Host, texts: seq<string>, x: string, key: string)
    ensures FirstWithKey(h, texts + [x], key) ==
              if FirstWithKey(h, texts, key).Some? then FirstWithKey(h, texts, key)
              else if BrandKey(h, x) == key then Some(x) else None
    decreases |texts|
  {
    if |texts| > 0 {
      assert (texts + [x])[0] == texts[0] && (texts + [x])[1..] == texts[1..] + [x];
      FirstWithKeySnoc(h, texts[1..], x, key);
    } else {
      assert texts + [x] == [x];
    }
  }

  /** A step either leaves the map alone or appends the text's key and name. */
  lemma AddBrandShape(h: Host, m: seq<(string, string)>, raw: string)
    ensures var key := BrandKey(h, raw);
            if key == "" || MapGet(m, key).Some? then AddBrand(h, m, raw) == m
            else AddBrand(h, m, raw) == m + [(key, ToCanonical(h, raw))] &&
                 forall i :: 0 <= i < |m| ==> m[i].0 != key
  {
  }

  lemma {:induction false} MapGetSnoc(m: seq<(string, string)>, e: (string, string), key: string)
    ensures MapGet(m + [e], key) == if MapGet(m, key).Some? then MapGet(m, key)
                                    else if e.0 == key then Some(e.1) else None
    decreases |m|
  {
    if |m| == 0 {
      assert m + [e] == [e];
    } else {
      assert (m + [e])[0] == m[0] && (m + [e])[1..] == m[1..] + [e];
      if m[0].0 != key {
        MapGetSnoc(m[1..], e, key);
      }
    }
  }

  /** Exactly one entry per non-empty key occurring in the texts, holding the name of the FIRST
      text with that key. */
  lemma {:induction false} BrandMapFirstWins(h: Host, texts: seq<string>, key: string)
    ensures MapGet(BrandMap(h, texts), key) ==
              if key == "" || FirstWithKey(h, texts, key).None? then None
              else Some(ToCanonical(h, FirstWithKey(h, texts, key).value))
    decreases |texts|
  {
    if |texts| > 0 {
      var init, last := texts[..|texts| - 1], texts[|texts| - 1];
      var m := BrandMap(h, init);
      var lk := BrandKey(h, last);
      assert BrandMap(h, texts) == AddBrand(h, m, last);
      assert texts == init + [last];
      BrandMapFirstWins(h, init, key);
      FirstWithKeySnoc(h, init, last, key);
      AddBrandShape(h, m, last);
      if lk == "" || MapGet(m, lk).Some? {
        if lk == key && key != "" {
          BrandMapFirstWins(h, init, lk);
        }
      } else {
        MapGetSnoc(m, (lk, ToCanonical(h, last)), key);
        if lk == key {
          BrandMapFirstWins(h, init, lk);
        }
      }
    }
  }

  predicate DistinctKeys(m: seq<(string, string)>) {
    forall i, j :: 0 <= i < j < |m| ==> m[i].0 != m[j].0
  }

  /** No key appears twice in the map, and no key is empty. */
  lemma {:induction false} BrandMapKeysDistinct(h: Host, texts: seq<string>)
    ensures DistinctKeys(BrandMap(h, texts))
    ensures forall e :: e in BrandMap(h, texts) ==> e.0 != ""
    decreases |texts|
  {
    if |texts| > 0 {
      var init, last := texts[..|texts| - 1], texts[|texts| - 1];
      var m := BrandMap(h, init);
      BrandMapKeysDistinct(h, init);
      AddBrandShape(h, m, last);
      var key := BrandKey(h, last);
      var m2 := AddBrand(h, m, last);
      assert BrandMap(h, texts) == m2;
      if !(key == "" || MapGet(m, key).Some?) {
        var e := (key, ToCanonical(h, last));
        assert m2 == m + [e];
        forall i, j | 0 <= i < j < |m2| ensures m2[i].0 != m2[j].0 {
          assert m2[i] == m[i];
          if j < |m| {
            assert m2[j] == m[j];
          } else {
            assert m2[j] == e;
          }
        }
        forall x | x in m2 ensures x.0 != "" {
          var k :| 0 <= k < |m2| && m2[k] == x;
          if k < |m| {
            assert m2[k] == m[k];
            assert m[k] in m;
          }
        }
      }
    }
  }

  predicate NamesFold(h: Host, m: seq<(string, string)>) {
    forall i :: 0 <= i < |m| ==> h.lower(m[i].1) == m[i].0
  }

  /** Every stored name lower-cases to its key. */
  lemma {:induction false} BrandMapNamesFold(h: Host, texts: seq<string>)
    requires LowerAgreesOnAscii(h)
    ensures NamesFold(h, BrandMap(h, texts))
    decreases |texts|
  {
    if |texts| > 0 {
      var init, last := texts[..|texts| - 1], texts[|texts| - 1];
      var m := BrandMap(h, init);
      BrandMapNamesFold(h, init);
      AddBrandShape(h, m, last);
      var key := BrandKey(h, last);
      var m2 := AddBrand(h, m, last);
      assert BrandMap(h, texts) == m2;
      if !(key == "" || MapGet(m, key).Some?) {
        var e := (key, ToCanonical(h, last));
        assert m2 == m + [e];
        ToCanonicalFolds(h, last);
        forall i | 0 <= i < |m2| ensures h.lower(m2[i].1) == m2[i].0 {
          if i < |m| {
            assert m2[i] == m[i];
          } else {
            assert m2[i] == e;
          }
        }
      }
    }
  }

  /** The second components of a list of pairs, in order. */
  function Values<K, V>(m: seq<(K, V)>): (r: seq<V>)
    ensures |r| == |m|
    ensures forall i :: 0 <= i < |m| ==> r[i] == m[i].1
  {
    seq(|m|, i requires 0 <= i < |m| => m[i].1)
  }

  /** A list whose entries are pairwise different after lower-casing. */
  predicate CaseDistinct(h: Host, s: seq<string>) {
    forall i, j :: 0 <= i < |s| && 0 <= j < |s| && i != j ==> h.lower(s[i]) != h.lower(s[j])
  }

  /** Re-ordering keeps names case-distinct. */
  lemma PermutationCaseDistinct(h: Host, a: seq<string>, b: seq<string>)
    requires multiset(a) == multiset(b)
    requires CaseDistinct(h, b)
    ensures CaseDistinct(h, a)
  {
    assert Seqs.Distinct(b) by {
      forall i, j | 0 <= i < j < |b| ensures b[i] != b[j] {
        assert h.lower(b[i]) != h.lower(b[j]);
      }
    }
    Seqs.PermutationDistinct(a, b);
    forall i, j | 0 <= i < |a| && 0 <= j < |a| && i != j ensures h.lower(a[i]) != h.lower(a[j]) {
      assert a[i] in multiset(b) && a[j] in multiset(b);
      var x :| 0 <= x < |b| && b[x] == a[i];
      var y :| 0 <= y < |b| && b[y] == a[j];
      assert x != y;
    }
  }

  /** The stored names are pairwise different ignoring case. */
  lemma BrandNamesCaseDistinct(h: Host, texts: seq<string>)
    requires LowerAgreesOnAscii(h)
    ensures CaseDistinct(h, Values(BrandMap(h, texts)))
  {
    var m := BrandMap(h, texts);
    var vals := Values(m);
    BrandMapKeysDistinct(h, texts);
    BrandMapNamesFold(h, texts);
    forall i, j | 0 <= i < |vals| && 0 <= j < |vals| && i != j ensures h.lower(vals[i]) != h.lower(vals[j]) {
      assert vals[i] == m[i].1 && vals[j] == m[j].1;
      assert h.lower(m[i].1) == m[i].0 && h.lower(m[j].1) == m[j].0;
      if i > j {
        assert m[j].0 != m[i].0;
      }
    }
  }

  /** `localeCompare(a, b, 'vi') <= 0`: may `a` precede `b`. */
  function ViOrder(h: Host): (le: (string, string) -> bool)
    ensures forall a, b :: le(a, b) == (h.compareVi(a, b) <= 0)
  {
    (a, b) => h.compareVi(a, b) <= 0
  }

  /** `truckBrands`: the stored names sorted by `localeCompare('vi')`, numbered from 1. */
  function TruckBrands(h: Host, products: seq<Truck>): (r: seq<(nat, string)>)
    ensures |r| == |BrandMap(h, BrandTexts(products))|
    ensures forall i :: 0 <= i < |r| ==> r[i].0 == i + 1
  {
    var names := Sorting.SortBy(Values(BrandMap(h, BrandTexts(products))), ViOrder(h));
    seq(|names|, i requires 0 <= i < |names| => (i + 1, names[i]))
  }

  /** The brand list holds the stored names, in `localeCompare` order when that is a total
      order, with names pairwise different ignoring case. */
  lemma TruckBrandsProperties(h: Host, products: seq<Truck>)
    requires LowerAgreesOnAscii(h)
    ensures var m := BrandMap(h, BrandTexts(products));
            multiset(Values(TruckBrands(h, products))) == multiset(Values(m))
    ensures CaseDistinct(h, Values(TruckBrands(h, products)))
    ensures Sorting.Total(ViOrder(h)) ==> Sorting.SortedBy(Values(TruckBrands(h, products)), ViOrder(h))
  {
    var vals := Values(BrandMap(h, BrandTexts(products)));
    var names := Sorting.SortBy(vals, ViOrder(h));
    assert Values(TruckBrands(h, products)) == names;
    BrandNamesCaseDistinct(h, BrandTexts(products));
    PermutationCaseDistinct(h, names, vals);
    if Sorting.Total(ViOrder(h)) {
      Sorting.SortBySorted(vals, ViOrder(h));
    }
  }
}

=== FILE: search_page.dfy ===
/** The search page: the query from the URL, the vehicle and post matches, the vehicle sections by
    type and the form that writes a new query. */
module SearchPage {
  import opened Js
  import opened Trucks
  import BlogPost
  import Seqs
  import Grouping
  import TruckCatalog

  /** The section order; vehicles of any other type have no section. */
  const SectionTypes: seq<string> := ["xe-tai", "xe-cau", "dau-keo", "mooc"]

  /** `searchParams.get('q') || ''` */
  function Query(params: TruckCatalog.Params): (q: string)
    ensures Truthy(TruckCatalog.Get(params, "q")) ==> q == TruckCatalog.Get(params, "q").value
    ensures !Truthy(TruckCatalog.Get(params, "q")) ==> q == ""
  {
    var v := TruckCatalog.Get(params, "q");
    if Truthy(v) then v.value else ""
  }

  /** Name, any brand or description contains the query, all lower-cased. */
  function TruckMatches(h: Host, q: string): Truck -> bool {
    (t: Truck) => var lq := h.lower(q);
      Includes(h.lower(t.name), lq) || TruckCatalog.SomeBrandIncludes(h, t.brand, lq)
      || Includes(h.lower(t.description), lq)
  }

  /** Title, description or content contains the query, all lower-cased. */
  function PostMatches(h: Host, q: string): BlogPost.Post -> bool {
    (p: BlogPost.Post) => var lq := h.lower(q);
      Includes(h.lower(p.title), lq) || Includes(h.lower(p.description), lq)
      || Includes(h.lower(p.content), lq)
  }

  /** `performSearch` from the initial empty state: an empty query searches nothing. */
  function Results(h: Host, q: string, trucks: seq<Truck>, posts: seq<BlogPost.Post>)
    : (r: (seq<Truck>, seq<BlogPost.Post>))
    ensures q == "" ==> r == ([], [])
    ensures q != "" ==> forall t :: t in r.0 <==> t in trucks && TruckMatches(h, q)(t)
    ensures q != "" ==> forall p :: p in r.1 <==> p in posts && PostMatches(h, q)(p)
    ensures q != "" ==> forall t :: multiset(r.0)[t] == if TruckMatches(h, q)(t) then multiset(trucks)[t] else 0
    ensures q != "" ==> forall p :: multiset(r.1)[p] == if PostMatches(h, q)(p) then multiset(posts)[p] else 0
  {
    if q == "" then ([], [])
    else
      Seqs.FilterCount(trucks, TruckMatches(h, q));
      Seqs.FilterCount(posts, PostMatches(h, q));
      (Seqs.Filter(trucks, TruckMatches(h, q)), Seqs.Filter(posts, PostMatches(h, q)))
  }

  /** The vehicle matches are an order-preserving selection of the catalog. */
  lemma ResultsInCatalogOrder(h: Host, q: string, trucks: seq<Truck>, posts: seq<BlogPost.Post>)
    ensures Seqs.IsSubseq(Results(h, q, trucks, posts).0, trucks)
    ensures Seqs.IsSubseq(Results(h, q, trucks, posts).1, posts)
  {
    Seqs.FilterIsSubseq(trucks, TruckMatches(h, q));
    Seqs.FilterIsSubseq(posts, PostMatches(h, q));
  }

  /** Every vehicle this page finds, the catalog's own text search finds as well; the catalog
      additionally looks at the weight text. */
  lemma SearchIsNarrowerThanCatalog(h: Host, q: string, t: Truck)
    ensures TruckMatches(h, q)(t) ==> TruckCatalog.TextMatches(h, t, h.lower(q))
    ensures TruckCatalog.TextMatches(h, t, h.lower(q)) && !TruckMatches(h, q)(t) ==>
              Includes(h.lower(t.weightText), h.lower(q))
  {
  }

  function TypeOf(t: Truck): string {
    t.vehicleType
  }

  /** `groupTrucksByType` */
  function Grouped(results: seq<Truck>): Grouping.Groups<Truck> {
    Grouping.GroupBy(results, TypeOf)
  }

  /** The sections rendered: for each type in section order, `groupedTrucks[type] || []`, skipped
      when empty. */
  function SectionsFrom(g: Grouping.Groups<Truck>, types: seq<string>): seq<(string, seq<Truck>)>
    decreases |types|
  {
    if |types| == 0 then []
    else
      var vehicles := Grouping.Lookup(g, types[0]).GetOr([]);
      (if |vehicles| == 0 then [] else [(types[0], vehicles)]) + SectionsFrom(g, types[1..])
  }

  function Sections(results: seq<Truck>): seq<(string, seq<Truck>)> {
    SectionsFrom(Grouped(results), SectionTypes)
  }

  function SectionSizes(sections: seq<(string, seq<Truck>)>): nat
    decreases |sections|
  {
    if |sections| == 0 then 0 else |sections[0].1| + SectionSizes(sections[1..])
  }

  /** Each section is non-empty, is headed by a listed type, and holds exactly the results of
      that type in result order. */
  lemma {:induction false} SectionsFromContents(results: seq<Truck>, types: seq<string>)
    ensures var sec := SectionsFrom(Grouped(results), types);
            forall i :: 0 <= i < |sec| ==>
              sec[i].0 in types && |sec[i].1| > 0 &&
              sec[i].1 == Seqs.Filter(results, Grouping.HasKey(TypeOf, sec[i].0))
    ensures SectionSizes(SectionsFrom(Grouped(results), types)) == Grouping.CountByKeys(results, TypeOf, types)
    decreases |types|
  {
    if |types| > 0 {
      var g := Grouped(results);
      Grouping.GroupByLookup(results, TypeOf, types[0]);
      SectionsFromContents(results, types[1..]);
      var vehicles := Grouping.Lookup(g, types[0]).GetOr([]);
      var head: seq<(string, seq<Truck>)> := if |vehicles| == 0 then [] else [(types[0], vehicles)];
      var rest := SectionsFrom(g, types[1..]);
      assert SectionsFrom(g, types) == head + rest;
      SectionSizesAppend(head, rest);
      forall i | 0 <= i < |rest| ensures rest[i].0 in types {
        assert types == [types[0]] + types[1..];
      }
    }
  }

  lemma {:induction false} SectionSizesAppend(a: seq<(string, seq<Truck>)>, b: seq<(string, seq<Truck>)>)
    ensures SectionSizes(a + b) == SectionSizes(a) + SectionSizes(b)
    decreases |a|
  {
    if |a| > 0 {
      assert (a + b)[0] == a[0] && (a + b)[1..] == a[1..] + b;
      SectionSizesAppend(a[1..], b);
    } else {
      assert a + b == b;
    }
  }

  lemma SectionTypesDistinct()
    ensures Seqs.Distinct(SectionTypes)
  {
  }

  /** The section headings' counts add up to the number of found vehicles of the four listed
      types; a found vehicle of another type is counted in no section. */
  lemma SectionsCoverListedTypes(results: seq<Truck>)
    ensures SectionSizes(Sections(results)) == |Seqs.Filter(results, Grouping.KeyIn(TypeOf, SectionTypes))|
    ensures forall i :: 0 <= i < |Sections(results)| ==> Sections(results)[i].0 in SectionTypes
  {
    SectionsFromContents(results, SectionTypes);
    SectionTypesDistinct();
    Grouping.CountByKeysPartition(results, TypeOf, SectionTypes);
  }

  /** A matching vehicle whose type has no section is found but never displayed. */
  lemma UnlistedTypeHidden(results: seq<Truck>, t: Truck)
    requires t.vehicleType !in SectionTypes
    ensures forall i :: 0 <= i < |Sections(results)| ==> t !in Sections(results)[i].1
  {
    SectionsFromContents(results, SectionTypes);
  }

  /** `handleSearch`: the query parameters written for the term, `q` only when it is non-empty. */
  function SearchParams(term: string): (r: TruckCatalog.Params)
    ensures |r| <= 1
  {
    if term != "" then [("q", term)] else []
  }

  /** Submitting a term and reading the new page's query gives the term back. */
  lemma SearchRoundTrip(term: string)
    ensures Query(SearchParams(term)) == term
    ensures term == "" <==> TruckCatalog.Get(SearchParams(term), "q").None?
  {
  }
}

=== FILE: seo.dfy ===
/** Page metadata: the generic builder (`generateSEO`) with its title, canonical URL, robots and
    keyword rules, the product and blog-post builders on top of it, and the breadcrumb list. */
module Seo {
  import opened Js
  import Trucks

  /** `SITE_NAME` */
  const SiteName: string := "soosanmotor.com"

  /** The site URL when the environment does not set one. */
  const DefaultSiteUrl: string := "https://soosanmotor.com"

  /** `process.env.NEXT_PUBLIC_SITE_URL || 'https://soosanmotor.com'`: the environment's value
      when it is set and non-empty, otherwise the default. */
  function SiteUrl(env: Option<string>): (url: string)
    ensures Truthy(env) ==> url == env.value
    ensures !Truthy(env) ==> url == DefaultSiteUrl
    ensures url != ""
  {
    if Truthy(env) then env.value else DefaultSiteUrl
  }

  /** `DEFAULT_OG_IMAGE` for a site URL. */
  function DefaultOgImage(site: string): string {
    site + "/og-image.jpg"
  }

  datatype OgType = Website | Article | Product

  /** `SEOConfig`; `None` is a field left undefined. */
  datatype Config = Config(
    title: string,
    description: string,
    keywords: Option<seq<string>>,
    canonical: Option<string>,
    ogImage: Option<string>,
    ogType: Option<OgType>,
    publishedTime: Option<string>,
    modifiedTime: Option<string>,
    authors: Option<seq<string>>,
    noindex: Option<bool>
  )

  /** The Open Graph image entry. */
  datatype Image = Image(url: string, width: int, height: int, alt: string)

  /** The metadata `generateSEO` returns; `authors` are the names of the author records. */
  datatype Metadata = Metadata(
    title: string,
    description: string,
    keywords: string,
    authors: seq<string>,
    creator: string,
    publisher: string,
    robots: string,
    canonical: Option<string>,
    ogTitle: string,
    ogUrl: Option<string>,
    siteName: string,
    locale: string,
    ogType: OgType,
    ogImages: seq<Image>,
    publishedTime: Option<string>,
    modifiedTime: Option<string>,
    twitterCard: string,
    twitterTitle: string,
    twitterImages: seq<string>
  )

  /** `fullTitle`: the title as given when it already names the site, otherwise suffixed with
      " | " and the site name. */
  function FullTitle(title: string): (full: string)
    ensures Includes(full, SiteName)
    ensures full == title <==> Includes(title, SiteName)
    ensures !Includes(title, SiteName) ==> full == title + " | " + SiteName
  {
    if Includes(title, SiteName) then title
    else
      IncludesSuffix(title + " | ", SiteName);
      title + " | " + SiteName
  }

  /** Applying the suffix rule to its own result changes nothing. */
  lemma FullTitleIdempotent(title: string)
    ensures FullTitle(FullTitle(title)) == FullTitle(title)
  {
  }

  /** `canonicalUrl`: the site URL followed by the path when a non-empty path is given. */
  function CanonicalUrl(site: string, canonical: Option<string>): (url: Option<string>)
    ensures url.Some? <==> Truthy(canonical)
    ensures url.Some? ==> |url.value| == |site| + |canonical.value| &&
                          url.value[..|site|] == site && url.value[|site|..] == canonical.value
  {
    if Truthy(canonical) then
      var u := site + canonical.value;
      assert u[..|site|] == site && u[|site|..] == canonical.value;
      Some(u)
    else None
  }

  /** The keyword separator. */
  const KeywordSeparator: string := ", "

  /** `generateSEO` */
  function Generate(site: string, config: Config): (m: Metadata)
    ensures Includes(m.title, SiteName) && m.ogTitle == m.title && m.twitterTitle == m.title
    ensures m.robots == (if config.noindex == Some(true) then "noindex, nofollow" else "index, follow")
    ensures m.canonical == m.ogUrl
    ensures m.creator == SiteName && m.publisher == SiteName && m.siteName == SiteName
    ensures |m.ogImages| == 1 && m.twitterImages == [m.ogImages[0].url]
    ensures m.ogImages[0].alt == config.title
    ensures m.title == FullTitle(config.title) && m.description == config.description
    ensures m.ogImages[0].url == config.ogImage.GetOr(DefaultOgImage(site))
    ensures m.ogType == config.ogType.GetOr(Website)
  {
    var fullTitle := FullTitle(config.title);
    var canonicalUrl := CanonicalUrl(site, config.canonical);
    var ogImage := config.ogImage.GetOr(DefaultOgImage(site));
    Metadata(
      title := fullTitle,
      description := config.description,
      keywords := Join(config.keywords.GetOr([]), KeywordSeparator),
      authors := config.authors.GetOr([]),
      creator := SiteName,
      publisher := SiteName,
      robots := if config.noindex.GetOr(false) then "noindex, nofollow" else "index, follow",
      canonical := canonicalUrl,
      ogTitle := fullTitle,
      ogUrl := canonicalUrl,
      siteName := SiteName,
      locale := "vi_VN",
      ogType := config.ogType.GetOr(Website),
      ogImages := [Image(ogImage, 1200, 630, config.title)],
      publishedTime := if Truthy(config.publishedTime) then config.publishedTime else None,
      modifiedTime := if Truthy(config.modifiedTime) then config.modifiedTime else None,
      twitterCard := "summary_large_image",
      twitterTitle := fullTitle,
      twitterImages := [ogImage]
    )
  }

  /** The defaults of `generateSEO`: no keywords is the empty keyword string, no authors an
      empty list, no image the site's default image, no type "website", and a missing or empty
      time is left out. */
  lemma GenerateDefaults(site: string, config: Config)
    ensures config.keywords.None? ==> Generate(site, config).keywords == ""
    ensures config.authors.None? ==> Generate(site, config).authors == []
    ensures config.ogImage.None? ==> Generate(site, config).ogImages[0].url == DefaultOgImage(site)
    ensures config.ogType.None? ==> Generate(site, config).ogType == Website
    ensures Generate(site, config).publishedTime.Some? <==> Truthy(config.publishedTime)
    ensures Generate(site, config).modifiedTime.Some? <==> Truthy(config.modifiedTime)
    ensures Generate(site, config).canonical == CanonicalUrl(site, config.canonical)
  {
  }

  /** The keyword string splits back into the keywords, provided none of them holds the
      separator. */
  lemma KeywordsRoundTrip(site: string, config: Config)
    requires config.keywords.Some? && |config.keywords.value| > 0
    requires forall i :: 0 <= i < |config.keywords.value| ==>
               NoEarlySeparator(config.keywords.value[i], KeywordSeparator)
    ensures Split(Generate(site, config).keywords, KeywordSeparator) == config.keywords.value
  {
    SplitJoin(config.keywords.value, KeywordSeparator);
  }

  // ---------------------------------------------------------------------------------------
  // Products

  /** The argument of `generateProductSEO`; a price is a JavaScript number (NaN left out). */
  datatype ProductInput = ProductInput(
    name: string,
    brand: Trucks.Brand,
    price: Option<real>,
    priceText: Option<string>,
    description: string,
    thumbnailUrl: Option<string>,
    slug: string,
    productType: string
  )

  /** A value inside a template literal: `undefined` is written out as the word. */
  function TemplateText(v: Option<string>): string {
    v.GetOr("undefined")
  }

  /** A number is truthy when present and not zero. */
  predicate NumberTruthy(x: Option<real>) {
    x.Some? && x.value != 0.0
  }

  /** `priceInfo` */
  function PriceInfo(h: Host, p: ProductInput): (text: string)
    ensures Truthy(p.priceText) ==> text == p.priceText.value
    ensures !Truthy(p.priceText) && NumberTruthy(p.price) ==> text == h.vndText(p.price.value) + " VNĐ"
    ensures !Truthy(p.priceText) && !NumberTruthy(p.price) ==> text == "Liên hệ"
  {
    if Truthy(p.priceText) then p.priceText.value
    else if NumberTruthy(p.price) then h.vndText(p.price.value) + " VNĐ"
    else "Liên hệ"
  }

  /** The text after the product's description. */
  function ProductDescriptionTail(name: string): string {
    ". Liên hệ ngay để nhận báo giá tốt nhất cho " + name + " tại " + SiteName + "."
  }

  /** The configuration `generateProductSEO` passes on; an undefined brand name appears in the
      keyword list as an empty piece, which is how `join` writes it. */
  function ProductConfig(h: Host, site: string, p: ProductInput): Config {
    var brandName := Trucks.FirstBrand(p.brand);
    Config(
      title := p.name + " - " + TemplateText(brandName) + " | Giá " + PriceInfo(h, p),
      description := Slice(p.description, 0, 155) + ProductDescriptionTail(p.name),
      keywords := Some([p.name, brandName.GetOr(""), p.productType, "xe tải", "giá xe tải",
                        "mua xe tải", "soosan", "doosung", "vietnam"]),
      canonical := Some("/" + p.productType + "/" + p.slug),
      ogImage := Some(if Truthy(p.thumbnailUrl) then p.thumbnailUrl.value else DefaultOgImage(site)),
      ogType := Some(Product),
      publishedTime := None,
      modifiedTime := None,
      authors := None,
      noindex := None
    )
  }

  /** `generateProductSEO` */
  function ProductSeo(h: Host, site: string, p: ProductInput): Metadata {
    Generate(site, ProductConfig(h, site, p))
  }

  /** A product page's title names the product, its brand and its price, and ends up naming
      the site. */
  lemma ProductTitle(h: Host, site: string, p: ProductInput)
    ensures var head := p.name + " - " + TemplateText(Trucks.FirstBrand(p.brand)) + " | Giá " + PriceInfo(h, p);
            var title := ProductSeo(h, site, p).title;
            title == FullTitle(head) && head <= title && Includes(title, SiteName)
  {
    var head := p.name + " - " + TemplateText(Trucks.FirstBrand(p.brand)) + " | Giá " + PriceInfo(h, p);
    assert head <= head + " | " + SiteName;
  }

  /** A product page's description keeps the first 155 characters of the product's. */
  lemma ProductDescription(h: Host, site: string, p: ProductInput)
    ensures ProductSeo(h, site, p).description ==
              p.description[..Min(155, |p.description|)] + ProductDescriptionTail(p.name)
  {
    TakePrefix(p.description, 155);
  }

  /** A product page's canonical URL is the product's own page; the page is indexed, typed
      "product", and shows the thumbnail when there is one. */
  lemma ProductPage(h: Host, site: string, p: ProductInput)
    ensures ProductSeo(h, site, p).canonical == Some(site + "/" + p.productType + "/" + p.slug)
    ensures ProductSeo(h, site, p).robots == "index, follow"
    ensures ProductSeo(h, site, p).ogType == Product
    ensures ProductSeo(h, site, p).ogImages[0].url ==
              (if Truthy(p.thumbnailUrl) then p.thumbnailUrl.value else DefaultOgImage(site))
  {
    var path := "/" + p.productType + "/" + p.slug;
    assert ProductConfig(h, site, p).canonical == Some(path);
    assert site + path == site + "/" + p.productType + "/" + p.slug;
  }

  /** The keywords of a product page start with the product's name, its brand and its type,
      followed by six fixed terms. */
  lemma ProductKeywords(h: Host, site: string, p: ProductInput)
    ensures var ks := ProductConfig(h, site, p).keywords.value;
            |ks| == 9 && ks[0] == p.name && ks[2] == p.productType &&
            (Trucks.FirstBrand(p.brand).Some? ==> ks[1] == Trucks.FirstBrand(p.brand).value) &&
            ks[3..] == ["xe tải", "giá xe tải", "mua xe tải", "soosan", "doosung", "vietnam"]
    ensures ProductSeo(h, site, p).keywords ==
              Join(ProductConfig(h, site, p).keywords.value, KeywordSeparator)
  {
  }

  // ---------------------------------------------------------------------------------------
  // Blog posts

  /** The argument of `generateBlogSEO`. */
  datatype BlogInput = BlogInput(
    title: string,
    excerpt: string,
    slug: string,
    category: string,
    publishDate: string,
    author: Option<string>,
    featuredImage: Option<string>,
    tags: Option<seq<string>>
  )

  /** The keywords of a post: its tags when it has a tag list (an empty one included, arrays
      being truthy), otherwise its category and three fixed terms. */
  function BlogKeywords(post: BlogInput): (ks: seq<string>)
    ensures post.tags.Some? ==> ks == post.tags.value
    ensures post.tags.None? ==> |ks| == 4 && ks[0] == post.category
  {
    if post.tags.Some? then post.tags.value else [post.category, "xe tải", "tin tức", "blog"]
  }

  /** The authors of a post: its author when truthy, otherwise the site. */
  function BlogAuthors(post: BlogInput): (authors: seq<string>)
    ensures |authors| == 1
    ensures authors[0] == (if Truthy(post.author) then post.author.value else SiteName)
  {
    if Truthy(post.author) then [post.author.value] else [SiteName]
  }

  /** `generateBlogSEO` */
  function BlogSeo(site: string, post: BlogInput): Metadata {
    Generate(site, Config(
      title := post.title,
      description := post.excerpt,
      keywords := Some(BlogKeywords(post)),
      canonical := Some("/" + post.category + "/" + post.slug),
      ogImage := Some(if Truthy(post.featuredImage) then post.featuredImage.value else DefaultOgImage(site)),
      ogType := Some(Article),
      publishedTime := Some(post.publishDate),
      modifiedTime := None,
      authors := Some(BlogAuthors(post)),
      noindex := None
    ))
  }

  /** A post's metadata: an article at `/<category>/<slug>`, published at the post's date when
      it has one, by a single author that defaults to the site, with the post's keywords. */
  lemma BlogSeoShape(site: string, post: BlogInput)
    ensures BlogSeo(site, post).title == FullTitle(post.title)
    ensures BlogSeo(site, post).description == post.excerpt
    ensures BlogSeo(site, post).canonical == Some(site + "/" + post.category + "/" + post.slug)
    ensures BlogSeo(site, post).ogType == Article
    ensures BlogSeo(site, post).publishedTime == (if post.publishDate == "" then None else Some(post.publishDate))
    ensures BlogSeo(site, post).authors == BlogAuthors(post)
    ensures BlogSeo(site, post).keywords == Join(BlogKeywords(post), KeywordSeparator)
  {
    var path := "/" + post.category + "/" + post.slug;
    assert site + path == site + "/" + post.category + "/" + post.slug;
  }

  // ---------------------------------------------------------------------------------------
  // Breadcrumbs

  /** One breadcrumb entry: its 1-based position, its name and its absolute URL. */
  datatype ListItem = ListItem(position: int, name: string, item: string)

  /** `generateBreadcrumbList(items).itemListElement` */
  function Breadcrumbs(site: string, items: seq<(string, string)>): (r: seq<ListItem>)
    ensures |r| == |items|
    ensures forall i :: 0 <= i < |r| ==> r[i].position == i + 1 && r[i].name == items[i].0
    ensures forall i :: 0 <= i < |r| ==> r[i].item == site + items[i].1
  {
    seq(|items|, i requires 0 <= i < |items| => ListItem(i + 1, items[i].0, site + items[i].1))
  }

  /** The path of a breadcrumb: its URL with the site URL taken off. */
  function PathOf(site: string, e: ListItem): string {
    if |site| <= |e.item| then e.item[|site|..] else e.item
  }

  /** The breadcrumbs give back the names and paths they were built from, in order. */
  lemma BreadcrumbsRoundTrip(site: string, items: seq<(string, string)>)
    ensures var r := Breadcrumbs(site, items);
            seq(|r|, i requires 0 <= i < |r| => (r[i].name, PathOf(site, r[i]))) == items
  {
    var r := Breadcrumbs(site, items);
    forall i | 0 <= i < |r| ensures PathOf(site, r[i]) == items[i].1 {
      assert r[i].item == site + items[i].1;
      assert (site + items[i].1)[|site|..] == items[i].1;
    }
  }
}

=== FILE: seqs.dfy ===
/** `Array.prototype.filter` and the order-preserving-subsequence relation it produces. */
module Seqs {

  /** `xs` can be obtained from `ys` by deleting elements, without reordering. */
  predicate IsSubseq<T(==)>(xs: seq<T>, ys: seq<T>)
    decreases |ys|
  {
    if |xs| == 0 then true
    else if |ys| == 0 then false
    else if xs[0] == ys[0] then IsSubseq(xs[1..], ys[1..])
    else IsSubseq(xs, ys[1..])
  }

  /** The elements of `s` that satisfy `p`, in their original order. */
  function Filter<T(==,!new)>(s: seq<T>, p: T -> bool): (r: seq<T>)
    ensures |r| <= |s|
    ensures forall x :: x in r <==> x in s && p(x)
    ensures (forall i :: 0 <= i < |s| ==> p(s[i])) ==> r == s
  {
    if |s| == 0 then []
    else
      assert s == [s[0]] + s[1..];
      (if p(s[0]) then [s[0]] else []) + Filter(s[1..], p)
  }

  /** The filter keeps every occurrence of each element that satisfies `p`, and nothing else. */
  lemma {:induction false} FilterCount<T(!new)>(s: seq<T>, p: T -> bool)
    ensures forall x :: multiset(Filter(s, p))[x] == if p(x) then multiset(s)[x] else 0
    decreases |s|
  {
    if |s| > 0 {
      FilterCount(s[1..], p);
      assert s == [s[0]] + s[1..];
      FilterUnfold(s, p);
    }
  }

  lemma {:induction false} FilterIsSubseq<T(!new)>(s: seq<T>, p: T -> bool)
    ensures IsSubseq(Filter(s, p), s)
  {
    if |s| > 0 {
      var r, t := Filter(s, p), Filter(s[1..], p);
      FilterIsSubseq(s[1..], p);
      if p(s[0]) {
        assert r == [s[0]] + t;
        assert r[0] == s[0] && r[1..] == t;
      } else {
        assert r == t;
        SubseqOfTail(t, s);
      }
    }
  }

  /** A subsequence of the tail is a subsequence of the whole. */
  lemma {:induction false} SubseqOfTail<T(!new)>(xs: seq<T>, ys: seq<T>)
    requires |ys| > 0
    requires IsSubseq(xs, ys[1..])
    ensures IsSubseq(xs, ys)
    decreases |ys|, 0
  {
    if |xs| > 0 && xs[0] == ys[0] {
      // xs[1..] is a subsequence of xs, which is one of ys[1..]
      SubseqDropHead(xs, ys[1..]);
    }
  }

  /** Dropping the first element keeps a subsequence a subsequence. */
  lemma {:induction false} SubseqDropHead<T(!new)>(xs: seq<T>, ys: seq<T>)
    requires |xs| > 0
    requires IsSubseq(xs, ys)
    ensures IsSubseq(xs[1..], ys)
    decreases |ys|, 1
  {
    assert |ys| > 0;
    if xs[0] == ys[0] {
      if |xs[1..]| > 0 {
        SubseqOfTail(xs[1..], ys);
      }
    } else {
      SubseqDropHead(xs, ys[1..]);
      if |xs[1..]| > 0 {
        SubseqOfTail(xs[1..], ys);
      }
    }
  }

  lemma {:induction false} SubseqTransitive<T(!new)>(xs: seq<T>, ys: seq<T>, zs: seq<T>)
    requires IsSubseq(xs, ys) && IsSubseq(ys, zs)
    ensures IsSubseq(xs, zs)
    decreases |zs|
  {
    if |xs| > 0 {
      assert |ys| > 0 && |zs| > 0;
      if ys[0] == zs[0] {
        if xs[0] == ys[0] {
          SubseqTransitive(xs[1..], ys[1..], zs[1..]);
        } else {
          SubseqTransitive(xs, ys[1..], zs[1..]);
          SubseqOfTail(xs, zs);
        }
      } else {
        SubseqTransitive(xs, ys, zs[1..]);
        SubseqOfTail(xs, zs);
      }
    }
  }

  /** Every subsequence takes each value at most as often as the original holds it. */
  lemma {:induction false} SubseqMultiset<T(!new)>(xs: seq<T>, ys: seq<T>)
    requires IsSubseq(xs, ys)
    ensures multiset(xs) <= multiset(ys)
    decreases |ys|
  {
    if |xs| > 0 {
      assert ys == [ys[0]] + ys[1..];
      if xs[0] == ys[0] {
        SubseqMultiset(xs[1..], ys[1..]);
        assert xs == [xs[0]] + xs[1..];
      } else {
        SubseqMultiset(xs, ys[1..]);
      }
    }
  }

  /** `Filter` is the only subsequence that keeps exactly the elements satisfying `p`, each as
      often as it occurs: a result characterised this way equals the filter. */
  lemma {:induction false} FilterUnique<T(!new)>(r: seq<T>, s: seq<T>, p: T -> bool)
    requires IsSubseq(r, s)
    requires forall x :: multiset(r)[x] == if p(x) then multiset(s)[x] else 0
    ensures r == Filter(s, p)
    decreases |s|
  {
    if |s| == 0 {
      assert |r| == 0;
    } else {
      var a := s[0];
      assert s == [a] + s[1..];
      if p(a) {
        assert multiset(r)[a] == multiset(s)[a] >= 1;
        if |r| > 0 && r[0] == a {
          assert r == [a] + r[1..];
          forall x ensures multiset(r[1..])[x] == if p(x) then multiset(s[1..])[x] else 0 {
          }
          FilterUnique(r[1..], s[1..], p);
        } else {
          assert IsSubseq(r, s[1..]);
          SubseqMultiset(r, s[1..]);
          assert false;
        }
      } else {
        assert multiset(r)[a] == 0;
        if |r| > 0 {
          assert r[0] in multiset(r);
          assert r[0] != a;
        }
        assert IsSubseq(r, s[1..]);
        FilterUnique(r, s[1..], p);
      }
    }
  }

  /** Filtering twice by the same predicate filters once. */
  lemma FilterIdempotent<T(!new)>(s: seq<T>, p: T -> bool)
    ensures Filter(Filter(s, p), p) == Filter(s, p)
  {
    var r := Filter(s, p);
    assert forall i :: 0 <= i < |r| ==> p(r[i]) by {
      forall i | 0 <= i < |r| ensures p(r[i]) {
        assert r[i] in r;
      }
    }
  }

  /** Filtering a sequence extended at the front. */
  lemma FilterCons<T(!new)>(x: T, s: seq<T>, p: T -> bool)
    ensures Filter([x] + s, p) == (if p(x) then [x] else []) + Filter(s, p)
  {
    assert ([x] + s)[0] == x && ([x] + s)[1..] == s;
  }

  lemma FilterUnfold<T(!new)>(s: seq<T>, p: T -> bool)
    requires |s| > 0
    ensures Filter(s, p) == (if p(s[0]) then [s[0]] else []) + Filter(s[1..], p)
  {
  }

  /** Nothing passes a predicate no element satisfies. */
  lemma {:induction false} FilterNone<T(!new)>(s: seq<T>, p: T -> bool)
    requires forall i :: 0 <= i < |s| ==> !p(s[i])
    ensures Filter(s, p) == []
    decreases |s|
  {
    if |s| > 0 {
      FilterNone(s[1..], p);
    }
  }

  /** Filtering a sequence extended at the end. */
  lemma {:induction false} FilterSnoc<T(!new)>(s: seq<T>, x: T, p: T -> bool)
    ensures Filter(s + [x], p) == Filter(s, p) + (if p(x) then [x] else [])
    decreases |s|
  {
    var e := if p(x) then [x] else [];
    if |s| == 0 {
      assert s + [x] == [x];
      assert Filter([x], p) == e + Filter([], p);
    } else {
      var sx := s + [x];
      assert sx[0] == s[0] && sx[1..] == s[1..] + [x];
      FilterSnoc(s[1..], x, p);
      var h := if p(s[0]) then [s[0]] else [];
      calc {
        Filter(sx, p);
        h + Filter(s[1..] + [x], p);
        h + (Filter(s[1..], p) + e);
        { ConcatAssoc(h, Filter(s[1..], p), e); }
        (h + Filter(s[1..], p)) + e;
        Filter(s, p) + e;
      }
    }
  }

  lemma ConcatAssoc<T>(a: seq<T>, b: seq<T>, c: seq<T>)
    ensures a + (b + c) == (a + b) + c
  {
  }

  /** Filtering by two predicates in turn is filtering by their conjunction. */
  lemma FilterFilter<T(!new)>(s: seq<T>, p: T -> bool, q: T -> bool, pq: T -> bool)
    requires forall x :: pq(x) == (p(x) && q(x))
    ensures Filter(Filter(s, p), q) == Filter(s, pq)
  {
    var r := Filter(Filter(s, p), q);
    FilterCount(s, p);
    FilterCount(Filter(s, p), q);
    FilterIsSubseq(s, p);
    FilterIsSubseq(Filter(s, p), q);
    SubseqTransitive(r, Filter(s, p), s);
    FilterUnique(r, s, pq);
  }

  /** Two predicates that agree on every element filter alike. */
  lemma FilterExtensional<T(!new)>(s: seq<T>, p: T -> bool, q: T -> bool)
    requires forall i :: 0 <= i < |s| ==> p(s[i]) == q(s[i])
    ensures Filter(s, p) == Filter(s, q)
  {
    var r := Filter(s, p);
    FilterIsSubseq(s, p);
    FilterCount(s, p);
    forall x ensures multiset(r)[x] == if q(x) then multiset(s)[x] else 0 {
      if x in s {
        var i :| 0 <= i < |s| && s[i] == x;
        assert p(s[i]) == q(s[i]);
      }
    }
    FilterUnique(r, s, q);
  }

  /** Pairwise distinct elements. */
  predicate Distinct<T(==)>(s: seq<T>) {
    forall i, j :: 0 <= i < j < |s| ==> s[i] != s[j]
  }

  lemma {:induction false} DistinctCount<T(!new)>(s: seq<T>, x: T)
    requires Distinct(s)
    ensures multiset(s)[x] <= 1
    decreases |s|
  {
    if |s| > 0 {
      assert s == [s[0]] + s[1..];
      DistinctCount(s[1..], x);
      if s[0] == x {
        assert x !in s[1..];
      }
    }
  }

  /** Two equal values at different positions are counted twice. */
  lemma RepeatedCount<T(!new)>(s: seq<T>, i: nat, j: nat)
    requires i < j < |s| && s[i] == s[j]
    ensures multiset(s)[s[i]] >= 2
  {
    assert s == s[..i] + [s[i]] + s[i + 1..j] + [s[j]] + s[j + 1..];
  }

  /** A permutation of a sequence without repetitions has none either. */
  lemma PermutationDistinct<T(!new)>(a: seq<T>, b: seq<T>)
    requires multiset(a) == multiset(b)
    requires Distinct(b)
    ensures Distinct(a)
  {
    forall i, j | 0 <= i < j < |a| ensures a[i] != a[j] {
      if a[i] == a[j] {
        RepeatedCount(a, i, j);
        DistinctCount(b, a[i]);
      }
    }
  }
}

=== FILE: sorting.dfy ===
/** `Array.prototype.sort` with a comparator: since ECMAScript 2019 the sort is stable, so it is
    modelled as a stable insertion sort. `le(a, b)` means the comparator does not put `b`
    strictly before `a` (a comparator result `<= 0`). */
module Sorting {
  import Seqs

  /** A comparator that relates every pair one way or the other. */
  ghost predicate Total<T(!new)>(le: (T, T) -> bool) {
    forall a, b :: le(a, b) || le(b, a)
  }

  /** Every element is `le` its successor. */
  predicate SortedBy<T>(s: seq<T>, le: (T, T) -> bool) {
    forall i :: 0 < i < |s| ==> le(s[i - 1], s[i])
  }

  /** Places `x` in front of the first element it may precede. */
  function Insert<T>(x: T, r: seq<T>, le: (T, T) -> bool): (out: seq<T>)
    ensures |out| == |r| + 1
    ensures multiset(out) == multiset(r) + multiset{x}
    ensures x in out
    ensures forall y :: y in r ==> y in out
  {
    if |r| == 0 || le(x, r[0]) then [x] + r
    else
      assert r == [r[0]] + r[1..];
      [r[0]] + Insert(x, r[1..], le)
  }

  /** The array sorted by the comparator `le`, equal elements in input order. */
  function SortBy<T>(s: seq<T>, le: (T, T) -> bool): (r: seq<T>)
    ensures |r| == |s|
    ensures multiset(r) == multiset(s)
  {
    if |s| == 0 then []
    else
      assert s == [s[0]] + s[1..];
      Insert(s[0], SortBy(s[1..], le), le)
  }

  lemma {:induction false} InsertSorted<T(!new)>(x: T, r: seq<T>, le: (T, T) -> bool)
    requires Total(le)
    requires SortedBy(r, le)
    ensures SortedBy(Insert(x, r, le), le)
    ensures |r| > 0 ==> Insert(x, r, le)[0] == x || Insert(x, r, le)[0] == r[0]
    decreases |r|
  {
    if |r| > 0 && !le(x, r[0]) {
      assert le(r[0], x);
      var tail := Insert(x, r[1..], le);
      assert SortedBy(r[1..], le) by {
        forall i | 0 < i < |r[1..]| ensures le(r[1..][i - 1], r[1..][i]) {
          assert r[1..][i - 1] == r[i] && r[1..][i] == r[i + 1];
        }
      }
      InsertSorted(x, r[1..], le);
      var out := [r[0]] + tail;
      forall i | 0 < i < |out| ensures le(out[i - 1], out[i]) {
        if i == 1 {
          if |r| > 1 {
            assert tail[0] == x || tail[0] == r[1];
          }
        } else {
          assert out[i - 1] == tail[i - 2] && out[i] == tail[i - 1];
        }
      }
    }
  }

  /** Under a total comparator the result is sorted. */
  lemma {:induction false} SortBySorted<T(!new)>(s: seq<T>, le: (T, T) -> bool)
    requires Total(le)
    ensures SortedBy(SortBy(s, le), le)
    decreases |s|
  {
    if |s| > 0 {
      SortBySorted(s[1..], le);
      InsertSorted(s[0], SortBy(s[1..], le), le);
    }
  }

  /** `c` picks elements the comparator cannot tell apart. */
  ghost predicate OneClass<T(!new)>(c: T -> bool, le: (T, T) -> bool) {
    forall a, b :: c(a) && c(b) ==> le(a, b)
  }

  lemma {:induction false} InsertStable<T(!new)>(x: T, r: seq<T>, le: (T, T) -> bool, c: T -> bool)
    requires OneClass(c, le)
    ensures Seqs.Filter(Insert(x, r, le), c) == Seqs.Filter([x] + r, c)
    decreases |r|
  {
    if |r| > 0 && !le(x, r[0]) {
      var tail := Insert(x, r[1..], le);
      var hr := if c(r[0]) then [r[0]] else [];
      var hx := if c(x) then [x] else [];
      var f := Seqs.Filter(r[1..], c);
      assert Insert(x, r, le) == [r[0]] + tail;
      Seqs.FilterCons(r[0], tail, c);
      InsertStable(x, r[1..], le, c);
      Seqs.FilterCons(x, r[1..], c);
      assert Seqs.Filter(Insert(x, r, le), c) == hr + (hx + f);
      Seqs.FilterUnfold(r, c);
      Seqs.FilterCons(x, r, c);
      assert Seqs.Filter([x] + r, c) == hx + (hr + f);
      SwapFront(hr, hx, f);
    }
  }

  lemma SwapFront<T>(a: seq<T>, b: seq<T>, f: seq<T>)
    requires a == [] || b == []
    ensures a + (b + f) == b + (a + f)
  {
  }

  /** Stability: elements the comparator considers equal keep their input order. */
  lemma {:induction false} SortByStable<T(!new)>(s: seq<T>, le: (T, T) -> bool, c: T -> bool)
    requires OneClass(c, le)
    ensures Seqs.Filter(SortBy(s, le), c) == Seqs.Filter(s, c)
    decreases |s|
  {
    if |s| > 0 {
      var r := SortBy(s[1..], le);
      SortByStable(s[1..], le, c);
      InsertStable(s[0], r, le, c);
      Seqs.FilterCons(s[0], r, c);
      Seqs.FilterUnfold(s, c);
    }
  }

  /** Comparator of `(a, b) => key(b) - key(a)`: larger keys first. */
  function KeyDesc<T(!new)>(key: T -> int): (le: (T, T) -> bool)
    ensures forall a, b :: le(a, b) == (key(a) >= key(b))
  {
    (a, b) => key(a) >= key(b)
  }

  lemma KeyDescTotal<T(!new)>(key: T -> int)
    ensures Total(KeyDesc(key))
  {
  }

  /** Sorted by a descending key means no later element has a larger key. */
  lemma {:induction false} KeyDescOrdered<T(!new)>(s: seq<T>, key: T -> int, i: int, j: int)
    requires SortedBy(s, KeyDesc(key))
    requires 0 <= i <= j < |s|
    ensures key(s[i]) >= key(s[j])
    decreases j - i
  {
    if i < j {
      KeyDescOrdered(s, key, i, j - 1);
    }
  }
}

=== FILE: structured_data.dfy ===
/** schema.org records for products, articles, item lists and FAQ pages. */
module StructuredData {
  import opened Js
  import Seo
  import Trucks

  // ---------------------------------------------------------------------------------------
  // Products

  /** The argument of `generateProductSchema`: the product fields of page metadata plus the
      weight, as a number or as text. */
  datatype ProductInput = ProductInput(
    name: string,
    brand: Trucks.Brand,
    price: Option<real>,
    priceText: Option<string>,
    description: string,
    thumbnailUrl: Option<string>,
    slug: string,
    productType: string,
    weight: Option<real>,
    weightText: Option<string>
  )

  /** The offer: a priced one carrying the price's text, or one whose price specification
      says "0". Both carry the product URL, are in stock and are sold by the site. */
  datatype Offer =
    | Priced(price: string, url: string)
    | Unpriced(url: string, specifiedPrice: string)

  /** The weight node's value: the number when truthy, else the text. */
  datatype WeightValue = Number(tons: real) | Text(text: string)

  datatype ProductSchema = ProductSchema(
    name: string,
    description: string,
    brandName: Option<string>,
    image: string,
    url: string,
    sku: string,
    offers: Offer,
    weight: Option<WeightValue>
  )

  /** `productUrl` */
  function ProductUrl(site: string, p: ProductInput): string {
    site + "/" + p.productType + "/" + p.slug
  }

  /** The offer for a product: priced exactly when the price is a positive number. */
  function ProductOffer(h: Host, site: string, p: ProductInput): (o: Offer)
    ensures o.Priced? <==> p.price.Some? && p.price.value > 0.0
    ensures o.Priced? ==> o.price == h.numberText(p.price.value)
    ensures o.Unpriced? ==> o.specifiedPrice == "0"
    ensures o.url == ProductUrl(site, p)
  {
    if Seo.NumberTruthy(p.price) && p.price.value > 0.0 then Priced(h.numberText(p.price.value), ProductUrl(site, p))
    else Unpriced(ProductUrl(site, p), "0")
  }

  /** The weight node: present when the weight or its text is truthy, holding the weight when
      that is truthy and the text otherwise. */
  function ProductWeight(p: ProductInput): (w: Option<WeightValue>)
    ensures w.Some? <==> Seo.NumberTruthy(p.weight) || Truthy(p.weightText)
    ensures Seo.NumberTruthy(p.weight) ==> w == Some(Number(p.weight.value))
    ensures !Seo.NumberTruthy(p.weight) && Truthy(p.weightText) ==> w == Some(Text(p.weightText.value))
  {
    if Seo.NumberTruthy(p.weight) then Some(Number(p.weight.value))
    else if Truthy(p.weightText) then Some(Text(p.weightText.value))
    else None
  }

  /** `generateProductSchema`: the thumbnail as image when there is one, otherwise the site's
      placeholder picture; the offer and weight node of the product. */
  function Product(h: Host, site: string, p: ProductInput): (r: ProductSchema)
    ensures Truthy(p.thumbnailUrl) ==> r.image == p.thumbnailUrl.value
    ensures !Truthy(p.thumbnailUrl) ==> r.image == site + "/placeholder.svg"
    ensures r.name == p.name && r.description == p.description
    ensures r.offers == ProductOffer(h, site, p) && r.weight == ProductWeight(p)
  {
    ProductSchema(
      name := p.name,
      description := p.description,
      brandName := Trucks.FirstBrand(p.brand),
      image := if Truthy(p.thumbnailUrl) then p.thumbnailUrl.value else site + "/placeholder.svg",
      url := ProductUrl(site, p),
      sku := p.slug,
      offers := ProductOffer(h, site, p),
      weight := ProductWeight(p)
    )
  }

  /** The metadata input a product schema input corresponds to (the weight dropped). */
  function AsSeoInput(p: ProductInput): Seo.ProductInput {
    Seo.ProductInput(p.name, p.brand, p.price, p.priceText, p.description, p.thumbnailUrl, p.slug, p.productType)
  }

  /** A product's record names the same brand and the same page as its metadata: the
      product URL is the metadata's canonical URL and the SKU is the slug at its end. */
  lemma ProductAgreesWithSeo(h: Host, site: string, p: ProductInput)
    ensures Seo.ProductSeo(h, site, AsSeoInput(p)).canonical == Some(Product(h, site, p).url)
    ensures Product(h, site, p).sku == p.slug && EndsWith(Product(h, site, p).url, "/" + p.slug)
    ensures Product(h, site, p).brandName == Trucks.FirstBrand(p.brand)
  {
    var u := ProductUrl(site, p);
    assert Product(h, site, p).url == u;
    Seo.ProductPage(h, site, AsSeoInput(p));
    assert u == (site + "/" + p.productType) + ("/" + p.slug);
    assert u[|u| - |"/" + p.slug|..] == "/" + p.slug;
  }

  /** A product without a positive price is still offered, with its price specified as "0";
      the offer never carries both forms. */
  lemma OfferForms(h: Host, site: string, p: ProductInput)
    ensures p.price == None || p.price == Some(0.0) ==> Product(h, site, p).offers == Unpriced(ProductUrl(site, p), "0")
    ensures p.price.Some? && p.price.value < 0.0 ==> Product(h, site, p).offers.Unpriced?
    ensures p.price.Some? && p.price.value > 0.0 ==>
              Product(h, site, p).offers == Priced(h.numberText(p.price.value), ProductUrl(site, p))
  {
  }

  // ---------------------------------------------------------------------------------------
  // Articles

  /** The argument of `generateArticleSchema`. */
  datatype ArticleInput = ArticleInput(
    title: string,
    excerpt: string,
    slug: string,
    category: string,
    publishDate: string,
    modifiedDate: Option<string>,
    author: Option<string>,
    featuredImage: Option<string>
  )

  datatype ArticleSchema = ArticleSchema(
    headline: string,
    description: string,
    image: string,
    datePublished: string,
    dateModified: string,
    author: string,
    publisherName: string,
    pageId: string
  )

  /** A string option or its fallback, as `a || b` does. */
  function Or(a: Option<string>, b: string): (r: string)
    ensures Truthy(a) ==> r == a.value
    ensures !Truthy(a) ==> r == b
  {
    if Truthy(a) then a.value else b
  }

  /** `generateArticleSchema` */
  function ArticleRecord(site: string, a: ArticleInput): ArticleSchema {
    ArticleSchema(
      headline := a.title,
      description := a.excerpt,
      image := Or(a.featuredImage, Seo.DefaultOgImage(site)),
      datePublished := a.publishDate,
      dateModified := Or(a.modifiedDate, a.publishDate),
      author := Or(a.author, Seo.SiteName),
      publisherName := Seo.SiteName,
      pageId := site + "/" + a.category + "/" + a.slug
    )
  }

  /** An article is modified when it was published unless a modification date is given; its
      author defaults to the site; its page is the one the post's metadata calls canonical. */
  lemma ArticleDefaults(site: string, a: ArticleInput, tags: Option<seq<string>>)
    ensures !Truthy(a.modifiedDate) ==> ArticleRecord(site, a).dateModified == ArticleRecord(site, a).datePublished
    ensures Truthy(a.modifiedDate) ==> ArticleRecord(site, a).dateModified == a.modifiedDate.value
    ensures ArticleRecord(site, a).author == (if Truthy(a.author) then a.author.value else Seo.SiteName)
    ensures ArticleRecord(site, a).author == Seo.BlogAuthors(AsBlogInput(a, tags))[0]
    ensures Seo.BlogSeo(site, AsBlogInput(a, tags)).canonical == Some(ArticleRecord(site, a).pageId)
  {
    Seo.BlogSeoShape(site, AsBlogInput(a, tags));
  }

  /** The metadata input of the same post. */
  function AsBlogInput(a: ArticleInput, tags: Option<seq<string>>): Seo.BlogInput {
    Seo.BlogInput(a.title, a.excerpt, a.slug, a.category, a.publishDate, a.author, a.featuredImage, tags)
  }

  // ---------------------------------------------------------------------------------------
  // Item lists and FAQ pages

  /** An item of `generateItemListSchema`'s argument. */
  datatype Item = Item(name: string, url: string, image: Option<string>, position: int)

  /** A list element: the item's position and the thing it names. */
  datatype ListElement = ListElement(position: int, name: string, url: string, image: Option<string>)

  /** `generateItemListSchema(items).itemListElement` */
  function ItemList(items: seq<Item>): (r: seq<ListElement>)
    ensures |r| == |items|
  {
    seq(|items|, i requires 0 <= i < |items| => ListElement(items[i].position, items[i].name, items[i].url, items[i].image))
  }

  /** The item list keeps every item in order with its own position (which is not renumbered:
      duplicate or out-of-order positions are kept as given). */
  lemma ItemListRoundTrip(items: seq<Item>)
    ensures var r := ItemList(items);
            seq(|r|, i requires 0 <= i < |r| => Item(r[i].name, r[i].url, r[i].image, r[i].position)) == items
  {
  }

  /** Breadcrumb entries listed as items keep their 1-based numbering. */
  lemma ItemListOfBreadcrumbs(site: string, crumbs: seq<(string, string)>)
    ensures var b := Seo.Breadcrumbs(site, crumbs);
            var r := ItemList(seq(|b|, i requires 0 <= i < |b| => Item(b[i].name, b[i].item, None, b[i].position)));
            forall i :: 0 <= i < |r| ==> r[i].position == i + 1 && r[i].url == site + crumbs[i].1
  {
  }

  /** A FAQ entry: the question and its accepted answer. */
  datatype Question = Question(name: string, answer: string)

  /** `generateFAQSchema(faqs).mainEntity` */
  function Faq(faqs: seq<(string, string)>): (r: seq<Question>)
    ensures |r| == |faqs|
  {
    seq(|faqs|, i requires 0 <= i < |faqs| => Question(faqs[i].0, faqs[i].1))
  }

  /** One question per pair, in order, and the pairs can be read back. */
  lemma FaqRoundTrip(faqs: seq<(string, string)>)
    ensures var r := Faq(faqs);
            seq(|r|, i requires 0 <= i < |r| => (r[i].name, r[i].answer)) == faqs
  {
  }
}

=== FILE: truck_catalog.dfy ===
/** The catalog page: filters read from and written to the query string, and the staged filter
    pipeline over the visible vehicles. */
module TruckCatalog {
  import opened Js
  import opened Trucks
  import Seqs

  /** `TruckFilters`; `null` is `None`. */
  datatype Filters = Filters(
    brand: Option<string>,
    minPrice: Option<real>,
    maxPrice: Option<real>,
    minWeight: Option<real>,
    maxWeight: Option<real>,
    vehicleType: Option<string>,
    search: Option<string>
  )

  /** The filters `handleResetFilters` installs. */
  const NoFilters := Filters(None, None, None, None, None, None, None)

  // ---------------------------------------------------------------------------------------
  // The filter stages. Each is a total predicate that holds for every vehicle when its criterion
  // is inactive, so that an inactive stage leaves the list as it is.

  function And(p: Truck -> bool, q: Truck -> bool): (r: Truck -> bool)
    ensures forall t :: r(t) == (p(t) && q(t))
  {
    (t: Truck) => p(t) && q(t)
  }

  /** Some brand of the vehicle, lower-cased, contains `needle`. */
  predicate SomeBrandIncludes(h: Host, b: Brand, needle: string) {
    exists i :: 0 <= i < |BrandNames(b)| && Includes(h.lower(BrandNames(b)[i]), needle)
  }

  function TypeStage(f: Filters): Truck -> bool {
    (t: Truck) => !Truthy(f.vehicleType) || t.vehicleType == f.vehicleType.value
  }

  function BrandStage(h: Host, f: Filters): Truck -> bool {
    (t: Truck) => !Truthy(f.brand) || SomeBrandIncludes(h, t.brand, h.lower(f.brand.value))
  }

  /** `x >= (min || 0)`: a missing or zero minimum admits every non-negative value. */
  predicate AtLeast(x: real, min: Option<real>) {
    min.None? || x >= min.value
  }

  /** `x <= (max || Infinity)`: zero, like a missing maximum, imposes no upper limit. */
  predicate AtMost(x: real, max: Option<real>) {
    max.None? || max.value == 0.0 || x <= max.value
  }

  function MinPriceStage(f: Filters): Truck -> bool {
    (t: Truck) => AtLeast(t.price, f.minPrice)
  }

  function MaxPriceStage(f: Filters): Truck -> bool {
    (t: Truck) => AtMost(t.price, f.maxPrice)
  }

  function MinWeightStage(f: Filters): Truck -> bool {
    (t: Truck) => AtLeast(t.weight, f.minWeight)
  }

  function MaxWeightStage(f: Filters): Truck -> bool {
    (t: Truck) => AtMost(t.weight, f.maxWeight)
  }

  /** The free-text criterion: name, any brand, description or weight text contains the query. */
  predicate TextMatches(h: Host, t: Truck, q: string) {
    Includes(h.lower(t.name), q) || SomeBrandIncludes(h, t.brand, q)
    || Includes(h.lower(t.description), q) || Includes(h.lower(t.weightText), q)
  }

  function SearchStage(h: Host, f: Filters): Truck -> bool {
    (t: Truck) => !Truthy(f.search) || TextMatches(h, t, h.lower(f.search.value))
  }

  /** One stage of `applyFilters`: `result.filter(p)` when the criterion is active. */
  function Stage(active: bool, s: seq<Truck>, p: Truck -> bool): (r: seq<Truck>)
    ensures !active ==> r == s
    ensures active ==> r == Seqs.Filter(s, p)
  {
    if active then Seqs.Filter(s, p) else s
  }

  /** `applyFilters` over the visible vehicles (`filterVisibleTrucks(trucks)`), stage by stage in
      the page's order. */
  function ApplyFilters(h: Host, f: Filters, visible: seq<Truck>): (r: seq<Truck>)
    ensures |r| <= |visible|
  {
    var r1 := Stage(Truthy(f.vehicleType), visible, TypeStage(f));
    var r2 := Stage(Truthy(f.brand), r1, BrandStage(h, f));
    var r3 := Stage(f.minPrice.Some?, r2, MinPriceStage(f));
    var r4 := Stage(f.maxPrice.Some?, r3, MaxPriceStage(f));
    var r5 := Stage(f.minWeight.Some?, r4, MinWeightStage(f));
    var r6 := Stage(f.maxWeight.Some?, r5, MaxWeightStage(f));
    Stage(Truthy(f.search), r6, SearchStage(h, f))
  }

  /** The conjunction of all criteria, as one predicate. */
  function Matches(h: Host, f: Filters): Truck -> bool {
    And(And(And(And(And(And(TypeStage(f), BrandStage(h, f)), MinPriceStage(f)), MaxPriceStage(f)),
                MinWeightStage(f)), MaxWeightStage(f)), SearchStage(h, f))
  }

  /** What a vehicle must satisfy to be kept, criterion by criterion. */
  lemma MatchesMeaning(h: Host, f: Filters, t: Truck)
    ensures Matches(h, f)(t) <==>
      (!Truthy(f.vehicleType) || t.vehicleType == f.vehicleType.value) &&
      (!Truthy(f.brand) || SomeBrandIncludes(h, t.brand, h.lower(f.brand.value))) &&
      (f.minPrice.None? || t.price >= f.minPrice.value) &&
      (f.maxPrice.None? || f.maxPrice.value == 0.0 || t.price <= f.maxPrice.value) &&
      (f.minWeight.None? || t.weight >= f.minWeight.value) &&
      (f.maxWeight.None? || f.maxWeight.value == 0.0 || t.weight <= f.maxWeight.value) &&
      (!Truthy(f.search) || TextMatches(h, t, h.lower(f.search.value)))
  {
  }

  /** An inactive stage is the identity, so every stage is a plain filter. */
  lemma StageIsFilter(active: bool, s: seq<Truck>, p: Truck -> bool)
    requires !active ==> forall t :: p(t)
    ensures Stage(active, s, p) == Seqs.Filter(s, p)
  {
  }

  /** The staged pipeline keeps exactly the visible vehicles that meet every active criterion,
      in their original order. */
  lemma ApplyFiltersIsFilter(h: Host, f: Filters, visible: seq<Truck>)
    ensures ApplyFilters(h, f, visible) == Seqs.Filter(visible, Matches(h, f))
  {
    var p1, p2, p3, p4 := TypeStage(f), BrandStage(h, f), MinPriceStage(f), MaxPriceStage(f);
    var p5, p6, p7 := MinWeightStage(f), MaxWeightStage(f), SearchStage(h, f);
    StageIsFilter(Truthy(f.vehicleType), visible, p1);
    var r1 := Seqs.Filter(visible, p1);
    StageIsFilter(Truthy(f.brand), r1, p2);
    Seqs.FilterFilter(visible, p1, p2, And(p1, p2));
    var r2 := Seqs.Filter(visible, And(p1, p2));
    StageIsFilter(f.minPrice.Some?, r2, p3);
    Seqs.FilterFilter(visible, And(p1, p2), p3, And(And(p1, p2), p3));
    var q3 := And(And(p1, p2), p3);
    var r3 := Seqs.Filter(visible, q3);
    StageIsFilter(f.maxPrice.Some?, r3, p4);
    Seqs.FilterFilter(visible, q3, p4, And(q3, p4));
    var q4 := And(q3, p4);
    var r4 := Seqs.Filter(visible, q4);
    StageIsFilter(f.minWeight.Some?, r4, p5);
    Seqs.FilterFilter(visible, q4, p5, And(q4, p5));
    var q5 := And(q4, p5);
    var r5 := Seqs.Filter(visible, q5);
    StageIsFilter(f.maxWeight.Some?, r5, p6);
    Seqs.FilterFilter(visible, q5, p6, And(q5, p6));
    var q6 := And(q5, p6);
    var r6 := Seqs.Filter(visible, q6);
    StageIsFilter(Truthy(f.search), r6, p7);
    Seqs.FilterFilter(visible, q6, p7, And(q6, p7));
  }

  /** The result is an order-preserving subsequence of the visible vehicles. */
  lemma ApplyFiltersSubseq(h: Host, f: Filters, visible: seq<Truck>)
    ensures Seqs.IsSubseq(ApplyFilters(h, f, visible), visible)
    ensures forall t :: t in ApplyFilters(h, f, visible) <==> t in visible && Matches(h, f)(t)
  {
    ApplyFiltersIsFilter(h, f, visible);
    Seqs.FilterIsSubseq(visible, Matches(h, f));
  }

  /** Filtering the result again with the same criteria changes nothing. */
  lemma ApplyFiltersIdempotent(h: Host, f: Filters, visible: seq<Truck>)
    ensures ApplyFilters(h, f, ApplyFilters(h, f, visible)) == ApplyFilters(h, f, visible)
  {
    ApplyFiltersIsFilter(h, f, visible);
    ApplyFiltersIsFilter(h, f, ApplyFilters(h, f, visible));
    Seqs.FilterIdempotent(visible, Matches(h, f));
  }

  /** After a reset every visible vehicle is shown. */
  lemma ResetShowsAll(h: Host, visible: seq<Truck>)
    ensures ApplyFilters(h, NoFilters, visible) == visible
  {
  }

  /** A maximum of zero is no bound at all: with only `maxPrice` (or `maxWeight`) set to 0,
      every visible vehicle is kept, however expensive or heavy. */
  lemma ZeroMaximumIsUnbounded(h: Host, visible: seq<Truck>)
    ensures ApplyFilters(h, NoFilters.(maxPrice := Some(0.0)), visible) == visible
    ensures ApplyFilters(h, NoFilters.(maxWeight := Some(0.0)), visible) == visible
  {
  }

  /** Bounds are inclusive. */
  lemma BoundsInclusive(h: Host, t: Truck)
    requires t.price > 0.0
    ensures Matches(h, NoFilters.(minPrice := Some(t.price), maxPrice := Some(t.price)))(t)
  {
  }

  // ---------------------------------------------------------------------------------------
  // Query string. `URLSearchParams` is modelled as its list of name/value pairs; its text
  // serialisation is not modelled.

  type Params = seq<(string, string)>

  /** `URLSearchParams.get`: the first value for the name, `null` when there is none. */
  function Get(params: Params, name: string): (r: Option<string>)
    ensures r.Some? ==> (name, r.value) in params
    ensures r.None? <==> forall i :: 0 <= i < |params| ==> params[i].0 != name
  {
    if |params| == 0 then None
    else if params[0].0 == name then Some(params[0].1)
    else
      var r := Get(params[1..], name);
      assert r.Some? ==> (name, r.value) in params[1..];
      assert forall i :: 1 <= i < |params| ==> params[i] == params[1..][i - 1];
      r
  }

  /** `get(k) ? Number(get(k)) : null` */
  function NumberParam(h: Host, text: Option<string>): (r: Option<real>)
    ensures r.Some? <==> Truthy(text)
    ensures r.Some? ==> r.value == h.parseNumber(text.value)
  {
    if Truthy(text) then Some(h.parseNumber(text.value)) else None
  }

  /** The filters the page reads from its query string. */
  function FromQuery(h: Host, params: Params): (f: Filters)
    ensures f.brand == Get(params, "brand") && f.vehicleType == Get(params, "type")
    ensures f.search == Get(params, "q")
    ensures f.minPrice == NumberParam(h, Get(params, "minPrice"))
    ensures f.maxPrice == NumberParam(h, Get(params, "maxPrice"))
    ensures f.minWeight == NumberParam(h, Get(params, "minWeight"))
    ensures f.maxWeight == NumberParam(h, Get(params, "maxWeight"))
  {
    Filters(
      Get(params, "brand"),
      NumberParam(h, Get(params, "minPrice")),
      NumberParam(h, Get(params, "maxPrice")),
      NumberParam(h, Get(params, "minWeight")),
      NumberParam(h, Get(params, "maxWeight")),
      Get(params, "type"),
      Get(params, "q"))
  }

  /** The pair a name and an optional value contribute: none when the value is absent. */
  function Emit(block: (string, Option<string>)): (r: Params)
    ensures |r| <= 1
    ensures |r| == 1 ==> r[0].0 == block.0
  {
    match block.1
    case Some(v) => [(block.0, v)]
    case None => []
  }

  function Flatten(blocks: seq<(string, Option<string>)>): Params {
    if |blocks| == 0 then [] else Emit(blocks[0]) + Flatten(blocks[1..])
  }

  function TextIf(cond: bool, v: string): Option<string> {
    if cond then Some(v) else None
  }

  function NumberText(h: Host, x: Option<real>): Option<string> {
    match x
    case Some(v) => Some(h.numberText(v))
    case None => None
  }

  /** The parameters `handleFilterChange` writes, in its order: texts only when truthy, numbers
      whenever they are not `null`. */
  function QueryBlocks(h: Host, f: Filters): (b: seq<(string, Option<string>)>)
    ensures |b| == 7
  {
    [("brand", TextIf(Truthy(f.brand), f.brand.GetOr(""))),
     ("minPrice", NumberText(h, f.minPrice)),
     ("maxPrice", NumberText(h, f.maxPrice)),
     ("minWeight", NumberText(h, f.minWeight)),
     ("maxWeight", NumberText(h, f.maxWeight)),
     ("type", TextIf(Truthy(f.vehicleType), f.vehicleType.GetOr(""))),
     ("q", TextIf(Truthy(f.search), f.search.GetOr("")))]
  }

  function ToQuery(h: Host, f: Filters): Params {
    Flatten(QueryBlocks(h, f))
  }

  /** A text filter as it comes back from the query string: empty becomes `null`. */
  function Normal(s: Option<string>): Option<string> {
    if Truthy(s) then s else None
  }

  /** A leading pair with another name does not hide what follows. */
  lemma GetSkip(head: Params, rest: Params, name: string)
    requires |head| <= 1 && (|head| == 1 ==> head[0].0 != name)
    ensures Get(head + rest, name) == Get(rest, name)
  {
    if |head| == 1 {
      assert (head + rest)[0] == head[0];
      assert (head + rest)[1..] == rest;
    } else {
      assert head + rest == rest;
    }
  }

  lemma {:induction false} FlattenAbsent(blocks: seq<(string, Option<string>)>, name: string)
    requires forall j :: 0 <= j < |blocks| ==> blocks[j].0 != name
    ensures Get(Flatten(blocks), name) == None
    decreases |blocks|
  {
    if |blocks| > 0 {
      assert forall j :: 0 <= j < |blocks[1..]| ==> blocks[1..][j] == blocks[j + 1];
      FlattenAbsent(blocks[1..], name);
      GetSkip(Emit(blocks[0]), Flatten(blocks[1..]), name);
    }
  }

  /** With pairwise distinct names, every name reads back its own value. */
  lemma {:induction false} GetFlatten(blocks: seq<(string, Option<string>)>, i: nat)
    requires i < |blocks|
    requires forall a, b :: 0 <= a < b < |blocks| ==> blocks[a].0 != blocks[b].0
    ensures Get(Flatten(blocks), blocks[i].0) == blocks[i].1
    decreases |blocks|
  {
    var tail := blocks[1..];
    assert forall j :: 0 <= j < |tail| ==> tail[j] == blocks[j + 1];
    if i == 0 {
      if blocks[0].1.None? {
        FlattenAbsent(tail, blocks[0].0);
        GetSkip(Emit(blocks[0]), Flatten(tail), blocks[0].0);
      }
    } else {
      GetFlatten(tail, i - 1);
      GetSkip(Emit(blocks[0]), Flatten(tail), blocks[i].0);
    }
  }

  /** Writing the filters to the query string and reading them back gives the same filters,
      except that an empty text criterion comes back as `null`. Numbers survive because the
      host's number-to-text conversion reads back exactly and is never empty. */
  lemma QueryRoundTrip(h: Host, f: Filters)
    requires NumberTextRoundTrips(h)
    ensures FromQuery(h, ToQuery(h, f)) ==
      f.(brand := Normal(f.brand), vehicleType := Normal(f.vehicleType), search := Normal(f.search))
  {
    var b := QueryBlocks(h, f);
    var q := ToQuery(h, f);
    assert forall x, y :: 0 <= x < y < |b| ==> b[x].0 != b[y].0;
    GetFlatten(b, 0);
    GetFlatten(b, 1);
    GetFlatten(b, 2);
    GetFlatten(b, 3);
    GetFlatten(b, 4);
    GetFlatten(b, 5);
    GetFlatten(b, 6);
  }

  /** Reading an empty query string gives no filters at all. */
  lemma EmptyQueryNoFilters(h: Host)
    ensures FromQuery(h, []) == NoFilters
  {
  }

  /** `safeSelectedType`: the filter's type when it is enabled, otherwise the first enabled type,
      otherwise `xe-tai`. Which types are enabled is configuration outside this model, given here
      as the list `enabled` and the test `isEnabled`. */
  function SafeSelectedType(f: Filters, enabled: seq<string>, isEnabled: string -> bool): (r: string)
    ensures Truthy(f.vehicleType) && isEnabled(f.vehicleType.value) ==> r == f.vehicleType.value
    ensures !(Truthy(f.vehicleType) && isEnabled(f.vehicleType.value)) ==>
              r == (if |enabled| > 0 && enabled[0] != "" then enabled[0] else "xe-tai")
  {
    if Truthy(f.vehicleType) && isEnabled(f.vehicleType.value) then f.vehicleType.value
    else if |enabled| > 0 && enabled[0] != "" then enabled[0]
    else "xe-tai"
  }

  /** When the list and the test describe the same non-empty set of non-empty names, the
      selected tab is always an enabled type. */
  lemma SafeSelectedTypeIsEnabled(f: Filters, enabled: seq<string>, isEnabled: string -> bool)
    requires |enabled| > 0 && enabled[0] != ""
    requires forall s :: isEnabled(s) <==> s in enabled
    ensures isEnabled(SafeSelectedType(f, enabled, isEnabled))
  {
  }
}

=== FILE: truck_detail.dfy ===
/** The vehicle detail page: related vehicles, the compare toggle, the blog category slug helper
    and the choice of specification tabs. */
module TruckDetail {
  import opened Js
  import opened Trucks
  import Seqs
  import CompareContext
  import BlogPost

  const MaxRelated: nat := 4

  function Abs(x: real): real {
    if x < 0.0 then -x else x
  }

  /** The `filter` predicate for related vehicles: same brand by `===`, or weight within two
      tonnes, and never the vehicle itself. */
  function IsRelated(found: Truck): Truck -> bool {
    (t: Truck) => (SameBrand(t.brand, found.brand) || Abs(t.weight - found.weight) < 2.0) && t.id != found.id
  }

  /** `trucks.filter(...).slice(0, 4)` */
  function RelatedTrucks(catalog: seq<Truck>, found: Truck): (r: seq<Truck>)
    ensures |r| <= MaxRelated
    ensures forall t :: t in r ==> t in catalog && t.id != found.id
    ensures forall t :: t in r ==> SameBrand(t.brand, found.brand) || Abs(t.weight - found.weight) < 2.0
    ensures Seqs.IsSubseq(r, catalog)
  {
    var p := IsRelated(found);
    var all := Seqs.Filter(catalog, p);
    TakePrefix(all, MaxRelated);
    var r := Slice(all, 0, MaxRelated);
    PrefixOfFilter(r, catalog, p);
    forall t | t in r ensures t.id != found.id && (SameBrand(t.brand, found.brand) || Abs(t.weight - found.weight) < 2.0) {
      assert p(t);
    }
    r
  }

  lemma PrefixOfFilter<T(!new)>(r: seq<T>, s: seq<T>, p: T -> bool)
    requires r <= Seqs.Filter(s, p)
    ensures Seqs.IsSubseq(r, s)
    ensures forall t :: t in r ==> t in s && p(t)
  {
    var all := Seqs.Filter(s, p);
    Seqs.FilterIsSubseq(s, p);
    PrefixIsSubseq(r, all);
    Seqs.SubseqTransitive(r, all, s);
    assert forall t :: t in r ==> t in all;
  }

  lemma {:induction false} PrefixIsSubseq<T>(p: seq<T>, s: seq<T>)
    requires p <= s
    ensures Seqs.IsSubseq(p, s)
    decreases |s|
  {
    if |p| > 0 {
      PrefixIsSubseq(p[1..], s[1..]);
    }
  }

  /** The related list is the first four matches in catalog order: as many as there are, up to
      four, and no match is skipped in favour of a later one. */
  lemma RelatedAreFirstMatches(catalog: seq<Truck>, found: Truck)
    ensures var all := Seqs.Filter(catalog, IsRelated(found));
            RelatedTrucks(catalog, found) == all[..Min(MaxRelated, |all|)]
  {
    TakePrefix(Seqs.Filter(catalog, IsRelated(found)), MaxRelated);
  }

  /** What the page shows for a URL slug: the first vehicle with that slug and its related
      vehicles, or the not-found view. */
  function DetailFor(slug: Option<string>, catalog: seq<Truck>): (r: Option<(Truck, seq<Truck>)>)
    ensures r.Some? ==> Truthy(slug) && FindBySlug(catalog, slug.value) == Some(r.value.0)
    ensures Truthy(slug) && FindBySlug(catalog, slug.value).Some? ==> r.Some?
    ensures r.Some? ==> r.value.1 == RelatedTrucks(catalog, r.value.0)
  {
    if !Truthy(slug) then None
    else match FindBySlug(catalog, slug.value)
      case None => None
      case Some(t) => Some((t, RelatedTrucks(catalog, t)))
  }

  /** The page's own category-to-slug table, looked up by own key. */
  function LocalCategorySlug(category: string): (r: string)
  {
    if category == "industry-news" then "tin-tuc-nganh-van-tai"
    else if category == "product-review" then "danh-gia-xe"
    else if category == "driver-tips" then "kinh-nghiem-lai-xe"
    else if category == "maintenance" then "bao-duong"
    else if category == "buying-guide" then "tu-van-mua-xe"
    else if category == "technology" then "cong-nghe-doi-moi"
    else category
  }

  /** The local table agrees with the blog model's slug table on every string: the six keys get
      their slug, every other string passes through. */
  lemma LocalCategorySlugAgrees(category: string)
    ensures LocalCategorySlug(category) == BlogPost.CategorySlugOrKey(category)
  {
  }

  datatype ToggleToast = RemovedToast | AddedToast

  /** `handleToggleCompare`: remove when present, otherwise add; the page's own toast says
      "added" whatever the context decided. */
  function ToggleCompare(items: seq<Truck>, truck: Truck): (r: (seq<Truck>, ToggleToast))
    ensures CompareContext.InCompare(items, truck.id) ==>
              r.1 == RemovedToast && !CompareContext.InCompare(r.0, truck.id) &&
              r.0 == CompareContext.RemoveFromCompare(items, truck.id)
    ensures !CompareContext.InCompare(items, truck.id) ==> r.1 == AddedToast
    ensures !CompareContext.InCompare(items, truck.id) && |items| < CompareContext.MaxCompareItems ==>
              r.0 == items + [truck]
    ensures !CompareContext.InCompare(items, truck.id) && |items| >= CompareContext.MaxCompareItems ==>
              r.0 == items
  {
    if CompareContext.InCompare(items, truck.id) then
      (CompareContext.RemoveFromCompare(items, truck.id), RemovedToast)
    else
      var a := CompareContext.AddToCompare(items, truck);
      assert a.1 == CompareContext.Added ==> a.0 == a.0[..|items|] + [a.0[|items|]];
      (a.0, AddedToast)
  }

  /** On a full list the page claims "added" although nothing changed. */
  lemma FullListToastMismatch(items: seq<Truck>, truck: Truck)
    requires |items| >= CompareContext.MaxCompareItems
    requires !CompareContext.InCompare(items, truck.id)
    ensures ToggleCompare(items, truck) == (items, AddedToast)
    ensures CompareContext.AddToCompare(items, truck).1 == CompareContext.ListFull
  {
  }

  /** Toggling twice restores a list that had room and did not hold the vehicle. */
  lemma ToggleTwice(items: seq<Truck>, truck: Truck)
    requires |items| < CompareContext.MaxCompareItems
    requires !CompareContext.InCompare(items, truck.id)
    ensures ToggleCompare(ToggleCompare(items, truck).0, truck).0 == items
  {
    var once := ToggleCompare(items, truck).0;
    assert once[|items|] == truck;
    assert CompareContext.InCompare(once, truck.id);
    CompareContext.AddThenRemove(items, truck);
  }

  // ---------------------------------------------------------------------------------------
  // Tabs

  datatype Tab = Description | Specifications | Crane | Refrigeration | Insulated | Closed
               | Tarpaulin | Flatbed | Tank | Contact

  /** The `value` each tab carries. */
  function TabValue(t: Tab): string {
    match t
    case Description => "description"
    case Specifications => "specifications"
    case Crane => "crane"
    case Refrigeration => "refrigeration"
    case Insulated => "insulated"
    case Closed => "closed"
    case Tarpaulin => "tarpaulin"
    case Flatbed => "flatbed"
    case Tank => "tank"
    case Contact => "contact"
  }

  /** The box tab a body type gets, if any. */
  function BoxTab(boxType: Option<string>): (r: Option<Tab>)
    ensures r.Some? ==> r.value in {Refrigeration, Insulated, Closed, Tarpaulin, Flatbed, Tank}
  {
    if boxType == Some("đông-lạnh") then Some(Refrigeration)
    else if boxType == Some("bảo-ôn") then Some(Insulated)
    else if boxType == Some("kín") then Some(Closed)
    else if boxType == Some("bạt") then Some(Tarpaulin)
    else if boxType == Some("lửng") then Some(Flatbed)
    else if boxType == Some("xi-téc") then Some(Tank)
    else None
  }

  /** The tabs between the description and the contact tab. */
  function MiddleTabs(t: Truck): seq<Tab> {
    if t.vehicleType == "dau-keo" then [Specifications]
    else if t.vehicleType == "xe-cau" then
      if t.craneType == Some("cẩu-rời") then [Crane]
      else if t.craneType == Some("cẩu-gắn-xe") then [Specifications, Crane]
      else []
    else if t.vehicleType == "mooc" then [Specifications]
    else [Specifications] + match BoxTab(t.boxType) case Some(b) => [b] case None => []
  }

  /** `getTabs` */
  function Tabs(t: Truck): (r: seq<Tab>)
    ensures 2 <= |r| <= 4
    ensures r[0] == Description && r[|r| - 1] == Contact
  {
    [Description] + MiddleTabs(t) + [Contact]
  }

  /** Tab values are pairwise distinct. */
  lemma TabsDistinct(t: Truck)
    ensures forall i, j :: 0 <= i < j < |Tabs(t)| ==> TabValue(Tabs(t)[i]) != TabValue(Tabs(t)[j])
  {
    var r := Tabs(t);
    var b := BoxTab(t.boxType);
    assert b.Some? ==> b.value != Specifications && b.value != Description && b.value != Contact;
  }

  /** Tractors and trailers get exactly the specification tab in the middle. */
  lemma TabsTractorAndTrailer(t: Truck)
    requires t.vehicleType == "dau-keo" || t.vehicleType == "mooc"
    ensures Tabs(t) == [Description, Specifications, Contact]
  {
  }

  /** Crane vehicles: the crane kind alone decides the tabs. */
  lemma TabsCrane(t: Truck)
    requires t.vehicleType == "xe-cau"
    ensures t.craneType == Some("cẩu-rời") ==> Tabs(t) == [Description, Crane, Contact]
    ensures t.craneType == Some("cẩu-gắn-xe") ==> Tabs(t) == [Description, Specifications, Crane, Contact]
    ensures t.craneType != Some("cẩu-rời") && t.craneType != Some("cẩu-gắn-xe") ==>
              Tabs(t) == [Description, Contact]
  {
  }

  /** Every other type gets the specification tab and at most one box tab chosen by body type. */
  lemma TabsOther(t: Truck)
    requires t.vehicleType !in {"dau-keo", "xe-cau", "mooc"}
    ensures 3 <= |Tabs(t)| <= 4 && Tabs(t)[1] == Specifications
    ensures |Tabs(t)| == 4 <==> BoxTab(t.boxType).Some?
    ensures |Tabs(t)| == 4 ==> Tabs(t)[2] == BoxTab(t.boxType).value
    ensures t.boxType.None? ==> Tabs(t) == [Description, Specifications, Contact]
  {
  }
}

=== FILE: trucks.dfy ===
/** The vehicle record shared by the catalog, the compare list and the detail page. */
module Trucks {
  import opened Js

  /** A vehicle's brand is either one string or an array of strings. JavaScript compares arrays
      by reference, so an array brand carries the identity of the array object it was read from. */
  datatype Brand = Single(name: string) | Several(ref: nat, names: seq<string>)

  /** `Array.isArray(brand) ? brand : [brand]` */
  function BrandNames(b: Brand): (r: seq<string>)
    ensures b.Single? ==> r == [b.name]
    ensures b.Several? ==> r == b.names
  {
    match b
    case Single(n) => [n]
    case Several(_, ns) => ns
  }

  /** `Array.isArray(brand) ? brand[0] : brand`, where indexing an empty array gives `undefined`. */
  function FirstBrand(b: Brand): (r: Option<string>)
    ensures r.Some? <==> |BrandNames(b)| > 0
    ensures r.Some? ==> r.value == BrandNames(b)[0]
  {
    match b
    case Single(n) => Some(n)
    case Several(_, ns) => if |ns| > 0 then Some(ns[0]) else None
  }

  /** `a === b`: strings by value, arrays by identity, a string never equals an array. */
  predicate SameBrand(a: Brand, b: Brand) {
    match (a, b)
    case (Single(x), Single(y)) => x == y
    case (Several(r, _), Several(s, _)) => r == s
    case _ => false
  }

  lemma SameBrandEquivalence(a: Brand, b: Brand, c: Brand)
    ensures SameBrand(a, a)
    ensures SameBrand(a, b) ==> SameBrand(b, a)
    ensures SameBrand(a, b) && SameBrand(b, c) ==> SameBrand(a, c)
  {
  }

  /** Two distinct array objects with the same contents are not `===`. */
  lemma ArrayBrandsCompareByIdentity()
    ensures !SameBrand(Several(1, ["Hino"]), Several(2, ["Hino"]))
    ensures !SameBrand(Single("Hino"), Several(1, ["Hino"]))
  {
  }

  /** The fields of a catalog vehicle that the modelled logic reads. Numbers are exact reals;
      an absent optional text is the empty string, which JavaScript treats the same way here. */
  datatype Truck = Truck(
    id: string,
    name: string,
    slug: string,
    brand: Brand,
    vehicleType: string,
    price: real,
    priceText: string,
    weight: real,
    weightText: string,
    description: string,
    craneType: Option<string>,
    boxType: Option<string>,
    thumbnailUrl: string
  )

  /** `trucks.find(t => t.slug === slug)` */
  function FindBySlug(trucks: seq<Truck>, slug: string): (r: Option<Truck>)
    ensures r.Some? <==> exists i :: 0 <= i < |trucks| && trucks[i].slug == slug
    ensures r.Some? ==> r.value in trucks && r.value.slug == slug
    ensures r.Some? ==> exists i :: 0 <= i < |trucks| && trucks[i] == r.value &&
                          forall j :: 0 <= j < i ==> trucks[j].slug != slug
  {
    if |trucks| == 0 then None
    else if trucks[0].slug == slug then Some(trucks[0])
    else
      var r := FindBySlug(trucks[1..], slug);
      if r.Some? then
        var i :| 0 <= i < |trucks[1..]| && trucks[1..][i] == r.value &&
                 forall j :: 0 <= j < i ==> trucks[1..][j].slug != slug;
        assert trucks[i + 1] == r.value;
        Some(r.value)
      else
        assert forall i :: 1 <= i < |trucks| ==> trucks[i] == trucks[1..][i - 1];
        None
  }
}

=== FILE: weight_categories.dfy ===
/** The home page's weight categories: one link per weight bucket into the catalog, with an icon
    that grows with the bucket. */
module WeightCategories {
  import opened Js
  import opened Trucks
  import Products
  import TruckCatalog

  /** `getIconSize`: 24 pixels for the first bucket, 3 more for each following one. */
  function IconSize(index: nat): (px: nat)
    ensures px >= 24
    ensures px == 24 + 3 * index
  {
    24 + index * 3
  }

  /** The eight icons go from 24 to 45 pixels, each larger than the one before. */
  lemma IconSizesGrow()
    ensures IconSize(0) == 24 && IconSize(|Products.TruckWeights| - 1) == 45
    ensures forall i :: 0 < i < |Products.TruckWeights| ==> IconSize(i - 1) < IconSize(i)
  {
  }

  /** A link into the catalog: its path and its query parameters. */
  datatype Link = Link(path: string, query: TruckCatalog.Params)

  /** The link of one bucket: `/danh-muc-xe?minWeight=<min>&maxWeight=<max>`. */
  function BucketLink(h: Host, b: Products.WeightBucket): (l: Link)
    ensures l.path == "/danh-muc-xe" && |l.query| == 2
  {
    Link("/danh-muc-xe", [("minWeight", h.numberText(b.minWeight)), ("maxWeight", h.numberText(b.maxWeight))])
  }

  /** The links, one per bucket in bucket order. */
  function Links(h: Host): (ls: seq<Link>)
    ensures |ls| == |Products.TruckWeights|
    ensures forall i :: 0 <= i < |ls| ==> ls[i] == BucketLink(h, Products.TruckWeights[i])
  {
    seq(|Products.TruckWeights|, i requires 0 <= i < |Products.TruckWeights| => BucketLink(h, Products.TruckWeights[i]))
  }

  /** The catalog reads a bucket's link back as exactly the bucket's weight bounds, no other
      filter set. */
  lemma BucketLinkFilters(h: Host, b: Products.WeightBucket)
    requires NumberTextRoundTrips(h)
    ensures TruckCatalog.FromQuery(h, BucketLink(h, b).query) ==
              TruckCatalog.NoFilters.(minWeight := Some(b.minWeight), maxWeight := Some(b.maxWeight))
  {
    var q := BucketLink(h, b).query;
    assert TruckCatalog.Get(q, "minWeight") == Some(h.numberText(b.minWeight));
    assert TruckCatalog.Get(q, "maxWeight") == Some(h.numberText(b.maxWeight));
  }

  /** Following a bucket's link lists exactly the visible vehicles whose weight lies in the
      bucket, bounds included. */
  lemma BucketLinkShowsBucket(h: Host, i: nat, visible: seq<Truck>, t: Truck)
    requires NumberTextRoundTrips(h)
    requires i < |Products.TruckWeights|
    ensures var b := Products.TruckWeights[i];
            t in TruckCatalog.ApplyFilters(h, TruckCatalog.FromQuery(h, BucketLink(h, b).query), visible) <==>
              t in visible && b.minWeight <= t.weight <= b.maxWeight
  {
    var b := Products.TruckWeights[i];
    var f := TruckCatalog.NoFilters.(minWeight := Some(b.minWeight), maxWeight := Some(b.maxWeight));
    BucketLinkFilters(h, b);
    TruckCatalog.ApplyFiltersSubseq(h, f, visible);
    TruckCatalog.MatchesMeaning(h, f, t);
  }
}

=== FILE: weight_filter.dfy ===
/** The weight filter of the catalog sidebar: the rounded-up maximum weight, whether a range
    counts as filtered, and the texts shown under the slider. */
module WeightFilter {
  import opened Js
  import opened Trucks
  import Products

  /** `MAX_WEIGHT`: the slider's upper end, in tonnes. */
  const MaxWeight: real := 100.0

  /** `Math.ceil` */
  function Ceil(x: real): (c: int)
    ensures x <= c as real < x + 1.0
  {
    -((-x).Floor)
  }

  /** A weight that is a whole number of 5-tonne steps. */
  predicate MultipleOfFive(w: real) {
    (w / 5.0).Floor as real == w / 5.0
  }

  /** `calculateMaxWeight`: the heaviest weight (0 when there is none or all are negative),
      rounded up to the next multiple of 5. The result is the least multiple of 5 that is at least
      0 and at least every weight. */
  method CalculateMaxWeight(trucks: seq<Truck>) returns (r: real)
    ensures MultipleOfFive(r)
    ensures r >= 0.0
    ensures forall i :: 0 <= i < |trucks| ==> trucks[i].weight <= r
    ensures r == 0.0 || exists i :: 0 <= i < |trucks| && trucks[i].weight > r - 5.0
  {
    var maxWeight := 0.0;
    var k := 0;
    while k < |trucks|
      invariant 0 <= k <= |trucks|
      invariant maxWeight >= 0.0
      invariant forall i :: 0 <= i < k ==> trucks[i].weight <= maxWeight
      invariant maxWeight == 0.0 || exists i :: 0 <= i < k && trucks[i].weight == maxWeight
    {
      if trucks[k].weight > maxWeight {
        maxWeight := trucks[k].weight;
      }
      k := k + 1;
    }
    var steps := Ceil(maxWeight / 5.0);
    r := steps as real * 5.0;
    assert r / 5.0 == steps as real;
    if r != 0.0 {
      var i :| 0 <= i < |trucks| && trucks[i].weight == maxWeight;
      assert trucks[i].weight > r - 5.0;
    }
  }

  /** The `isFiltered` state once the effect has run: the lower end is above 0 or the upper end
      below the maximum. */
  predicate IsFiltered(lo: real, hi: real) {
    lo > 0.0 || hi < MaxWeight
  }

  /** `truckWeights.find(...)`: the first bucket whose both ends are within 0.1 of the range. */
  function FindBucket(buckets: seq<Products.WeightBucket>, lo: real, hi: real): (r: Option<Products.WeightBucket>)
    ensures r.Some? ==> r.value in buckets && Close(r.value, lo, hi)
    ensures r.None? <==> forall i :: 0 <= i < |buckets| ==> !Close(buckets[i], lo, hi)
  {
    if |buckets| == 0 then None
    else if Close(buckets[0], lo, hi) then Some(buckets[0])
    else
      var r := FindBucket(buckets[1..], lo, hi);
      assert forall i :: 1 <= i < |buckets| ==> buckets[i] == buckets[1..][i - 1];
      r
  }

  function Abs(x: real): real {
    if x < 0.0 then -x else x
  }

  predicate Close(b: Products.WeightBucket, lo: real, hi: real) {
    Abs(b.minWeight - lo) < 0.1 && Abs(b.maxWeight - hi) < 0.1
  }

  const AllWeights: string := "Tất cả tải trọng"

  /** `getWeightRangeLabel`, given the `isFiltered` state the component holds. */
  function RangeLabel(h: Host, isFiltered: bool, lo: real, hi: real): (text: string)
    ensures !isFiltered && lo == 0.0 && hi >= MaxWeight ==> text == AllWeights
    ensures !(!isFiltered && lo == 0.0 && hi >= MaxWeight) ==>
              match FindBucket(Products.TruckWeights, lo, hi)
              case Some(b) => text == b.name
              case None => text == h.numberText(lo) + " - " + h.numberText(hi) + " tấn"
  {
    if !isFiltered && lo == 0.0 && hi >= MaxWeight then AllWeights
    else
      match FindBucket(Products.TruckWeights, lo, hi)
      case Some(b) => b.name
      case None => h.numberText(lo) + " - " + h.numberText(hi) + " tấn"
  }

  /** With the state settled, the "all weights" text shows exactly for a range from 0 to the
      maximum or beyond. */
  lemma AllWeightsExactly(h: Host, lo: real, hi: real)
    ensures RangeLabel(h, IsFiltered(lo, hi), lo, hi) == AllWeights <==> lo == 0.0 && hi >= MaxWeight
  {
    if !(lo == 0.0 && hi >= MaxWeight) {
      var text := RangeLabel(h, IsFiltered(lo, hi), lo, hi);
      match FindBucket(Products.TruckWeights, lo, hi)
      case Some(b) =>
        assert text == b.name;
        assert b.name != AllWeights;
      case None =>
        var tail := text[|text| - 4..];
        assert tail == " tấn";
        assert AllWeights[|AllWeights| - 4..] != " tấn";
    }
  }

  /** Picking a bucket's own range on the slider names that bucket. */
  lemma BucketLabels(h: Host, i: nat)
    requires i < |Products.TruckWeights|
    ensures var b := Products.TruckWeights[i];
            RangeLabel(h, IsFiltered(b.minWeight, b.maxWeight), b.minWeight, b.maxWeight) == b.name
  {
    var ws := Products.TruckWeights;
    var b := ws[i];
    assert IsFiltered(b.minWeight, b.maxWeight);
    assert forall j :: 0 <= j < i ==> !Close(ws[j], b.minWeight, b.maxWeight);
    FindBucketFirst(ws, i, b.minWeight, b.maxWeight);
  }

  lemma {:induction false} FindBucketFirst(buckets: seq<Products.WeightBucket>, i: nat, lo: real, hi: real)
    requires i < |buckets| && Close(buckets[i], lo, hi)
    requires forall j :: 0 <= j < i ==> !Close(buckets[j], lo, hi)
    ensures FindBucket(buckets, lo, hi) == Some(buckets[i])
    decreases i
  {
    if i > 0 {
      assert !Close(buckets[0], lo, hi);
      FindBucketFirst(buckets[1..], i - 1, lo, hi);
    }
  }

  /** The text under the slider's upper end. */
  function UpperText(h: Host, hi: real): (text: string)
    ensures hi >= MaxWeight ==> text == "Trên 100 tấn"
    ensures hi < MaxWeight ==> text == h.numberText(hi) + " tấn"
  {
    if hi >= MaxWeight then "Trên 100 tấn" else h.numberText(hi) + " tấn"
  }

  /** The slider's upper text names the maximum exactly when the range is open above; with
      a non-numeric host text this is the only way to get the "above" wording. */
  lemma UpperTextOpen(h: Host, hi: real)
    requires forall x: real :: |h.numberText(x)| > 0 && h.numberText(x)[0] != 'T'
    ensures UpperText(h, hi)[0] == 'T' <==> !IsFiltered(0.0, hi)
  {
  }
}
